=== FILE: README.md ===
# LitRPG bookkeeper — a Dafny model of its rules

The adventure system keeps a LitRPG character's numbers straight while a
story is told. This project models the core of its rules as pure Dafny
functions and proves properties of them. The core has five parts:

- **The dice library** (`lib/dice.py`). It parses `NdS+M` notation,
  rolls it, and handles advantage, damage, healing, critical hits and
  fumbles. It also scales a dice string to an area's level.
- **The game engine's rules** (`game_engine.py`). These cover attacks,
  armor and damage, enemy attacks, skill checks, healing and resting, and
  gold. They also cover spells, status effects and their turn, the
  inventory (add, use, equip), experience with the level-up loop, and the
  deep merge of the configuration over its defaults.
- **The command-line tools** `tools/dice.py` (roll and check) and
  `tools/xp.py`. The latter covers the level table, experience to the
  next level, the award report, stat gains and titles.
- **The NPC relationship matrix** (`npc_matrix.py`) and the game-state
  **sanity check** (`sanity_check.py`).
- **Session logging and archiving.** The in-memory event log of
  `lib/session_logger_v2.py` covers its bound, combat buffer, auto-save
  counter and attack narration. `claude_session_capture.py` and
  `end_session.py` cover file-name sanitising, chapter numbering, the
  archive's name and content, and the merged chapter's name.

## Modelling choices

- **Randomness.**
  - A random source is a function `Rng = nat -> nat`, and die `i` shows
    `rng(i) % sides + 1`.
  - Operations that roll several expressions receive one source per roll
    (`rolls: nat -> Rng`).
  - Every contract holds for every source.
- **Dictionaries** are association lists `seq<(string, V)>` that keep
  insertion order, as Python dictionaries do. JSON values are a `Json`
  datatype.
- **Exceptions.** A Python exception is an `Err` result. When the source
  mutates part of the state and then raises, the model reports the
  error; the partial state is not kept.
- **Python's semantics are written out:**
  - `//` floors;
  - booleans compare as 0 and 1;
  - `re.match(...$)` also matches before one final newline;
  - `\w` and `lower()` are taken on ASCII.
- **Notation details the code fixes:**
  - only a lower-case `d` is dice notation;
  - a count of 0 dice parses, and rolls nothing;
  - `" d6"` does not parse, because the implicit count is added before
    spaces are removed;
  - a scaled dice string always carries its sign, `+0` included.
- **Shared files.** `lib/dice.py`, `game_engine.py`, `npc_matrix.py` and
  `claude_session_capture.py` are identical under `system/` and
  `archive_old_system/system/`, so rows cite either copy.
  `sanity_check.py` exists only in the archive.

## Model

| member | source | states |
|---|---|---|
| DiceLib.RemoveSpaces | Learning/adventure_litrpg/system/lib/dice.py:22 | the result has no space, and a text without spaces is unchanged |
| DiceLib.Faces | Learning/adventure_litrpg/system/lib/dice.py:42 | `n` faces are drawn, each between 1 and the die size |
| DiceLib.RollDiceVerbose | Learning/adventure_litrpg/system/lib/dice.py:33-51 | a roll succeeds exactly when the notation parses and `randint` can draw (no dice, or a die size of at least 1). It draws one face per die, each in range, and the total is their sum plus the modifier |
| DiceLib.RollDice | Learning/adventure_litrpg/system/lib/dice.py:39-53 | the plain roll fails exactly when the verbose roll fails, and otherwise returns the verbose total |
| DiceLib.RollDamage | Learning/adventure_litrpg/system/lib/dice.py:68-79 | damage fails exactly when the dice fail, and is never below 1 |
| DiceLib.ParseIntLiteral | Learning/adventure_litrpg/system/lib/dice.py:88 | `int()` accepts exactly a non-empty digit string, optionally preceded by a sign |
| DiceLib.ParseDice | Learning/adventure_litrpg/system/lib/dice.py:11-31 | a triple is read exactly when the prepared text (implicit count 1, spaces removed) splits as `digits d digits [±digits]`, and it is that split's triple; `DiceProofs.ParseMatchesGrammar` states the same equivalence for the prepared text |
| DiceLib.RollWithAdvantage | Learning/adventure_litrpg/system/lib/dice.py:55-66 | two rolls of the whole expression; the result fails exactly when a roll fails and is one of the two, the larger with advantage and the smaller without; `DiceProofs.AdvantageBounds` bounds it by a single roll |
| DiceLib.RollHealing | Learning/adventure_litrpg/system/lib/dice.py:81-91 | healing fails only for text that is neither an integer nor dice; integer text counts as that integer; dice are rolled; the bonus is added with no floor, as `DiceProofs.HealingExamplesInteger` and `HealingExampleDice` show |
| DiceLib.CheckCritical | Learning/adventure_litrpg/archive_old_system/system/lib/dice.py:93-97 | with the default threshold a d20 face is critical exactly on 20, and a critical roll is never a fumble under a lower fumble threshold; `DiceProofs.D20CriticalAndFumble` states both defaults together |
| DiceLib.CheckFumble | Learning/adventure_litrpg/archive_old_system/system/lib/dice.py:99-103 | with the default threshold a d20 face is a fumble exactly on 1 |
| DiceLib.ScaleForArea | Learning/adventure_litrpg/archive_old_system/system/lib/dice.py:106-132 | scaling fails exactly when the base value does not parse; `DiceProofs.ScaleRoundTrip` shows the scaled text parses back to the scaled triple |
| DiceLib.ParseGrammarFacts | Learning/adventure_litrpg/system/lib/dice.py:11-31 | the regular-expression parser and the grammar agree in both directions |
| DiceProofs.ParseMatchesGrammar | Learning/adventure_litrpg/system/lib/dice.py:11-31 | parsing yields `d` if and only if the prepared text splits into count digits, `d`, size digits and an optional signed modifier (before an optional final newline) that denote `d` |
| DiceProofs.RenderRoundTrip | Learning/adventure_litrpg/archive_old_system/system/lib/dice.py:132 | rendering a triple and parsing the text gives back the same triple |
| DiceProofs.RenderAlwaysSigned | Learning/adventure_litrpg/archive_old_system/system/lib/dice.py:132 | a rendered modifier always starts with `+` or `-`; a non-negative one gets `+` |
| DiceProofs.ParsesAs | Learning/adventure_litrpg/system/lib/dice.py:11-31 | any text of the grammar's shape parses to the values of its pieces |
| DiceProofs.ParseExampleTwoD6PlusThree | Learning/adventure_litrpg/system/tests/test_dice.py:18 | `2d6+3` is two six-sided dice plus 3 |
| DiceProofs.ParseExampleOneD20MinusTwo | Learning/adventure_litrpg/system/tests/test_dice.py:19 | `1d20-2` is one d20 minus 2 |
| DiceProofs.ParseExampleThreeD8 | Learning/adventure_litrpg/system/tests/test_dice.py:20 | `3d8` has modifier 0 |
| DiceProofs.ParseExampleImplicitCount | Learning/adventure_litrpg/system/tests/test_dice.py:23 | `d20` means one die |
| DiceProofs.ParseExampleImplicitCountWithModifier | Learning/adventure_litrpg/system/tests/test_dice.py:24 | `d6+2` means one die plus 2 |
| DiceProofs.ParseExampleSpaces | Learning/adventure_litrpg/system/lib/dice.py:22 | spaces inside the notation are ignored |
| DiceProofs.ParseExampleFinalNewline | Learning/adventure_litrpg/system/lib/dice.py:21 | one final newline is tolerated by `$` |
| DiceProofs.ParseExampleRejected | Learning/adventure_litrpg/system/tests/test_dice.py:26-30 | the malformed inputs are rejected, and so are `" d6"` and an upper-case `D` |
| DiceProofs.RollBounds | Learning/adventure_litrpg/system/lib/dice.py:39-43 | a roll of `NdS+M` lies in [N+M, N·S+M] |
| DiceProofs.AdvantageBounds | Learning/adventure_litrpg/archive_old_system/system/lib/dice.py:55-66 | advantage and disadvantage fail exactly when one roll fails, and stay within a single roll's bounds |
| DiceProofs.DamageRange | Learning/adventure_litrpg/system/lib/dice.py:73-79 | damage lies between the floored minimum and the floored maximum of the dice plus the bonus, times the multiplier on a critical hit |
| DiceProofs.DamageExamples | Learning/adventure_litrpg/system/tests/test_dice.py:46-56 | `1d6` with bonus 2 deals 3 to 8, and 6 to 16 on a doubled critical hit |
| DiceProofs.DamageExampleFloor | Learning/adventure_litrpg/system/tests/test_dice.py:58-60 | a penalty larger than the roll still deals exactly 1 |
| DiceProofs.HealingExamplesInteger | Learning/adventure_litrpg/system/tests/test_dice.py:64-66 | integer healing is taken exactly, plus the bonus, whatever the dice would show |
| DiceProofs.HealingExampleDice | Learning/adventure_litrpg/system/tests/test_dice.py:68-72 | dice healing lies in the dice's range |
| DiceProofs.D20CriticalAndFumble | Learning/adventure_litrpg/archive_old_system/system/lib/dice.py:93-103 | with the default thresholds a d20 face is critical exactly on 20 and a fumble exactly on 1 |
| DiceProofs.ScaleRoundTrip | Learning/adventure_litrpg/archive_old_system/system/lib/dice.py:106-132 | scaling fails exactly when the input does not parse, and the scaled text parses back to the scaled triple |
| DiceProofs.ScalingMonotone | Learning/adventure_litrpg/archive_old_system/system/lib/dice.py:115-130 | scaling never lowers the modifier or changes the die size; it loses at most one die, and only when the player is overleveled, never going below one die |
| DiceProofs.ScalingIdentityAtBaseArea | Learning/adventure_litrpg/archive_old_system/system/lib/dice.py:115-130 | at area level 1 a player level from -1 to 3 leaves the dice unchanged |
| DiceProofs.ScalingExampleBaseArea | Learning/adventure_litrpg/system/tests/test_dice.py:76-78 | `2d6+3` at area 1 stays `2d6+3` |
| DiceProofs.ScalingExampleHigherArea | Learning/adventure_litrpg/system/tests/test_dice.py:80-85 | `2d6+3` at area 5 against player 3 becomes `3d6+11` |
| DiceProofs.ScalingExampleOverleveled | Learning/adventure_litrpg/system/tests/test_dice.py:87-91 | an overleveled player faces one die fewer |
| DiceProofs.ScalingExampleZeroModifier | Learning/adventure_litrpg/archive_old_system/system/lib/dice.py:132 | a zero modifier is written out as `+0` |
| Combat.WeaponDice | Learning/adventure_litrpg/system/game_engine.py:218-226 | an explicit weapon damage wins; without one an empty weapon slot means unarmed `1d4`; the dice are missing exactly when the equipped weapon is not in the catalog; `CombatProofs.WeaponPrecedence` ties this to `attack` |
| Combat.RawDamage | Learning/adventure_litrpg/system/game_engine.py:228-252 | the damage before armor fails exactly when the rolled damage fails or rage is active but not configured; without rage and sneak bonus it is the rolled damage; `CombatProofs.RageAddsFlatBonus` states the rage bonus |
| Combat.Bloodlust | Learning/adventure_litrpg/system/game_engine.py:230-234 | at or below half health the damage grows by a tenth, rounded down, and is otherwise unchanged; a zero maximum raises |
| Combat.Attack | Learning/adventure_litrpg/system/game_engine.py:210-274 | an attack succeeds exactly when the weapon is resolved, its dice roll, and the active effects it reads are configured. Its damage is the raw damage minus the target's armor, but at least 1. It changes only the stamina, which drops by the attack cost but not below 0, and the report says whether the hit was critical |
| Combat.TotalArmor | Learning/adventure_litrpg/system/game_engine.py:280-297 | armor fails exactly when an active shield or rage effect is unconfigured. Without either effect it is base plus item armor, and under rage it is never negative |
| Combat.ArmorOf | Learning/adventure_litrpg/system/game_engine.py:287-295 | armor fails exactly when an active shield or rage lacks its configuration; with neither it is the base armor, and under rage it is never negative |
| Combat.DamageThrough | Learning/adventure_litrpg/system/game_engine.py:299-301 | physical damage is reduced by armor but never below 1 |
| Combat.TakeDamage | Learning/adventure_litrpg/system/game_engine.py:276-320 | only hit points change; they drop by the damage that gets through, not below 0, and the report tells whether the character died |
| Combat.EnemyAttack | Learning/adventure_litrpg/system/game_engine.py:916-950 | the attack succeeds exactly when the enemy's dice parse and roll and, for a hit, `take_damage` succeeds; a dodge costs only stamina; a hit is `take_damage` with the enemy's roll as physical damage |
| Combat.AttributeModifier | Learning/adventure_litrpg/system/game_engine.py:832-834 | the modifier is the floor of half the distance from 10, with a missing attribute counting as 10; a text, list or dictionary entry (`name`, `class`, `inventory`, `equipment`) raises a `TypeError` on the subtraction |
| Combat.SkillCheck | Learning/adventure_litrpg/system/game_engine.py:828-865 | success means a natural 20, or no natural 1 and a total that meets the difficulty; the total is the d20 face plus the modifier; an attribute that is a text entry raises a `TypeError`, and any numeric attribute gives a result when the `blessed` effect is configured or absent |
| CombatProofs.WeaponPrecedence | Learning/adventure_litrpg/system/game_engine.py:218-228 | the explicit weapon wins; then the equipped weapon's damage (default `1d4`); unarmed is `1d4`; an unknown equipped weapon fails |
| CombatProofs.ForcedCriticalIgnoresChance | Learning/adventure_litrpg/system/game_engine.py:237-240 | when a critical hit is forced, the chance roll does not matter |
| CombatProofs.ChanceCriticalMultiplies | Learning/adventure_litrpg/system/game_engine.py:237-240 | a chance critical multiplies the damage after bloodlust and before the other bonuses |
| CombatProofs.SneakBonusOnlyForRogues | Learning/adventure_litrpg/system/game_engine.py:242-245 | the sneak bonus is level times the per-level bonus for rogues and nothing otherwise |
| CombatProofs.RogueIgnoresCase | Learning/adventure_litrpg/system/game_engine.py:243 | the rogue test ignores case |
| CombatProofs.RageAddsFlatBonus | Learning/adventure_litrpg/system/game_engine.py:247-249 | rage adds exactly its configured flat bonus (default 5) to the damage the same character deals without rage |
| CombatProofs.StaminaNeverBlocks | Learning/adventure_litrpg/system/game_engine.py:254-256 | whether an attack succeeds does not depend on stamina |
| CombatProofs.ArmorMonotone | Learning/adventure_litrpg/system/game_engine.py:299-301 | more armor never lets more damage through |
| CombatProofs.AttackArmorMonotone | Learning/adventure_litrpg/system/game_engine.py:251-252 | more target armor never changes whether an attack succeeds and never raises its damage, which stays at least 1 |
| CombatProofs.RageBeforeArmor | Learning/adventure_litrpg/system/game_engine.py:247-252 | under rage the damage is the calm raw damage plus the rage bonus, minus the target's armor, floored at 1 |
| CombatProofs.ShieldAddsBonus | Learning/adventure_litrpg/system/game_engine.py:287-289 | an active shield spell adds its configured armor bonus (default 3) to the armor without it |
| CombatProofs.RageSubtractsPenalty | Learning/adventure_litrpg/system/game_engine.py:291-294 | rage subtracts its configured armor penalty (default 2) from the calm armor, and only then floors it at 0 |
| CombatProofs.TakeDamageExample | Learning/adventure_litrpg/system/game_engine.py:299-303 | 10 physical damage through armor 3 costs 7 hit points, while other damage types ignore armor |
| CombatProofs.PhysicalDamageHurts | Learning/adventure_litrpg/system/game_engine.py:299-303 | physical damage costs a living character at least one hit point and never drives hit points below 0 |
| CombatProofs.EnemyHitWounds | Learning/adventure_litrpg/system/game_engine.py:944-950 | an enemy hit that lands on a living character wounds it |
| CombatProofs.DodgeCostsOnlyStamina | Learning/adventure_litrpg/system/game_engine.py:933-942 | a dodge leaves hit points untouched |
| CombatProofs.AttributeModifierExamples | Learning/adventure_litrpg/system/game_engine.py:832-834 | 15 gives +2, 9 gives -1, and a missing attribute gives 0 |
| CombatProofs.FrozenOnlyDexterity | Learning/adventure_litrpg/system/game_engine.py:836-842 | being frozen lowers dexterity checks by exactly 3 and no other check |
| CombatProofs.NaturalRollsDecide | Learning/adventure_litrpg/system/game_engine.py:844-853 | a natural 20 succeeds and a natural 1 fails, whatever the difficulty |
| ConfigMerge.DeepMerge | Learning/adventure_litrpg/archive_old_system/system/game_engine.py:83-91 | the merged configuration has exactly the keys of the base and the override, and a key the override lacks keeps its base value |
| ConfigMerge.MergeFrom | Learning/adventure_litrpg/archive_old_system/system/game_engine.py:85-90 | the remaining merge loop adds exactly the remaining override keys and leaves every other key as it was |
| ConfigMerge.DeepMergeOverrideKeys | Learning/adventure_litrpg/archive_old_system/system/game_engine.py:85-90 | every override key holds the override value, or the recursive merge when both values are objects |
| ConfigMerge.DeepMergeKeepsBaseOrder | Learning/adventure_litrpg/archive_old_system/system/game_engine.py:83-91 | the base keys come first, in their order, and no key repeats |
| EngineState.SetIntField | Learning/adventure_litrpg/archive_old_system/system/game_engine.py:332 | the written key reads back the new value, every other key reads as before, and the class, inventory and equipment are kept |
| Inventory.RemoveFirst | Learning/adventure_litrpg/archive_old_system/system/game_engine.py:435 | the first occurrence goes and nothing else: the bag loses exactly one copy, and the order is kept |
| Inventory.AddItem | Learning/adventure_litrpg/archive_old_system/system/game_engine.py:345-371 | an unknown item is refused with nothing changed; otherwise exactly `quantity` copies are appended (none below 1) and only the inventory changes |
| Inventory.UseHeal | Learning/adventure_litrpg/archive_old_system/system/game_engine.py:393-396 | healing raises hit points by the rolled amount, capped at the maximum |
| Inventory.UseRestore | Learning/adventure_litrpg/archive_old_system/system/game_engine.py:398-406 | a mana item raises mana and any other item raises stamina, capped at the maximum |
| Inventory.UseStatus | Learning/adventure_litrpg/archive_old_system/system/game_engine.py:408-423 | an `apply_status` item stores its status with duration 3 and power `1d4` unless the item says otherwise; any other item changes nothing; every other effect keeps its value, and the character is never touched |
| Inventory.UseCure | Learning/adventure_litrpg/archive_old_system/system/game_engine.py:425-432 | a curing item removes `poisoned` and only it |
| Inventory.UseItem | Learning/adventure_litrpg/archive_old_system/system/game_engine.py:373-435 | an item that is not carried, not known or not consumable changes nothing and says why. A usable item fails exactly when its healing or restoring roll fails. Otherwise the report lists the effects of the heal, restore, status and cure steps in order, the resources and effects are those the steps leave, the area is kept, and the first copy of the item leaves the inventory (`list.remove`), the rest of it in order; nothing else about the character changes |
| Inventory.SetSlot | Learning/adventure_litrpg/archive_old_system/system/game_engine.py:472 | only the named slot changes, and it holds the new id |
| Inventory.EquipItem | Learning/adventure_litrpg/archive_old_system/system/game_engine.py:446-489 | an item that is not carried or not known changes nothing; a carried, known item is always equipped: it leaves the inventory for its slot, and the previous occupant goes to the end of the inventory |
| InventoryProofs.EquipPreservesCarried | Learning/adventure_litrpg/archive_old_system/system/game_engine.py:466-473 | equipping never creates or destroys an item: the carried bag (inventory plus slots) is the same before and after |
| InventoryProofs.EquipSwapExample | Learning/adventure_litrpg/archive_old_system/system/game_engine.py:466-473 | a sword equipped over a dagger sends the dagger back to the inventory |
| InventoryProofs.AntidoteCuresPoison | Learning/adventure_litrpg/archive_old_system/system/game_engine.py:425-430 | using a carried `antidote` with no other use removes the poison and keeps every other effect |
| InventoryProofs.PotionHealsWithinMax | Learning/adventure_litrpg/archive_old_system/system/game_engine.py:393-396 | a plain healing potion raises hit points by its amount up to the maximum, leaves mana, stamina and effects alone, and is used up |
| Progression.ClassGains | Learning/adventure_litrpg/archive_old_system/system/game_engine.py:727-731 | a class missing from the configuration gains 10 hit points, 5 mana and 5 stamina per level |
| Progression.LevelUp | Learning/adventure_litrpg/archive_old_system/system/game_engine.py:721-757 | one pass pays the requirement, adds one level, one skill point, two stat points and the class gains to the maxima, refills hit points, mana and stamina, and sets the next requirement; nothing else changes |
| Progression.Settle | Learning/adventure_litrpg/archive_old_system/system/game_engine.py:721-757 | experience ends below the requirement. Each pass adds a level, a skill point, two stat points and the class gains, and after any pass the resources are full. No pass happens iff experience was already below the requirement, and no other field changes |
| Progression.GainXp | Learning/adventure_litrpg/archive_old_system/system/game_engine.py:701-769 | the report's level-up flag and level agree with the level-up loop's outcome, and experience ends below the requirement |
| ProgressionProofs.SettleIdempotent | Learning/adventure_litrpg/archive_old_system/system/game_engine.py:721 | a settled character levels up no further |
| ProgressionProofs.MoreXpNoFewerLevels | Learning/adventure_litrpg/archive_old_system/system/game_engine.py:721-757 | more experience never means fewer levels gained |
| ProgressionProofs.GainXpExample | Learning/adventure_litrpg/archive_old_system/system/game_engine.py:721-757 | 250 experience at level 1 with 100 required gives level 2 with 150 of 200 and full resources |
| Resources.HealAmount | Learning/adventure_litrpg/archive_old_system/system/game_engine.py:327-328 | an integer heals as it is; text heals by what `roll_healing` gives |
| Resources.Heal | Learning/adventure_litrpg/archive_old_system/system/game_engine.py:322-342 | the resource rises by the amount, capped at its maximum, and the report gives the real gain. Only that resource changes: every other integer field, the class, inventory, equipment, effects and area are kept. A missing key or a zero maximum raises |
| Resources.ModifyGold | Learning/adventure_litrpg/archive_old_system/system/game_engine.py:814-826 | gold moves by the amount but never below 0; a positive amount is a gain and anything else a spend |
| Resources.Rest | Learning/adventure_litrpg/archive_old_system/system/game_engine.py:771-812 | each resource rises by its recovery, capped at its maximum; only a long rest touches the effects |
| Resources.SpellEffect | Learning/adventure_litrpg/archive_old_system/system/game_engine.py:661-665 | dice power adds half the intelligence to the roll; an integer is taken as it is; no power at all raises |
| Resources.SpellOutcome | Learning/adventure_litrpg/archive_old_system/system/game_engine.py:676-696 | healing raises hit points up to the maximum and reports the gain. A buff whose id contains `shield` applies `shield_spell`, else one containing `bless` applies `blessed`, else nothing, and reports which. A damage spell changes nothing and reports the damage |
| Resources.LookupSpell | Learning/adventure_litrpg/archive_old_system/system/game_engine.py:635-638 | a spell id names its catalog entry, and no id names nothing |
| Resources.CastSpell | Learning/adventure_litrpg/archive_old_system/system/game_engine.py:628-699 | an unknown spell changes nothing; with too little mana for the planned cost the outcome is `insufficient_mp` and nothing changes; with enough mana the spell is cast, failing only when its power does not roll, and mana drops by exactly the cost |
| ResourcesProofs.HealExample | Learning/adventure_litrpg/archive_old_system/system/game_engine.py:331-333 | 5 of 10 healed by 3 is 8, and healed by 20 stops at 10 having healed 5 |
| ResourcesProofs.HealGainBounded | Learning/adventure_litrpg/archive_old_system/system/game_engine.py:331-333 | a non-negative heal never lowers the resource and never gains more than the amount |
| ResourcesProofs.GoldRoundTrip | Learning/adventure_litrpg/archive_old_system/system/game_engine.py:818 | spending back a gain restores the gold |
| ResourcesProofs.OverspendingEmptiesPurse | Learning/adventure_litrpg/archive_old_system/system/game_engine.py:818-825 | spending more than there is leaves exactly 0 |
| ResourcesProofs.LongRestRemovesExactlyDebuffs | Learning/adventure_litrpg/archive_old_system/system/game_engine.py:795-800 | a long rest removes exactly the three debuffs and keeps every other effect; a short rest keeps all |
| ResourcesProofs.RestNeverLowers | Learning/adventure_litrpg/archive_old_system/system/game_engine.py:791-793 | resting never lowers a resource within its maximum, nor lifts it above |
| ResourcesProofs.ZeroCostFallsBack | Learning/adventure_litrpg/archive_old_system/system/game_engine.py:640-653 | a cost of 0 counts as absent: the spell's own cost, else 10, applies |
| ResourcesProofs.BareSpellFails | Learning/adventure_litrpg/archive_old_system/system/game_engine.py:643-665 | a spell with no healing, damage or effect and no given power fails once the mana suffices |
| ResourcesProofs.HealingSpellExample | Learning/adventure_litrpg/archive_old_system/system/game_engine.py:676-685 | a healing spell of power 7 heals 7 for its cost |
| ResourcesProofs.InsufficientMpChangesNothing | Learning/adventure_litrpg/archive_old_system/system/game_engine.py:656-657 | too little mana changes nothing |
| ResourcesProofs.ShieldSpellApplies | Learning/adventure_litrpg/archive_old_system/system/game_engine.py:649-690 | a spell with `shield` in its id stores the `shield_spell` effect |
| ResourcesProofs.BuffStoresReportedEffect | Learning/adventure_litrpg/archive_old_system/system/game_engine.py:686-693 | a buff touches only the status effects: a configured reported effect is stored and adds no other key, and otherwise nothing changes |
| StatusEffects.StatusDuration | Learning/adventure_litrpg/system/game_engine.py:504-505 | the duration is the argument, else the configured duration, else the base duration, else 5 |
| StatusEffects.StatusPower | Learning/adventure_litrpg/system/game_engine.py:509 | the power is the argument if truthy, else the configured damage per turn, else 0 |
| StatusEffects.ApplyStatusEffect | Learning/adventure_litrpg/system/game_engine.py:492-519 | an effect whose configuration entry is missing or an empty dictionary is refused with nothing changed; otherwise it is stored under its name, replacing in place or appended, and nothing but the effects changes |
| StatusEffects.TurnAmount | Learning/adventure_litrpg/system/game_engine.py:534-540 | a falsy value gives 0, an integer itself, and dice text its roll |
| StatusEffects.EffectTurn | Learning/adventure_litrpg/system/game_engine.py:532-564 | damage never takes hit points below 0 and healing never above the maximum |
| StatusEffects.Countdown | Learning/adventure_litrpg/system/game_engine.py:566-575 | the countdown logs one `expired` entry exactly when a counting effect had one turn left, and logs nothing else |
| StatusEffects.TickEffect | Learning/adventure_litrpg/system/game_engine.py:529-575 | one effect's turn touches only the hit points and that effect |
| StatusEffects.TickFrom | Learning/adventure_litrpg/system/game_engine.py:529-575 | the remaining turn keeps hit points within [0, maximum], touches nothing else of the character, and only extends the log |
| StatusEffects.Tick | Learning/adventure_litrpg/system/game_engine.py:521-584 | the turn succeeds exactly when every effect's damage and healing amounts can be taken (falsy, an integer, or dice text that rolls); only hit points and effects change, and the report counts exactly the log entries |
| StatusEffectsProofs.TickLeavesSurvivors | Learning/adventure_litrpg/system/game_engine.py:566-575 | whatever the dice, the effects after a turn are the survivors of those before it, with one `expired` entry per effect that went |
| StatusEffectsProofs.TickRemovesExactlyExpiring | Learning/adventure_litrpg/system/game_engine.py:566-575 | a turn deletes an effect iff it is not passive and has one turn left |
| StatusEffectsProofs.SurvivorsGet | Learning/adventure_litrpg/system/game_engine.py:566-575 | key by key, a surviving effect is unchanged or one turn shorter |
| StatusEffectsProofs.ApplyKeepsOtherEffects | Learning/adventure_litrpg/system/game_engine.py:507-510 | applying an effect keeps every other effect and keeps names unique |
| StatusEffectsProofs.DefaultPowerDamages | Learning/adventure_litrpg/archive_old_system/system/game_engine.py:420 | a stored power of `1d4` deals 1 to 4 damage per turn |
| StatusEffectsProofs.CountdownKeeps | Learning/adventure_litrpg/system/game_engine.py:567-570 | a passive or timeless effect is left as it is |
| StatusEffectsProofs.CountdownDeletes | Learning/adventure_litrpg/system/game_engine.py:567-570 | an effect with one turn left is deleted and logged |
| StatusEffectsProofs.CountdownDecrements | Learning/adventure_litrpg/system/game_engine.py:567-570 | any other effect loses exactly one turn in place |
| ToolDice.StripSigns | Learning/adventure_litrpg/tools/dice.py:35 | every character but `+` and `-` is kept, in order |
| ToolDice.FirstInt | Learning/adventure_litrpg/tools/dice.py:44-46 | an integer is found exactly when a digit occurs from the given position on |
| ToolDice.FirstIntLeftmost | Learning/adventure_litrpg/tools/dice.py:44-46 | the integer found is the leftmost digit run, negative exactly when a `-` stands just before it within the searched text |
| ToolDice.RollMatched | Learning/adventure_litrpg/tools/dice.py:55-80 | a die size of 0 with at least one die fails. Otherwise one face per die is drawn, each in range; the total is their sum plus the modifier, so it lies in [N+M, N·S+M]; a single d20 showing 20 is critical |
| ToolDice.ToolRollOf | Learning/adventure_litrpg/tools/dice.py:11-95 | text that is all digits once its signs are dropped is a number exactly when `int()` reads it, and otherwise fails. Text naming a resource yields its first integer, or 0. Any other text goes to the evaluation fallback exactly when no dice notation starts it; otherwise the dice the pattern matches at its start are rolled, whatever follows them, and wherever the dice library parses the whole text these are the library's dice; any roll lies in [N+M, N·S+M] |
| ToolDice.Check | Learning/adventure_litrpg/tools/dice.py:98-139 | the check uses the better of two d20s with advantage and the worse with disadvantage; success means the total meets the difficulty |
| ToolDice.MatchDice | Learning/adventure_litrpg/tools/dice.py:52-53 | the pattern matches whenever some prefix of the text is strict dice notation; `MatchIsParsedPrefix` gives the converse |
| ToolDice.MatchIsParsedPrefix | Learning/adventure_litrpg/tools/dice.py:52-58 | what the pattern matches is a prefix of the text that the library's strict parser reads as the same count, die size and modifier |
| ToolDice.MatchAgreesWithParser | Learning/adventure_litrpg/tools/dice.py:52-58 | whatever the strict library parser reads, the tool's pattern reads the same dice |
| ToolDiceProofs.NumberExamples | Learning/adventure_litrpg/tools/dice.py:35-39 | plain numbers are read as they are, and `1-2` fails `int()` |
| ToolDiceProofs.KeywordExample | Learning/adventure_litrpg/tools/dice.py:42-49 | a resource change yields its signed number |
| ToolDiceProofs.FirstIntExample | Learning/adventure_litrpg/tools/dice.py:44-46 | the first integer of `hp-15` is -15 |
| ToolDiceProofs.TrailingTextIgnored | Learning/adventure_litrpg/tools/dice.py:52-62 | `roll("2d6+3 fire")` rolls 2d6+3 for every random source: text after the notation is ignored |
| ToolDiceProofs.AdvantageCancels | Learning/adventure_litrpg/tools/dice.py:111-112 | advantage together with disadvantage is a plain roll |
| ToolDiceProofs.AdvantageOrder | Learning/adventure_litrpg/tools/dice.py:114-126 | advantage never does worse than a plain roll, and disadvantage never better |
| ToolDiceProofs.NoNaturalTwentyOverride | Learning/adventure_litrpg/tools/dice.py:128-139 | a natural 20 is critical but can still fail |
| XpTools.ScanLevel | Learning/adventure_litrpg/tools/xp.py:72-77 | the scan never ends below the level reached so far, nor above 20 |
| XpTools.ScanBrackets | Learning/adventure_litrpg/tools/xp.py:72-77 | the scan stops at a level whose requirement is met (or level 1) and whose successor's is not (or level 20) |
| XpTools.CalculateLevel | Learning/adventure_litrpg/tools/xp.py:62-78 | the level is between 1 and 20. Its requirement is met unless it is level 1, the next one's is not unless it is level 20, and experience below level 2's requirement (negative included) is level 1 |
| XpTools.XpToNextLevel | Learning/adventure_litrpg/tools/xp.py:81-109 | the experience still needed is the next requirement minus the experience, and both are 0 at the top level |
| XpTools.AwardXp | Learning/adventure_litrpg/tools/xp.py:112-145 | the new level is the one the new total implies, and the old level the one given or else the one the old total implies. A level-up is reported exactly when the new level exceeds the old, and only then with the levels gained and the experience to the next level |
| XpTools.CalculateStatIncrease | Learning/adventure_litrpg/tools/xp.py:148-173 | no increase unless the level rose; otherwise the class gains, two stat points and one skill point, once per level gained |
| XpTools.TitleFrom | Learning/adventure_litrpg/tools/xp.py:195-198 | the title is that of the first threshold the level reaches, and `Beginner` exactly when it reaches none |
| XpTools.LevelTitle | Learning/adventure_litrpg/tools/xp.py:176-200 | the title is `Beginner` exactly below level 1, and otherwise the title of the largest threshold the level reaches |
| XpTools.TitlesDescending | Learning/adventure_litrpg/tools/xp.py:186-198 | the title thresholds strictly decrease, so the first one reached is the largest |
| XpTools.XpReward | Learning/adventure_litrpg/tools/xp.py:203-226 | a kill of the player's own level is worth exactly the base reward |
| XpToolsProofs.TableIncreasing | Learning/adventure_litrpg/tools/xp.py:10-31 | each level requires strictly more than the one below |
| XpToolsProofs.ThresholdOrder | Learning/adventure_litrpg/tools/xp.py:10-31 | a higher level always requires more experience |
| XpToolsProofs.LevelUnique | Learning/adventure_litrpg/tools/xp.py:62-78 | exactly one level brackets any experience |
| XpToolsProofs.LevelMonotone | Learning/adventure_litrpg/tools/xp.py:62-78 | more experience never means a lower level |
| XpToolsProofs.LevelExamples | Learning/adventure_litrpg/tools/xp.py:62-102 | 315 is level 3 with 85 to go, and negative experience is level 1 |
| XpToolsProofs.AwardTrustsGivenLevel | Learning/adventure_litrpg/tools/xp.py:124-137 | a stated old level is believed over the experience |
| XpToolsProofs.UnknownClassIsWarrior | Learning/adventure_litrpg/tools/xp.py:163 | an unknown class gains like a warrior |
| XpToolsProofs.TitleExamples | Learning/adventure_litrpg/tools/xp.py:186-200 | levels 1 and 4 are Novice, 7 is Journeyman and 0 is Beginner |
| XpToolsProofs.TitleExamplesHigh | Learning/adventure_litrpg/tools/xp.py:186-200 | level 20 is Legend and level 100 is Divine |
| NpcMatrix.Clamp | Learning/adventure_litrpg/system/npc_matrix.py:122 | the result lies in [-100, 100] and equals the input when the input does |
| NpcMatrix.RelationshipLevel | Learning/adventure_litrpg/system/npc_matrix.py:139-160 | the label is always one of the relationship bands |
| NpcMatrix.AddNpc | Learning/adventure_litrpg/archive_old_system/system/npc_matrix.py:100-111 | the entry is created or replaced with an empty history; every other NPC is unchanged |
| NpcMatrix.UpdateDisposition | Learning/adventure_litrpg/system/npc_matrix.py:114-137 | an unknown NPC changes nothing. Otherwise the disposition moves by the change, clamped; the history records the change asked for; the label follows; no other NPC changes |
| NpcMatrix.AddNote | Learning/adventure_litrpg/archive_old_system/system/npc_matrix.py:171-175 | the note is appended for a known NPC, and an unknown one is ignored |
| NpcMatrix.SetFactionStanding | Learning/adventure_litrpg/archive_old_system/system/npc_matrix.py:162-169 | the faction's entry is replaced; the NPCs are untouched |
| NpcMatrix.Select | Learning/adventure_litrpg/archive_old_system/system/npc_matrix.py:231-233 | exactly the names whose disposition passes are listed |
| NpcMatrix.GetAllies | Learning/adventure_litrpg/archive_old_system/system/npc_matrix.py:229-234 | a name is an ally iff its disposition is at least the minimum |
| NpcMatrix.GetEnemies | Learning/adventure_litrpg/archive_old_system/system/npc_matrix.py:236-241 | a name is an enemy iff its disposition is at most the maximum |
| NpcMatrix.PredictReaction | Learning/adventure_litrpg/archive_old_system/system/npc_matrix.py:243-260 | unknown NPCs are reported, and each reaction is exactly its band of dispositions |
| NpcMatrixProofs.LabelIsBand | Learning/adventure_litrpg/system/npc_matrix.py:139-160 | the label is the band whose index counts the cut points reached |
| NpcMatrixProofs.CutsMonotone | Learning/adventure_litrpg/system/npc_matrix.py:141-160 | the band index only grows with the disposition |
| NpcMatrixProofs.LabelMonotone | Learning/adventure_litrpg/system/npc_matrix.py:139-160 | a higher disposition never gets a worse label |
| NpcMatrixProofs.ReactionMatchesLabel | Learning/adventure_litrpg/archive_old_system/system/npc_matrix.py:243-260 | each reaction covers exactly two adjacent relationship bands |
| NpcMatrixProofs.UpdateUndo | Learning/adventure_litrpg/system/npc_matrix.py:120-133 | a change within [-100, 100] is undone by its opposite, and the history keeps both steps |
| NpcMatrixProofs.ClampExample | Learning/adventure_litrpg/system/npc_matrix.py:122-133 | 85 plus 50 stops at 100 while the history records 50 |
| NpcMatrixProofs.AlliesAndEnemiesDisjoint | Learning/adventure_litrpg/archive_old_system/system/npc_matrix.py:229-241 | with the default thresholds no NPC is both ally and enemy |
| SanityCheck.NumberOr0 | Learning/adventure_litrpg/archive_old_system/system/sanity_check.py:54 | a missing key reads as 0, and a non-number raises |
| SanityCheck.MissingFields | Learning/adventure_litrpg/archive_old_system/system/sanity_check.py:47-51 | exactly the missing required fields are reported, in order |
| SanityCheck.OverMaxCheck | Learning/adventure_litrpg/archive_old_system/system/sanity_check.py:54-61 | an issue is reported iff the value exceeds its maximum; with a key missing that raises |
| SanityCheck.CharacterIssues | Learning/adventure_litrpg/archive_old_system/system/sanity_check.py:46-61 | the missing-field issues come first, then the over-maximum issues |
| SanityCheck.CheckGameState | Learning/adventure_litrpg/archive_old_system/system/sanity_check.py:32-63 | an empty state or one without a character is one issue; otherwise the character's issues |
| SanityCheck.KeyOf | Learning/adventure_litrpg/archive_old_system/system/sanity_check.py:103-104 | a level becomes a set element with `True` equal to 1; a list or object raises |
| SanityCheck.ScanCheckpoints | Learning/adventure_litrpg/archive_old_system/system/sanity_check.py:100-106 | the scan fails exactly on an unhashable level; every checkpoint is either new or a reported duplicate, and the duplicates were seen |
| SanityCheck.DuplicateIssues | Learning/adventure_litrpg/archive_old_system/system/sanity_check.py:104-105 | one issue per repeated level, in order |
| SanityCheck.Iterated | Learning/adventure_litrpg/archive_old_system/system/sanity_check.py:100-102 | a list visits its items, an object its keys and a string its one-character strings; any other value is not iterable |
| SanityCheck.Member | Learning/adventure_litrpg/archive_old_system/system/sanity_check.py:123 | `in` tests an object's keys, a list's elements or a string's substrings; any other container raises |
| SanityCheck.CharacterLevel | Learning/adventure_litrpg/archive_old_system/system/sanity_check.py:110 | a character object without a level is level 1, and a character that is not an object raises |
| SanityCheck.CheckProgression | Learning/adventure_litrpg/archive_old_system/system/sanity_check.py:91-112 | an empty history is only a warning. Otherwise the check fails exactly when the checkpoints cannot be scanned or the level cannot be read. The issues are exactly the duplicate checkpoints, and there is one warning iff the character's level is above 1 and no checkpoint has it |
| SanityCheck.ClassName | Learning/adventure_litrpg/archive_old_system/system/sanity_check.py:119-120 | no character gives the empty class; otherwise the character is an object whose class is a string, and the result is that class lower-cased |
| SanityCheck.CheckClassSupport | Learning/adventure_litrpg/archive_old_system/system/sanity_check.py:114-125 | the check fails exactly when the class cannot be read or looked up. A non-empty class missing from `class_progression` gives exactly one issue and one suggestion naming it, anything else gives none, and a state without a character is not checked |
| SanityCheck.RunChecks | Learning/adventure_litrpg/archive_old_system/system/sanity_check.py:191-200 | the report succeeds exactly when the state check, the progression check and the class check all succeed; its issues are the three checks' issues in order, its warnings the progression check's and its suggestions the class check's |
| SanityCheck.ExitCode | Learning/adventure_litrpg/archive_old_system/system/sanity_check.py:242 | the exit code is 1 iff there is an issue |
| SanityCheckProofs.MissingFieldsOnce | Learning/adventure_litrpg/archive_old_system/system/sanity_check.py:49-51 | over distinct names, each missing field is reported exactly once |
| SanityCheckProofs.RequiredDistinct | Learning/adventure_litrpg/archive_old_system/system/sanity_check.py:47-48 | the required fields are distinct |
| SanityCheckProofs.MissingFieldReportedOnce | Learning/adventure_litrpg/archive_old_system/system/sanity_check.py:47-51 | a character gets exactly one issue per missing required field |
| SanityCheckProofs.DistinctLevelsNoDuplicates | Learning/adventure_litrpg/archive_old_system/system/sanity_check.py:100-106 | pairwise different levels give no duplicate |
| SanityCheckProofs.ScanStep | Learning/adventure_litrpg/archive_old_system/system/sanity_check.py:102-106 | a seen level is reported, and a new one is added to the seen set |
| SanityCheckProofs.DuplicateExample | Learning/adventure_litrpg/archive_old_system/system/sanity_check.py:100-106 | levels 2, 3 and 2 give one duplicate, level 2 |
| SanityCheckProofs.TrueRepeatsOne | Learning/adventure_litrpg/archive_old_system/system/sanity_check.py:101-106 | `True` duplicates level 1 |
| SanityCheckProofs.MissingCheckpointOnlyWarns | Learning/adventure_litrpg/archive_old_system/system/sanity_check.py:109-112 | a level without a checkpoint warns and gives no issue |
| SanityCheckProofs.CheckpointContainers | Learning/adventure_litrpg/archive_old_system/system/sanity_check.py:100-103 | an empty list, object or string of checkpoints finds nothing, a non-empty object or string raises, and a number, boolean or null raises |
| SanityCheckProofs.ScanSnoc | Learning/adventure_litrpg/archive_old_system/system/sanity_check.py:102-106 | one more checkpoint is a new duplicate exactly when an earlier checkpoint had its level |
| SanityCheckProofs.CheckpointSilencesWarning | Learning/adventure_litrpg/archive_old_system/system/sanity_check.py:100-112 | recording a checkpoint for the level a warning names silences the warning and changes no issue |
| SanityCheckProofs.EarlyReturns | Learning/adventure_litrpg/archive_old_system/system/sanity_check.py:36-42 | an empty state, or one without a character, is exactly one issue |
| SanityCheckProofs.HpWithoutMaxRaises | Learning/adventure_litrpg/archive_old_system/system/sanity_check.py:54-55 | positive hp without `hp_max` makes the check raise |
| SanityCheckProofs.ClassExamples | Learning/adventure_litrpg/archive_old_system/system/sanity_check.py:119-125 | an unknown class is reported lower-cased, with its suggestion |
| SanityCheckProofs.NoClassNotChecked | Learning/adventure_litrpg/archive_old_system/system/sanity_check.py:120-123 | a character without a class is not checked |
| SanityCheckProofs.ClassOutcome | Learning/adventure_litrpg/archive_old_system/system/sanity_check.py:123-125 | once the class and the membership test are known, an unknown class gives its issue and suggestion and a known one nothing |
| SanityCheckProofs.ClassInList | Learning/adventure_litrpg/archive_old_system/system/sanity_check.py:121-123 | a list `class_progression` is searched for the class |
| SanityCheckProofs.ClassInString | Learning/adventure_litrpg/archive_old_system/system/sanity_check.py:121-123 | a string `class_progression` is searched for the class as a substring |
| SanityCheckProofs.ClassTableNumberRaises | Learning/adventure_litrpg/archive_old_system/system/sanity_check.py:121-123 | a number as `class_progression` makes the check raise |
| SanityCheckProofs.SuggestedClassResolves | Learning/adventure_litrpg/archive_old_system/system/sanity_check.py:123-125 | adding the suggested class to an object `class_progression` clears the issue |
| SanityCheckProofs.WarningsDoNotFail | Learning/adventure_litrpg/archive_old_system/system/sanity_check.py:242 | warnings alone exit 0 |
| SessionLog.Last | Learning/adventure_litrpg/system/lib/session_logger_v2.py:56-58 | the result is the list's newest `k` elements, or the whole list when shorter |
| SessionLog.LogEvent | Learning/adventure_litrpg/system/lib/session_logger_v2.py:36-62 | non-object data raises. Otherwise the event ends the bounded log, combat events join the buffer, and the counter resets only on a successful save at the interval |
| SessionLog.CombatOnly | Learning/adventure_litrpg/system/lib/session_logger_v2.py:61-62 | exactly the combat events are kept |
| SessionLog.LogAll | Learning/adventure_litrpg/system/lib/session_logger_v2.py:36-62 | a run succeeds iff every event's data is an object |
| SessionLog.StartCombat | Learning/adventure_litrpg/system/lib/session_logger_v2.py:74-81 | the combat buffer holds only the new `combat_start` event, which carries the timestamp, the description, the enemies in order and the hit points. Only the buffer is emptied: the event is appended to the session log, which keeps its newest 1000 events, and the auto-save counter counts it as `log_event` does |
| SessionLogProofs.BufferSinceCombatStart | Learning/adventure_litrpg/system/lib/session_logger_v2.py:61-62 | after a combat starts, the buffer holds the `combat_start` event followed by exactly the combat events logged since, whatever it held before |
| SessionLog.TierFrom | Learning/adventure_litrpg/system/lib/session_logger_v2.py:156-157 | the result is the first threshold reached, or none when the damage reaches none |
| SessionLog.AttackKind | Learning/adventure_litrpg/system/lib/session_logger_v2.py:149-168 | a truthy critical wins; a negative damage is generic; otherwise the tier is a threshold the damage reaches; a non-number raises |
| SessionLog.Show | Learning/adventure_litrpg/system/lib/session_logger_v2.py:154-168 | `str()` inside the f-strings: text as it is, an integer as its decimal digits; lists and objects are not shown |
| SessionLog.NarrateAttack | Learning/adventure_litrpg/system/lib/session_logger_v2.py:147-168 | the line is produced exactly when the kind of hit can be decided and the weapon and damage can be shown with `str()`; it is the chosen kind's text, with the weapon and damage shown |
| SessionLogProofs.LogKeepsNewest | Learning/adventure_litrpg/system/lib/session_logger_v2.py:56-58 | after any run the log is the newest 1000 events of everything logged, in order |
| SessionLogProofs.StepTrims | Learning/adventure_litrpg/system/lib/session_logger_v2.py:49-58 | one event trims the appended log |
| SessionLogProofs.CombatBufferIsCombatEvents | Learning/adventure_litrpg/system/lib/session_logger_v2.py:61-62 | the buffer grows by exactly the run's combat events |
| SessionLogProofs.CounterModInterval | Learning/adventure_litrpg/system/lib/session_logger_v2.py:50-54 | with every save succeeding, the counter counts events modulo the interval |
| SessionLogProofs.CounterFailing | Learning/adventure_litrpg/system/lib/session_logger_v2.py:50-54 | with every save failing, the counter only grows |
| SessionLogProofs.TierIsHighestReached | Learning/adventure_litrpg/system/lib/session_logger_v2.py:156-157 | the chosen tier is the highest threshold reached |
| SessionLogProofs.TierExamples | Learning/adventure_litrpg/system/lib/session_logger_v2.py:153-168 | 25 is heavy, 50 devastating, 0 a graze, and -3 generic |
| SessionLogProofs.NarrateExample | Learning/adventure_litrpg/system/lib/session_logger_v2.py:161 | the full line for a 25-damage sword blow |
| SessionFiles.ReplaceUnsafe | Learning/adventure_litrpg/system/claude_session_capture.py:44 | word characters and `-` are kept and every other character becomes `_` |
| SessionFiles.Collapse | Learning/adventure_litrpg/system/claude_session_capture.py:46 | no `__` remains, every character other than `_` is kept in order, and a text without `__` is unchanged |
| SessionFiles.Sanitize | Learning/adventure_litrpg/system/claude_session_capture.py:41-48 | only safe characters, no `__`, at most 100 characters, and empty only for an empty name. Its characters other than `_` are a prefix of the name's safe characters other than `_`, and all of them when the collapsed text fits in 100 characters |
| SessionFiles.ReplaceSpaces | Learning/adventure_litrpg/system/end_session.py:74 | every space becomes `_` and nothing else changes |
| SessionFiles.SessionName | Learning/adventure_litrpg/system/end_session.py:70-79 | a given name is cleaned, and an empty one falls back to `session_<date>` |
| SessionFiles.ChapterDigits | Learning/adventure_litrpg/archive_old_system/system/claude_session_capture.py:80 | a match is a digit run between `chapter_` and `_` |
| SessionFiles.ChapterNumber | Learning/adventure_litrpg/archive_old_system/system/claude_session_capture.py:80-82 | the number is the matched digits' value |
| SessionFiles.MaxNumber | Learning/adventure_litrpg/archive_old_system/system/claude_session_capture.py:76-83 | the result is the largest number among the numbered names, or none |
| SessionFiles.NextChapter | Learning/adventure_litrpg/archive_old_system/system/claude_session_capture.py:72-85 | the next number is above every number used, 1 with none, and else one above a name's number |
| SessionFiles.ArchiveFileName | Learning/adventure_litrpg/archive_old_system/system/claude_session_capture.py:87-93 | the name is `chapter_<nn>_<session>_claude.md` |
| SessionFiles.Join | Learning/adventure_litrpg/archive_old_system/system/claude_session_capture.py:114 | lines are separated by single newlines |
| SessionFiles.SaveConversation | Learning/adventure_litrpg/archive_old_system/system/claude_session_capture.py:50-119 | an empty conversation raises. Otherwise the file gets the next chapter number and holds the header (if asked for), then the conversation |
| SessionFiles.JoinAppend | Learning/adventure_litrpg/archive_old_system/system/claude_session_capture.py:109-114 | appending a line adds one newline and the line |
| SessionFiles.MergedFileName | Learning/adventure_litrpg/archive_old_system/system/claude_session_capture.py:202-208 | a numbered archive's digits are reused verbatim; otherwise the name is time-stamped |
| SessionFilesProofs.SanitizeKeepsClean | Learning/adventure_litrpg/system/claude_session_capture.py:44-48 | a clean short name is kept as it is |
| SessionFilesProofs.SanitizeIdempotent | Learning/adventure_litrpg/system/end_session.py:31-36 | sanitising twice is sanitising once |
| SessionFilesProofs.SpaceReplaceIsNoop | Learning/adventure_litrpg/system/end_session.py:72-74 | the space replacement after sanitising changes nothing |
| SessionFilesProofs.FallbackOnlyForEmpty | Learning/adventure_litrpg/system/end_session.py:70-79 | the date fallback happens only for an empty name |
| SessionFilesProofs.ChapterDigitsOf | Learning/adventure_litrpg/archive_old_system/system/claude_session_capture.py:80 | the pattern reads back the digits after the prefix |
| SessionFilesProofs.ArchiveNameRoundTrip | Learning/adventure_litrpg/archive_old_system/system/claude_session_capture.py:80-90 | an archive's name reads back the number it was given |
| SessionFilesProofs.NextAfterSave | Learning/adventure_litrpg/archive_old_system/system/claude_session_capture.py:72-93 | saving under the next number moves the numbering on by exactly one |
| SessionFilesProofs.MergeKeepsNumber | Learning/adventure_litrpg/archive_old_system/system/claude_session_capture.py:203-206 | the merged chapter is numbered like its archive |
| SessionFilesProofs.CompleteNameNumbered | Learning/adventure_litrpg/archive_old_system/system/claude_session_capture.py:206 | `chapter_<nn>_complete.md` is numbered `n` |
| SessionFilesProofs.SanitizeExample | Learning/adventure_litrpg/system/claude_session_capture.py:44-46 | `a, b` becomes `a_b` |
| SessionFilesProofs.NumberingExample | Learning/adventure_litrpg/archive_old_system/system/end_session.py:50-56 | unnumbered names are skipped, and the next chapter follows the largest number |

## Left out

- Floating point: `crit_chance` and `dodge_chance` are given as the outcome of the chance (a boolean). The rest rates come in as recovery amounts. The area's `xp_modifier` is applied before `gain_xp`. The `enemy_modifier` comparison with 1.0 is a boolean. Percentages in reports are not modelled.
- Combat.Attack: the critical multiplier `crit_multiplier` is an integer here. The source multiplies by a float (2.0 by default, `game_engine.py` lines 51 and 239) and truncates with `int()`. The two agree for whole multipliers, and fractional ones are not modelled.
- Combat.Bloodlust: `int(damage * 1.1)` is computed as the exact `damage * 11 / 10`; float rounding at very large damages is not modelled.
- XpTools.XpReward: only the equal-level case, which needs no floating point, is stated; the other cases scale by a float multiplier and yield `None`.
- XpTools.XpToNextLevel: the progress percentage (a float) is not modelled.
- Progression.GainXp: the `xp_next` formula (a float power) is a parameter `nextReq`, required to be positive. With `xp_next` at 0 the source's level-up loop (`game_engine.py` lines 721-722) never ends. That happens when `xp_base` is 0, or when `int(xp_base * xp_multiplier ** (level - 1))` (line 757) rounds down to 0, as with base 100 and multiplier 0.5 from level 8 on; the model leaves that case out.
- InventoryProofs.EquipPreservesCarried: requires a non-empty item id, because the empty string stands for an empty slot (`None`).
- Randomness: every random draw comes from a parameter, so contracts hold for every outcome; the distribution is not modelled.
- File and terminal I/O are not modelled: `save_state`, `load_state`, the auto-save write (its outcome is the parameter `saveOk`), directory globs (given as lists of names), reading the merged file's contents, and the clipboard.
- `get_current_hp` of the session logger is a parameter.
- The event bus and `emit_event` calls are left out: they only notify listeners.
- `content.py` is a catalog map given as a parameter.
- Command-line entry points and `main` functions are left out.
- The `eval` fallback of `tools/dice.py` (lines 85-90) is left out: it evaluates arbitrary Python.
- The human-readable breakdown strings of rolls are left out.
- Timestamps are parameters given as text, and Unicode case rules are not modelled (ASCII only).
- DiceLib.ParseIntLiteral: `int()`'s acceptance of surrounding whitespace and digit underscores is not modelled.
- Inventory.UseItem: the printed effect strings are replaced by a list of effect values.
- `check_narrative_files`, `check_equipment_validity` and `suggest_fixes` of the sanity check are left out, because they read other files (`NEXT_SESSION.md` and the item catalogs) or build command hints. They do add warnings and suggestions (`sanity_check.py` lines 83-87, 155-161 and 171-182), so SanityCheck.RunChecks reports only the warnings and suggestions of the modelled checks.
- SanityCheck.RunChecks: the left-out `check_equipment_validity` and `suggest_fixes` can themselves raise (`sanity_check.py` line 153 calls `.items()` on whatever `equipment` holds, and line 178 compares `hp` with `hp_max` whatever their types), which ends the whole run; the model reports `Ok` whenever the three modelled checks succeed.
- Combat.AttributeModifier: the record's float entries `crit_chance` and `dodge_chance` are not part of the modelled character, so a skill check on either reads a missing attribute (modifier 0), where the source floors a float (with the default `crit_chance` of 0.1, `(0.1 - 10) // 2` is -5.0; `game_engine.py` lines 178-179 and 833-834).
- SanityCheck.OverMaxCheck: comparisons between two strings are reported as errors rather than compared.
- A top-level JSON document that is not an object is not modelled.
- JSON numbers are integers only: floats in the state, configuration or history files are not modelled.
- StatusEffects.ApplyStatusEffect: a configuration key set to null reads as absent, so its fallback applies (`duration_base`, then 5, for the duration) where the source's `.get` returns `None` (`game_engine.py` lines 503-509); such an entry still counts as non-empty, through `otherKeys`.
- SessionLog.NarrateAttack: `str()` of lists and objects is not modelled (reported as an error).
- `end_combat`, the session replay and the other `narrate_*` functions of the session logger are left out.
- The merged chapter's content is not modelled, only its name.

=== FILE: ascii.dfy ===
/** ASCII character classes and decimal conversions.

    Python's `\d`, `\w`, `str.isdigit` and `str.lower` are Unicode-aware; the
    model restricts them to their ASCII meaning. */
module Ascii {

  predicate IsDigit(c: char) {
    '0' <= c <= '9'
  }

  predicate AllDigits(s: string) {
    forall i :: 0 <= i < |s| ==> IsDigit(s[i])
  }

  /** Python's `\w` on ASCII text: letters, digits and the underscore. */
  predicate IsWordChar(c: char) {
    ('a' <= c <= 'z') || ('A' <= c <= 'Z') || IsDigit(c) || c == '_'
  }

  predicate IsSign(c: char) {
    c == '+' || c == '-'
  }

  function DigitValue(c: char): (v: nat)
    requires IsDigit(c)
    ensures v < 10
  {
    c as int - '0' as int
  }

  function DigitChar(v: nat): (c: char)
    requires v < 10
    ensures IsDigit(c) && DigitValue(c) == v
  {
    ('0' as int + v) as char
  }

  /** Value of a string of decimal digits, as Python's `int()` reads it
      (leading zeros allowed; the empty string reads as 0 here, and callers
      only pass non-empty runs). */
  function DigitsValue(s: string): nat
    requires AllDigits(s)
  {
    if |s| == 0 then 0 else DigitsValue(s[..|s| - 1]) * 10 + DigitValue(s[|s| - 1])
  }

  /** Python's `str(n)` for a non-negative integer. */
  function NatToString(n: nat): (r: string)
    ensures 0 < |r|
    ensures AllDigits(r)
    ensures DigitsValue(r) == n
    ensures n < 10 <==> |r| == 1
    ensures |r| > 1 ==> r[0] != '0'
  {
    if n < 10 then [DigitChar(n)]
    else
      var prefix := NatToString(n / 10);
      var r := prefix + [DigitChar(n % 10)];
      assert r[..|r| - 1] == prefix;
      r
  }

  /** Python's `str(i)` for any integer. */
  function IntToString(i: int): (r: string)
    ensures 0 < |r|
    ensures i >= 0 ==> AllDigits(r) && DigitsValue(r) == i
    ensures i < 0 ==> r[0] == '-' && AllDigits(r[1..]) && DigitsValue(r[1..]) == -i
  {
    if i >= 0 then NatToString(i) else "-" + NatToString(-i)
  }

  /** Python's `f"{n:02d}"` for a non-negative integer: at least two digits,
      zero padded. */
  function Pad2(n: nat): (r: string)
    ensures 2 <= |r|
    ensures AllDigits(r)
    ensures DigitsValue(r) == n
  {
    if n < 10 then
      var r := "0" + NatToString(n);
      assert r[..|r| - 1] == "0";
      r
    else NatToString(n)
  }

  function LowerChar(c: char): (l: char)
    ensures 'A' <= c <= 'Z' ==> 'a' <= l <= 'z'
    ensures !('A' <= c <= 'Z') ==> l == c
  {
    if 'A' <= c <= 'Z' then (c as int - 'A' as int + 'a' as int) as char else c
  }

  /** Python's `str.lower()` on ASCII text. */
  function Lower(s: string): (r: string)
    ensures |r| == |s|
    ensures forall i :: 0 <= i < |s| ==> r[i] == LowerChar(s[i])
  {
    if |s| == 0 then [] else [LowerChar(s[0])] + Lower(s[1..])
  }

  /** Python's `needle in hay` for strings. */
  predicate Contains(hay: string, needle: string)
    decreases |hay|
  {
    |needle| <= |hay| && (hay[..|needle|] == needle || Contains(hay[1..], needle))
  }

  /** End of the maximal run of digits starting at `i`. */
  function DigitRun(s: string, i: nat): (j: nat)
    requires i <= |s|
    ensures i <= j <= |s|
    ensures AllDigits(s[i..j])
    ensures j < |s| ==> !IsDigit(s[j])
    decreases |s| - i
  {
    if i < |s| && IsDigit(s[i]) then
      var j := DigitRun(s, i + 1);
      assert s[i..j] == [s[i]] + s[i + 1..j];
      j
    else i
  }

  /** A digit run ending where the digits stop is the run `DigitRun`
      finds. */
  lemma {:induction false} DigitRunUnique(s: string, k: nat, m: nat)
    requires k <= m <= |s|
    requires AllDigits(s[k..m])
    requires m == |s| || !IsDigit(s[m])
    ensures DigitRun(s, k) == m
    decreases m - k
  {
    if k < m {
      assert s[k..m][0] == s[k];
      assert s[k + 1..m] == s[k..m][1..];
      DigitRunUnique(s, k + 1, m);
    }
  }
}

=== FILE: assoc.dfy ===
/** Python dictionaries with string keys, as insertion-ordered association
    lists. Assigning to an existing key replaces its value in place, a new
    key goes to the end, and deletion keeps the order of the rest: exactly
    the iteration order Python guarantees. */
module Assoc {
  import opened Results
  import opened Seqs

  type Dict<V> = seq<(string, V)>

  function Keys<V>(d: Dict<V>): (ks: seq<string>)
    ensures |ks| == |d|
    ensures forall i :: 0 <= i < |d| ==> ks[i] == d[i].0
  {
    if |d| == 0 then [] else [d[0].0] + Keys(d[1..])
  }

  /** No key occurs twice, as in every real dictionary. */
  ghost predicate UniqueKeys<V>(d: Dict<V>) {
    forall i, j :: 0 <= i < j < |d| ==> d[i].0 != d[j].0
  }

  /** `d.get(k)`: the value stored under `k`, if any. */
  function Get<V>(d: Dict<V>, k: string): (r: Option<V>)
    ensures r.Some? <==> k in Keys(d)
  {
    if |d| == 0 then None
    else if d[0].0 == k then Some(d[0].1)
    else
      assert Keys(d) == [d[0].0] + Keys(d[1..]);
      Get(d[1..], k)
  }

  /** `d[k] = v`: an existing key gets the new value where it stands, a new
      key goes to the end. */
  function Put<V>(d: Dict<V>, k: string, v: V): (r: Dict<V>)
    ensures Get(r, k) == Some(v)
    ensures forall k' :: k' in Keys(r) <==> k' in Keys(d) || k' == k
    ensures k in Keys(d) ==> |r| == |d|
    ensures k !in Keys(d) ==> r == d + [(k, v)]
  {
    if k in Keys(d) then
      var r := Replace(d, k, v);
      SameKeys(d, r);
      r
    else
      GetAppended(d, k, v, k);
      KeysAppended(d, k, v);
      d + [(k, v)]
  }

  /** The first entry with key `k` takes the value `v`; nothing else
      changes. */
  function Replace<V>(d: Dict<V>, k: string, v: V): (r: Dict<V>)
    ensures |r| == |d|
    ensures forall i :: 0 <= i < |d| ==> r[i].0 == d[i].0
    ensures k in Keys(d) ==> Get(r, k) == Some(v)
    ensures forall k' :: k' != k ==> Get(r, k') == Get(d, k')
  {
    if |d| == 0 then []
    else if d[0].0 == k then [(k, v)] + d[1..]
    else
      var rest := Replace(d[1..], k, v);
      var r := [d[0]] + rest;
      assert r[1..] == rest;
      KeysCons(d);
      r
  }

  /** Two dictionaries with the same key at every position have the same
      keys. */
  lemma SameKeys<V>(d: Dict<V>, r: Dict<V>)
    requires |r| == |d|
    requires forall i :: 0 <= i < |d| ==> r[i].0 == d[i].0
    ensures Keys(r) == Keys(d)
  {
  }

  /** Looking up a dictionary with one entry appended. */
  lemma {:induction false} GetAppended<V>(d: Dict<V>, k: string, v: V, k': string)
    ensures Get(d + [(k, v)], k') == if k' in Keys(d) then Get(d, k') else if k' == k then Some(v) else None
  {
    if |d| > 0 {
      var e := d + [(k, v)];
      assert e[0] == d[0] && e[1..] == d[1..] + [(k, v)];
      KeysCons(d);
      GetAppended(d[1..], k, v, k');
    } else {
      assert d + [(k, v)] == [(k, v)];
    }
  }

  /** The keys of a dictionary with one entry appended. */
  lemma KeysAppended<V>(d: Dict<V>, k: string, v: V)
    ensures Keys(d + [(k, v)]) == Keys(d) + [k]
  {
  }

  /** Assignment leaves the value of every other key alone. */
  lemma PutOther<V>(d: Dict<V>, k: string, v: V, k': string)
    requires k' != k
    ensures Get(Put(d, k, v), k') == Get(d, k')
  {
    if k !in Keys(d) {
      GetAppended(d, k, v, k');
    }
  }

  lemma PutOthers<V>(d: Dict<V>, k: string, v: V)
    ensures forall k' :: k' != k ==> Get(Put(d, k, v), k') == Get(d, k')
  {
    forall k' | k' != k {
      PutOther(d, k, v, k');
    }
  }

  /** The keys of a non-empty dictionary: the first key, then the rest. */
  lemma KeysCons<V>(d: Dict<V>)
    requires |d| > 0
    ensures Keys(d) == [d[0].0] + Keys(d[1..])
  {
  }

  /** Assignment keeps every existing key in its place. */
  lemma PutKeepsPositions<V>(d: Dict<V>, k: string, v: V)
    ensures |Put(d, k, v)| >= |d|
    ensures forall i :: 0 <= i < |d| ==> Put(d, k, v)[i].0 == d[i].0
  {
  }

  /** Assignment keeps the keys unique and every existing key in its place. */
  lemma PutKeepsOrder<V>(d: Dict<V>, k: string, v: V)
    ensures forall i :: 0 <= i < |d| ==> Put(d, k, v)[i].0 == d[i].0
    ensures UniqueKeys(d) ==> UniqueKeys(Put(d, k, v))
  {
    PutKeepsPositions(d, k, v);
    var r := Put(d, k, v);
    if UniqueKeys(d) {
      if k in Keys(d) {
        forall i, j | 0 <= i < j < |r| ensures r[i].0 != r[j].0 {
          assert r[i].0 == d[i].0 && r[j].0 == d[j].0;
        }
      } else {
        forall i, j | 0 <= i < j < |r| ensures r[i].0 != r[j].0 {
          if j == |d| {
            assert r[j].0 == k && r[i].0 == d[i].0 == Keys(d)[i];
          } else {
            assert r[i].0 == d[i].0 && r[j].0 == d[j].0;
          }
        }
      }
    }
  }

  /** `del d[k]` when present, nothing otherwise: every entry with another
      key survives, in order. */
  function Remove<V>(d: Dict<V>, k: string): (r: Dict<V>)
    ensures k !in Keys(r)
    ensures forall k' :: k' != k ==> Get(r, k') == Get(d, k')
    ensures forall k' :: k' in Keys(r) <==> k' in Keys(d) && k' != k
    ensures k !in Keys(d) ==> r == d
    ensures |r| <= |d|
    ensures UniqueKeys(d) ==> UniqueKeys(r)
  {
    if |d| == 0 then []
    else
      var rest := Remove(d[1..], k);
      assert Keys(d) == [d[0].0] + Keys(d[1..]);
      if d[0].0 == k then rest
      else
        var r := [d[0]] + rest;
        assert r[1..] == rest;
        assert Keys(r) == [r[0].0] + Keys(rest);
        assert UniqueKeys(d) ==> d[0].0 !in Keys(d[1..]);
        r
  }

  /** Assigning to a key whose entry sits after a stretch without that key
      replaces the entry where it stands. */
  lemma PutAt<V>(a: Dict<V>, k: string, v: V, v': V, b: Dict<V>)
    requires k !in Keys(a)
    ensures Put(a + [(k, v)] + b, k, v') == a + [(k, v')] + b
  {
    var x := a + [(k, v)] + b;
    assert Keys(x)[|a|] == k;
    ReplaceAt(a, k, v, v', b);
  }

  lemma {:induction false} ReplaceAt<V>(a: Dict<V>, k: string, v: V, v': V, b: Dict<V>)
    requires k !in Keys(a)
    ensures Replace(a + [(k, v)] + b, k, v') == a + [(k, v')] + b
  {
    if |a| > 0 {
      var x := a + [(k, v)] + b;
      SplitFirst(a, [(k, v)], b);
      SplitFirst(a, [(k, v')], b);
      KeyNotInTail(a, k);
      ReplaceCons(x, k, v');
      ReplaceAt(a[1..], k, v, v', b);
    } else {
      assert a + [(k, v)] + b == [(k, v)] + b;
      assert a + [(k, v')] + b == [(k, v')] + b;
      ReplaceCons([(k, v)] + b, k, v');
      assert ([(k, v)] + b)[1..] == b;
    }
  }

  /** Deleting a key that occurs exactly once drops just that entry. */
  lemma {:induction false} RemoveAt<V>(a: Dict<V>, k: string, v: V, b: Dict<V>)
    requires k !in Keys(a) && k !in Keys(b)
    ensures Remove(a + [(k, v)] + b, k) == a + b
  {
    if |a| > 0 {
      var x := a + [(k, v)] + b;
      SplitFirst(a, [(k, v)], b);
      SplitFirst2(a, b);
      KeyNotInTail(a, k);
      RemoveCons(x, k);
      RemoveAt(a[1..], k, v, b);
    } else {
      assert a + [(k, v)] + b == [(k, v)] + b;
      assert a + b == b;
      RemoveCons([(k, v)] + b, k);
      assert ([(k, v)] + b)[1..] == b;
    }
  }

  /** One step of `Replace`. */
  lemma ReplaceCons<V>(d: Dict<V>, k: string, v: V)
    requires |d| > 0
    ensures Replace(d, k, v) == if d[0].0 == k then [(k, v)] + d[1..] else [d[0]] + Replace(d[1..], k, v)
  {
  }

  /** One step of `Remove`. */
  lemma RemoveCons<V>(d: Dict<V>, k: string)
    requires |d| > 0
    ensures Remove(d, k) == if d[0].0 == k then Remove(d[1..], k) else [d[0]] + Remove(d[1..], k)
  {
  }

  /** A key missing from a dictionary is missing from its tail. */
  lemma KeyNotInTail<V>(d: Dict<V>, k: string)
    requires |d| > 0 && k !in Keys(d)
    ensures d[0].0 != k && k !in Keys(d[1..])
  {
    assert Keys(d)[0] == d[0].0;
    forall j | 0 <= j < |d| - 1 ensures Keys(d[1..])[j] != k {
      assert Keys(d[1..])[j] == Keys(d)[j + 1];
    }
  }
}

=== FILE: combat.dfy ===
/** Combat rules of the engine (`game_engine.py`): `attack`, `take_damage`,
    `enemy_attack` and `skill_check`. The outcomes of `random.random()`
    comparisons (the chance critical hit, the dodge) are parameters. */
module Combat {
  import opened Results
  import opened Ascii
  import opened Assoc
  import opened DiceLib
  import opened EngineState

  // ---------------------------------------------------------------------------
  // attack

  /** Where the damage dice of an attack come from: the explicit argument,
      else the equipped weapon's `damage` (default `1d4`), else unarmed
      `1d4`. An equipped weapon the catalog does not know leaves `None`. */
  function WeaponDice(weaponDamage: Option<string>, c: Character, catalog: Catalog): (r: Option<string>)
    ensures weaponDamage.Some? ==> r == weaponDamage
    ensures r.None? <==> weaponDamage.None? && c.equipment.weapon != "" && c.equipment.weapon !in catalog.items
    ensures weaponDamage.None? && c.equipment.weapon == "" ==> r == Some("1d4")
  {
    match weaponDamage
    case Some(w) => Some(w)
    case None =>
      var id := c.equipment.weapon;
      if id == "" then Some("1d4")
      else if id in catalog.items then Some(catalog.items[id].damage.GetOr("1d4"))
      else None
  }

  /** The bloodlust passive: at or below half health the damage grows by
      ten percent, rounded down. `int(damage * 1.1)` is computed exactly as
      `damage * 11 / 10`, and `hp / hp_max <= 0.5` as the exact comparison of
      the fractions; a zero `hp_max` divides by zero. */
  function Bloodlust(damage: int, hp: int, hpMax: int): (r: Result<int>)
    requires damage >= 1
    ensures r.Ok? <==> hpMax != 0
    ensures r.Ok? ==> damage <= r.value
    ensures r.Ok? && LowHealth(hp, hpMax) ==> 10 * r.value <= 11 * damage < 10 * r.value + 10
    ensures r.Ok? && !LowHealth(hp, hpMax) ==> r.value == damage
  {
    if hpMax == 0 then Err("ZeroDivisionError: division by zero")
    else if LowHealth(hp, hpMax) then Ok(damage * 11 / 10)
    else Ok(damage)
  }

  /** `hp / hp_max <= 0.5`, for a non-zero `hp_max`. */
  predicate LowHealth(hp: int, hpMax: int) {
    if hpMax > 0 then 2 * hp <= hpMax else 2 * hp >= hpMax
  }

  datatype AttackReport = AttackReport(damage: int, critical: bool, staminaRemaining: int, sneakAttack: bool, weaponUsed: string)

  predicate IsRogue(c: Character) {
    Lower(c.cls) == "rogue"
  }

  /** The rolled damage after bloodlust and the chance critical hit, which
      is tried only when no critical hit was forced. */
  function CritDamage(s: State, config: Config, dice: string, isCrit: bool, chanceCrit: bool, rng: Rng): Result<int> {
    var c := s.character;
    var mult := config.constants.critMultiplier;
    var rolled :- RollDamage(dice, c.damageBonus, isCrit, mult, rng);
    var lust :- if "bloodlust" in Keys(s.effects) then Bloodlust(rolled, c.hp, c.hpMax) else Ok(rolled);
    Ok(if !isCrit && chanceCrit then lust * mult else lust)
  }

  /** The damage before armor: the sneak bonus and then the rage bonus are
      added to `CritDamage`. */
  function RawDamage(s: State, config: Config, dice: string, isCrit: bool, isSneak: bool, chanceCrit: bool, rng: Rng): (r: Result<int>)
    ensures r.Ok? <==> CritDamage(s, config, dice, isCrit, chanceCrit, rng).Ok? && ("rage" in Keys(s.effects) ==> "rage" in config.effects)
    ensures r.Ok? && "rage" !in Keys(s.effects) && !(isSneak && IsRogue(s.character)) ==>
      r.value == CritDamage(s, config, dice, isCrit, chanceCrit, rng).value
  {
    var crit :- CritDamage(s, config, dice, isCrit, chanceCrit, rng);
    AddBonuses(s, config, crit, isSneak)
  }

  /** The sneak bonus, then the rage bonus, added to the rolled damage. */
  function AddBonuses(s: State, config: Config, crit: int, isSneak: bool): Result<int> {
    var c := s.character;
    var sneak := if isSneak && IsRogue(c) then crit + c.level * config.constants.sneakBonusPerLevel else crit;
    if "rage" in Keys(s.effects) then
      if "rage" in config.effects then Ok(sneak + config.effects["rage"].damageBonus.GetOr(5))
      else Err("KeyError: 'rage'")
    else Ok(sneak)
  }

  /** `attack`. Only the stamina of the character changes. */
  function Attack(s: State, config: Config, catalog: Catalog, weaponDamage: Option<string>, targetArmor: int,
                  isCrit: bool, isSneak: bool, chanceCrit: bool, rng: Rng): (r: Result<(AttackReport, State)>)
    ensures r.Ok? <==>
      && WeaponDice(weaponDamage, s.character, catalog).Some?
      && RollDice(WeaponDice(weaponDamage, s.character, catalog).value, rng).Ok?
      && ("bloodlust" in Keys(s.effects) ==> s.character.hpMax != 0)
      && ("rage" in Keys(s.effects) ==> "rage" in config.effects)
    ensures r.Ok? ==>
      var (report, s') := r.value;
      var stamina := Max(0, s.character.stamina - config.constants.staminaAttackCost);
      var raw := RawDamage(s, config, WeaponDice(weaponDamage, s.character, catalog).value, isCrit, isSneak, chanceCrit, rng);
      && raw.Ok?
      && report.damage == Max(1, raw.value - targetArmor)
      && report.critical == (isCrit || chanceCrit)
      && report.sneakAttack == isSneak
      && report.weaponUsed == WeaponDice(weaponDamage, s.character, catalog).value
      && report.staminaRemaining == stamina
      && s' == s.(character := s.character.(stamina := stamina))
  {
    var c := s.character;
    var dice := WeaponDice(weaponDamage, c, catalog);
    if dice.None? then Err("AttributeError: weapon damage is None")
    else
      var raw :- RawDamage(s, config, dice.value, isCrit, isSneak, chanceCrit, rng);
      var stamina := Max(0, c.stamina - config.constants.staminaAttackCost);
      Ok((AttackReport(Max(1, raw - targetArmor), isCrit || chanceCrit, stamina, isSneak, dice.value),
          s.(character := c.(stamina := stamina))))
  }

  // ---------------------------------------------------------------------------
  // take_damage

  /** The armor of the equipped armor item, 0 when the slot is empty or the
      catalog does not know the item. */
  function ItemArmor(c: Character, catalog: Catalog): int {
    var id := c.equipment.armor;
    if id != "" && id in catalog.items then catalog.items[id].armor.GetOr(0) else 0
  }

  /** The armor `take_damage` applies: base plus item plus the shield spell
      bonus, minus the rage penalty, floored at 0 only under rage. An active
      effect without a configuration entry raises KeyError. */
  function TotalArmor(s: State, config: Config, catalog: Catalog): (r: Result<int>)
    ensures r.Ok? <==>
      && ("shield_spell" in Keys(s.effects) ==> "shield_spell" in config.effects)
      && ("rage" in Keys(s.effects) ==> "rage" in config.effects)
    ensures r.Ok? && "rage" in Keys(s.effects) ==> r.value >= 0
    ensures r.Ok? && "rage" !in Keys(s.effects) && "shield_spell" !in Keys(s.effects) ==>
      r.value == s.character.armor + ItemArmor(s.character, catalog)
  {
    ArmorOf(s.character.armor + ItemArmor(s.character, catalog), "shield_spell" in Keys(s.effects), "rage" in Keys(s.effects), config)
  }

  /** The armor from the base and item armor, given whether the shield
      spell and rage are active. */
  function ArmorOf(base: int, shield: bool, rage: bool, config: Config): (r: Result<int>)
    ensures r.Ok? <==> (shield ==> "shield_spell" in config.effects) && (rage ==> "rage" in config.effects)
    ensures r.Ok? && rage ==> r.value >= 0
    ensures r.Ok? && !rage && !shield ==> r.value == base
  {
    var shielded :=
      if !shield then Ok(base)
      else if "shield_spell" in config.effects then Ok(base + config.effects["shield_spell"].armorBonus.GetOr(3))
      else Err("KeyError: 'shield_spell'");
    match shielded
    case Err(e) => Err(e)
    case Ok(a) =>
      if !rage then Ok(a)
      else if "rage" in config.effects then Ok(Max(0, a - config.effects["rage"].armorPenalty.GetOr(2)))
      else Err("KeyError: 'rage'")
  }

  datatype DamageReport = DamageReport(damageTaken: int, hpRemaining: int, hpMax: int, isAlive: bool, armorReduced: int)

  /** The damage that gets through: physical damage is reduced by armor but
      never below 1; any other type ignores armor. */
  function DamageThrough(amount: int, damageType: string, armor: int): (d: int)
    ensures damageType == "physical" ==> d >= 1 && d >= amount - armor && (amount - armor >= 1 ==> d == amount - armor)
    ensures damageType != "physical" ==> d == amount
  {
    if damageType == "physical" then Max(1, amount - armor) else amount
  }

  /** `take_damage`. Only the hit points change. The health percentage of the
      report divides by `hp_max`, which raises for a zero maximum. */
  function TakeDamage(s: State, config: Config, catalog: Catalog, amount: int, damageType: string): (r: Result<(DamageReport, State)>)
    ensures r.Ok? <==> TotalArmor(s, config, catalog).Ok? && s.character.hpMax != 0
    ensures r.Ok? ==>
      var (report, s') := r.value;
      var armor := TotalArmor(s, config, catalog).value;
      && report.damageTaken == DamageThrough(amount, damageType, armor)
      && report.hpRemaining == Max(0, s.character.hp - report.damageTaken)
      && (report.isAlive <==> report.hpRemaining > 0)
      && report.armorReduced == (if damageType == "physical" then armor else 0)
      && report.hpMax == s.character.hpMax
      && s' == s.(character := s.character.(hp := report.hpRemaining))
  {
    var armor :- TotalArmor(s, config, catalog);
    var taken := DamageThrough(amount, damageType, armor);
    var hp := Max(0, s.character.hp - taken);
    if s.character.hpMax == 0 then Err("ZeroDivisionError: division by zero")
    else
      Ok((DamageReport(taken, hp, s.character.hpMax, hp > 0, if damageType == "physical" then armor else 0),
          s.(character := s.character.(hp := hp))))
  }

  // ---------------------------------------------------------------------------
  // enemy_attack

  datatype EnemyReport =
    | Dodged(staminaCost: int, staminaRemaining: int)
    | Hit(damage: DamageReport, areaScaled: bool)

  /** The dice an enemy rolls: rescaled for the current area when its
      `enemy_modifier` exceeds 1.0. */
  function EnemyDice(s: State, config: Config, enemyDamage: string): Result<string> {
    var area := if s.area in config.areas then config.areas[s.area] else AreaConfig(None, false);
    if area.scalesEnemies then ScaleForArea(enemyDamage, area.level.GetOr(1), s.character.level)
    else Ok(enemyDamage)
  }

  /** `enemy_attack`: the enemy's damage is rolled first; a dodge costs
      stamina and takes no damage, otherwise the roll goes through
      `take_damage` as physical damage. */
  function EnemyAttack(s: State, config: Config, catalog: Catalog, enemyDamage: string, dodged: bool, rng: Rng): (r: Result<(EnemyReport, State)>)
    ensures r.Ok? <==>
      && EnemyDice(s, config, enemyDamage).Ok?
      && RollDice(EnemyDice(s, config, enemyDamage).value, rng).Ok?
      && (!dodged ==> TakeDamage(s, config, catalog, RollDice(EnemyDice(s, config, enemyDamage).value, rng).value, "physical").Ok?)
    ensures r.Ok? && dodged ==>
      var stamina := Max(0, s.character.stamina - config.constants.staminaDodgeCost);
      r.value.0 == Dodged(config.constants.staminaDodgeCost, stamina)
      && r.value.1 == s.(character := s.character.(stamina := stamina))
    ensures r.Ok? && !dodged ==>
      var taken := TakeDamage(s, config, catalog, RollDice(EnemyDice(s, config, enemyDamage).value, rng).value, "physical");
      && taken.Ok?
      && r.value.0 == Hit(taken.value.0, s.area != "tutorial_village")
      && r.value.1 == taken.value.1
  {
    var dice :- EnemyDice(s, config, enemyDamage);
    var damage :- RollDice(dice, rng);
    if dodged then
      var stamina := Max(0, s.character.stamina - config.constants.staminaDodgeCost);
      Ok((Dodged(config.constants.staminaDodgeCost, stamina), s.(character := s.character.(stamina := stamina))))
    else
      var (report, s') :- TakeDamage(s, config, catalog, damage, "physical");
      Ok((Hit(report, s.area != "tutorial_village"), s'))
  }

  // ---------------------------------------------------------------------------
  // skill_check

  datatype SkillReport = SkillReport(
    success: bool, roll: int, modifier: int, total: int, difficulty: int,
    criticalSuccess: bool, criticalFailure: bool, margin: int)

  /** The attribute modifier `(value - 10) // 2`, a missing attribute
      counting as 10. Subtracting from an entry that is not a number
      raises `TypeError`. */
  function AttributeModifier(c: Character, attribute: string): (r: Result<int>)
    ensures r.Err? <==> attribute in TextFields
    ensures r.Ok? ==> var v := IntField(c, attribute).GetOr(10); 2 * r.value <= v - 10 < 2 * r.value + 2
  {
    if attribute in TextFields then Err("TypeError: unsupported operand type(s) for -")
    else Ok((IntField(c, attribute).GetOr(10) - 10) / 2)
  }

  /** The modifier after status effects: blessing adds its configured bonus
      (default 2), being frozen takes 3 from dexterity checks. */
  function SkillModifier(s: State, config: Config, attribute: string): Result<int> {
    var base :- AttributeModifier(s.character, attribute);
    var blessed :-
      if "blessed" !in Keys(s.effects) then Ok(base)
      else if "blessed" in config.effects then Ok(base + config.effects["blessed"].skillBonus.GetOr(2))
      else Err("KeyError: 'blessed'");
    Ok(if "frozen" in Keys(s.effects) && attribute == "dexterity" then blessed - 3 else blessed)
  }

  /** `skill_check`: a d20 plus the modifier against the difficulty; a
      natural 20 always succeeds and a natural 1 always fails. */
  function SkillCheck(s: State, config: Config, attribute: string, difficulty: int, rng: Rng): (r: Result<SkillReport>)
    ensures r.Ok? <==> SkillModifier(s, config, attribute).Ok?
    ensures attribute in TextFields ==> r.Err?
    ensures attribute !in TextFields && ("blessed" in Keys(s.effects) ==> "blessed" in config.effects) ==> r.Ok?
    ensures r.Ok? ==>
      var k := r.value;
      && 1 <= k.roll <= 20
      && k.modifier == SkillModifier(s, config, attribute).value
      && k.total == k.roll + k.modifier
      && (k.success <==> k.roll != 1 && (k.roll == 20 || k.total >= difficulty))
      && (k.criticalSuccess <==> k.roll == 20)
      && (k.criticalFailure <==> k.roll == 1)
      && k.margin == k.total - difficulty
      && k.difficulty == difficulty
  {
    var modifier :- SkillModifier(s, config, attribute);
    var roll := Face(rng, 0, 20);
    var total := roll + modifier;
    var success := if roll == 1 then false else total >= difficulty || roll == 20;
    Ok(SkillReport(success, roll, modifier, total, difficulty, roll == 20, roll == 1, total - difficulty))
  }
}

=== FILE: combat_proofs.dfy ===
/** Properties of the combat rules: weapon precedence, when each bonus
    applies, armor arithmetic and the skill check modifiers. */
module CombatProofs {
  import opened Results
  import opened Ascii
  import opened Assoc
  import opened DiceLib
  import opened DiceProofs
  import opened EngineState
  import opened Combat

  /** The weapon of an attack: an explicit argument wins; otherwise the
      equipped weapon's damage (default `1d4`); with no weapon equipped the
      attack is unarmed `1d4`; an equipped weapon unknown to the catalog
      makes the attack fail. */
  lemma WeaponPrecedence(s: State, config: Config, catalog: Catalog, weaponDamage: Option<string>, targetArmor: int,
                         isCrit: bool, isSneak: bool, chanceCrit: bool, rng: Rng)
    ensures weaponDamage.Some? ==> WeaponDice(weaponDamage, s.character, catalog) == weaponDamage
    ensures weaponDamage.None? && s.character.equipment.weapon == "" ==>
      WeaponDice(weaponDamage, s.character, catalog) == Some("1d4")
    ensures weaponDamage.None? && s.character.equipment.weapon in catalog.items ==>
      var w := s.character.equipment.weapon;
      w != "" ==> WeaponDice(weaponDamage, s.character, catalog) == Some(catalog.items[w].damage.GetOr("1d4"))
    ensures weaponDamage.None? && s.character.equipment.weapon != "" && s.character.equipment.weapon !in catalog.items ==>
      Attack(s, config, catalog, weaponDamage, targetArmor, isCrit, isSneak, chanceCrit, rng).Err?
  {
  }

  /** A forced critical hit makes the chance roll irrelevant: the chance is
      consulted only when no critical was forced. */
  lemma ForcedCriticalIgnoresChance(s: State, config: Config, dice: string, isSneak: bool, rng: Rng)
    ensures RawDamage(s, config, dice, true, isSneak, true, rng) == RawDamage(s, config, dice, true, isSneak, false, rng)
  {
    ForcedCritical(s, config, dice, rng);
    RawFromCrit(s, config, dice, true, isSneak, true, false, rng);
  }

  lemma ForcedCritical(s: State, config: Config, dice: string, rng: Rng)
    ensures CritDamage(s, config, dice, true, true, rng) == CritDamage(s, config, dice, true, false, rng)
  {
  }

  /** The damage before armor depends on the chance flag only through the
      rolled damage. */
  lemma RawFromCrit(s: State, config: Config, dice: string, isCrit: bool, isSneak: bool, chance1: bool, chance2: bool, rng: Rng)
    requires CritDamage(s, config, dice, isCrit, chance1, rng) == CritDamage(s, config, dice, isCrit, chance2, rng)
    ensures RawDamage(s, config, dice, isCrit, isSneak, chance1, rng) == RawDamage(s, config, dice, isCrit, isSneak, chance2, rng)
  {
  }

  /** The chance critical hit multiplies the damage after bloodlust and
      before the sneak and rage bonuses. */
  lemma ChanceCriticalMultiplies(s: State, config: Config, dice: string, rng: Rng)
    requires "rage" !in Keys(s.effects)
    ensures RawDamage(s, config, dice, false, false, true, rng).Ok? <==> RawDamage(s, config, dice, false, false, false, rng).Ok?
    ensures RawDamage(s, config, dice, false, false, false, rng).Ok? ==>
      RawDamage(s, config, dice, false, false, true, rng).value
        == RawDamage(s, config, dice, false, false, false, rng).value * config.constants.critMultiplier
  {
  }

  /** The sneak attack bonus is level times the per-level bonus, for rogues
      only (the class compared case-insensitively). */
  lemma SneakBonusOnlyForRogues(s: State, config: Config, isCrit: bool, chanceCrit: bool, dice: string, rng: Rng)
    ensures RawDamage(s, config, dice, isCrit, true, chanceCrit, rng).Ok? <==> RawDamage(s, config, dice, isCrit, false, chanceCrit, rng).Ok?
    ensures RawDamage(s, config, dice, isCrit, false, chanceCrit, rng).Ok? ==>
      var plain := RawDamage(s, config, dice, isCrit, false, chanceCrit, rng).value;
      var sneak := RawDamage(s, config, dice, isCrit, true, chanceCrit, rng).value;
      && (IsRogue(s.character) ==> sneak == plain + s.character.level * config.constants.sneakBonusPerLevel)
      && (!IsRogue(s.character) ==> sneak == plain)
  {
    if IsRogue(s.character) {
      RogueSneak(s, config, isCrit, chanceCrit, dice, rng);
    } else {
      assert RawDamage(s, config, dice, isCrit, true, chanceCrit, rng) == RawDamage(s, config, dice, isCrit, false, chanceCrit, rng);
    }
  }

  lemma RogueSneak(s: State, config: Config, isCrit: bool, chanceCrit: bool, dice: string, rng: Rng)
    requires IsRogue(s.character)
    ensures RawDamage(s, config, dice, isCrit, true, chanceCrit, rng).Ok? <==> RawDamage(s, config, dice, isCrit, false, chanceCrit, rng).Ok?
    ensures RawDamage(s, config, dice, isCrit, false, chanceCrit, rng).Ok? ==>
      RawDamage(s, config, dice, isCrit, true, chanceCrit, rng).value
        == RawDamage(s, config, dice, isCrit, false, chanceCrit, rng).value + s.character.level * config.constants.sneakBonusPerLevel
  {
  }

  /** The class test ignores case. */
  lemma RogueIgnoresCase(c: Character)
    requires c.cls == "Rogue" || c.cls == "ROGUE"
    ensures IsRogue(c)
  {
    assert Lower(c.cls) == "rogue";
  }

  /** Rage adds its flat bonus (default 5) to the damage before armor:
      against the same character with the same bloodlust but no rage, the
      raw damage is exactly the bonus higher. */
  lemma RageAddsFlatBonus(s: State, calm: State, config: Config, dice: string, isCrit: bool, isSneak: bool, chanceCrit: bool, rng: Rng)
    requires "rage" in Keys(s.effects) && "rage" in config.effects
    requires calm.character == s.character && "rage" !in Keys(calm.effects)
    requires "bloodlust" in Keys(calm.effects) <==> "bloodlust" in Keys(s.effects)
    ensures var raging := RawDamage(s, config, dice, isCrit, isSneak, chanceCrit, rng);
      var plain := RawDamage(calm, config, dice, isCrit, isSneak, chanceCrit, rng);
      && (raging.Ok? <==> plain.Ok?)
      && (plain.Ok? ==> raging.value == plain.value + config.effects["rage"].damageBonus.GetOr(5))
  {
    assert CritDamage(calm, config, dice, isCrit, chanceCrit, rng) == CritDamage(s, config, dice, isCrit, chanceCrit, rng);
  }

  /** The armor of the target only ever lowers the damage an attack
      reports, and never below 1. */
  lemma AttackArmorMonotone(s: State, config: Config, catalog: Catalog, weaponDamage: Option<string>, armor1: int, armor2: int,
                            isCrit: bool, isSneak: bool, chanceCrit: bool, rng: Rng)
    requires armor1 <= armor2
    ensures var a := Attack(s, config, catalog, weaponDamage, armor1, isCrit, isSneak, chanceCrit, rng);
      var b := Attack(s, config, catalog, weaponDamage, armor2, isCrit, isSneak, chanceCrit, rng);
      && (a.Ok? <==> b.Ok?)
      && (a.Ok? ==> 1 <= b.value.0.damage <= a.value.0.damage)
  {
  }

  /** In an attack, rage adds its flat bonus before the target's armor is
      subtracted. */
  lemma RageBeforeArmor(s: State, calm: State, config: Config, catalog: Catalog, weaponDamage: Option<string>, targetArmor: int,
                        isCrit: bool, isSneak: bool, chanceCrit: bool, rng: Rng)
    requires "rage" in Keys(s.effects) && "rage" in config.effects
    requires calm.character == s.character && "rage" !in Keys(calm.effects)
    requires "bloodlust" in Keys(calm.effects) <==> "bloodlust" in Keys(s.effects)
    ensures var raging := Attack(s, config, catalog, weaponDamage, targetArmor, isCrit, isSneak, chanceCrit, rng);
      var plain := Attack(calm, config, catalog, weaponDamage, targetArmor, isCrit, isSneak, chanceCrit, rng);
      && (raging.Ok? <==> plain.Ok?)
      && (plain.Ok? ==>
            var dice := WeaponDice(weaponDamage, s.character, catalog).value;
            var raw := RawDamage(calm, config, dice, isCrit, isSneak, chanceCrit, rng).value;
            raging.value.0.damage == Max(1, raw + config.effects["rage"].damageBonus.GetOr(5) - targetArmor))
  {
    var dice := WeaponDice(weaponDamage, s.character, catalog);
    assert WeaponDice(weaponDamage, calm.character, catalog) == dice;
    var raging := Attack(s, config, catalog, weaponDamage, targetArmor, isCrit, isSneak, chanceCrit, rng);
    var plain := Attack(calm, config, catalog, weaponDamage, targetArmor, isCrit, isSneak, chanceCrit, rng);
    if dice.Some? {
      RageAddsFlatBonus(s, calm, config, dice.value, isCrit, isSneak, chanceCrit, rng);
      if plain.Ok? {
        assert raging.Ok?;
        assert raging.value.0.damage == Max(1, RawDamage(s, config, dice.value, isCrit, isSneak, chanceCrit, rng).value - targetArmor);
      } else {
        assert !raging.Ok?;
      }
    }
  }

  /** Without rage, the shield spell adds exactly its armor bonus (default
      3) to the armor of the same character without it. */
  lemma ShieldAddsBonus(s: State, bare: State, config: Config, catalog: Catalog)
    requires "shield_spell" in Keys(s.effects) && "shield_spell" in config.effects
    requires "rage" !in Keys(s.effects)
    requires bare.character == s.character && "shield_spell" !in Keys(bare.effects) && "rage" !in Keys(bare.effects)
    ensures TotalArmor(bare, config, catalog).Ok?
    ensures TotalArmor(s, config, catalog) == Ok(TotalArmor(bare, config, catalog).value + config.effects["shield_spell"].armorBonus.GetOr(3))
  {
    ArmorOfShield(s.character.armor + ItemArmor(s.character, catalog), config);
  }

  /** Rage subtracts its armor penalty (default 2) from the armor of the
      same character with the same shield but no rage, and only then floors
      the result at 0. */
  lemma RageSubtractsPenalty(s: State, calm: State, config: Config, catalog: Catalog)
    requires "rage" in Keys(s.effects) && "rage" in config.effects
    requires "shield_spell" in Keys(s.effects) ==> "shield_spell" in config.effects
    requires calm.character == s.character && "rage" !in Keys(calm.effects)
    requires "shield_spell" in Keys(calm.effects) <==> "shield_spell" in Keys(s.effects)
    ensures TotalArmor(calm, config, catalog).Ok?
    ensures TotalArmor(s, config, catalog)
      == Ok(Max(0, TotalArmor(calm, config, catalog).value - config.effects["rage"].armorPenalty.GetOr(2)))
  {
    var base := s.character.armor + ItemArmor(s.character, catalog);
    var shield := "shield_spell" in Keys(s.effects);
    TotalArmorIs(s, config, catalog);
    TotalArmorIs(calm, config, catalog);
    ArmorOfRage(base, shield, config);
  }

  lemma TotalArmorIs(s: State, config: Config, catalog: Catalog)
    ensures TotalArmor(s, config, catalog)
      == ArmorOf(s.character.armor + ItemArmor(s.character, catalog), "shield_spell" in Keys(s.effects), "rage" in Keys(s.effects), config)
  {
  }

  lemma ArmorOfShield(base: int, config: Config)
    requires "shield_spell" in config.effects
    ensures ArmorOf(base, true, false, config) == Ok(base + config.effects["shield_spell"].armorBonus.GetOr(3))
  {
  }

  lemma ArmorOfRage(base: int, shield: bool, config: Config)
    requires "rage" in config.effects
    requires shield ==> "shield_spell" in config.effects
    ensures ArmorOf(base, shield, false, config).Ok?
    ensures ArmorOf(base, shield, true, config) == Ok(Max(0, ArmorOf(base, shield, false, config).value - config.effects["rage"].armorPenalty.GetOr(2)))
  {
  }

  /** Low stamina never blocks an attack: whether it succeeds does not depend
      on the stamina, which only drops to no lower than 0. */
  lemma StaminaNeverBlocks(s: State, config: Config, catalog: Catalog, weaponDamage: Option<string>, targetArmor: int,
                           isCrit: bool, isSneak: bool, chanceCrit: bool, rng: Rng, stamina: int)
    ensures var tired := s.(character := s.character.(stamina := stamina));
      var a := Attack(tired, config, catalog, weaponDamage, targetArmor, isCrit, isSneak, chanceCrit, rng);
      var b := Attack(s, config, catalog, weaponDamage, targetArmor, isCrit, isSneak, chanceCrit, rng);
      a.Ok? <==> b.Ok?
    ensures var tired := s.(character := s.character.(stamina := stamina));
      var r := Attack(tired, config, catalog, weaponDamage, targetArmor, isCrit, isSneak, chanceCrit, rng);
      r.Ok? ==> r.value.1.character.stamina >= 0
  {
    WeaponIgnoresStamina(weaponDamage, s.character, catalog, stamina);
  }

  lemma WeaponIgnoresStamina(weaponDamage: Option<string>, c: Character, catalog: Catalog, stamina: int)
    ensures WeaponDice(weaponDamage, c.(stamina := stamina), catalog) == WeaponDice(weaponDamage, c, catalog)
  {
  }

  /** More armor never lets more damage through. */
  lemma ArmorMonotone(amount: int, damageType: string, armor1: int, armor2: int)
    requires armor1 <= armor2
    ensures DamageThrough(amount, damageType, armor2) <= DamageThrough(amount, damageType, armor1)
  {
  }

  /** An unarmored character with no effects takes 7 of 10 physical damage
      through base armor 3, and the other damage types ignore armor. */
  lemma TakeDamageExample(s: State, config: Config, catalog: Catalog)
    requires s.effects == [] && s.character.equipment.armor == "" && s.character.armor == 3
    requires s.character.hpMax != 0
    ensures var r := TakeDamage(s, config, catalog, 10, "physical");
      r.Ok? && r.value.0.damageTaken == 7 && r.value.0.armorReduced == 3
    ensures var r := TakeDamage(s, config, catalog, 10, "fire");
      r.Ok? && r.value.0.damageTaken == 10 && r.value.0.armorReduced == 0
  {
  }

  /** Physical damage always costs at least one hit point of a living
      character, and never drives hit points below 0. */
  lemma PhysicalDamageHurts(s: State, config: Config, catalog: Catalog, amount: int)
    requires TakeDamage(s, config, catalog, amount, "physical").Ok?
    ensures var h := TakeDamage(s, config, catalog, amount, "physical").value.1.character.hp;
      && h >= 0
      && (s.character.hp > 0 ==> h < s.character.hp)
  {
  }

  /** A hit that lands on a living character always wounds it. */
  lemma EnemyHitWounds(s: State, config: Config, catalog: Catalog, enemyDamage: string, rng: Rng)
    requires s.character.hp > 0
    requires EnemyAttack(s, config, catalog, enemyDamage, false, rng).Ok?
    ensures EnemyAttack(s, config, catalog, enemyDamage, false, rng).value.1.character.hp < s.character.hp
  {
    var damage := RollDice(EnemyDice(s, config, enemyDamage).value, rng).value;
    PhysicalDamageHurts(s, config, catalog, damage);
  }

  /** A dodge costs stamina and no hit points. */
  lemma DodgeCostsOnlyStamina(s: State, config: Config, catalog: Catalog, enemyDamage: string, rng: Rng)
    requires EnemyAttack(s, config, catalog, enemyDamage, true, rng).Ok?
    ensures var s' := EnemyAttack(s, config, catalog, enemyDamage, true, rng).value.1;
      s'.character.hp == s.character.hp && s'.character.stamina >= 0 && s'.effects == s.effects
  {
  }

  /** `(value - 10) // 2` rounds toward negative infinity: 15 gives 2, 9
      gives -1, a missing attribute gives 0, and the class raises. */
  lemma AttributeModifierExamples(c: Character)
    requires c.attributes == map["strength" := 15, "dexterity" := 9]
    ensures AttributeModifier(c, "strength") == Ok(2)
    ensures AttributeModifier(c, "dexterity") == Ok(-1)
    ensures AttributeModifier(c, "luck") == Ok(0)
    ensures AttributeModifier(c, "class").Err?
  {
  }

  /** Being frozen only affects dexterity checks, by exactly 3. */
  lemma FrozenOnlyDexterity(s: State, config: Config, attribute: string)
    requires "frozen" in Keys(s.effects)
    ensures var thawed := s.(effects := Remove(s.effects, "frozen"));
      && (SkillModifier(s, config, attribute).Ok? <==> SkillModifier(thawed, config, attribute).Ok?)
      && (SkillModifier(s, config, attribute).Ok? ==>
            SkillModifier(s, config, attribute).value
              == SkillModifier(thawed, config, attribute).value - (if attribute == "dexterity" then 3 else 0))
  {
    var thawed := s.(effects := Remove(s.effects, "frozen"));
    assert "blessed" in Keys(thawed.effects) <==> "blessed" in Keys(s.effects);
  }

  /** A natural 20 succeeds against any difficulty and a natural 1 fails
      against any difficulty. */
  lemma NaturalRollsDecide(s: State, config: Config, attribute: string, difficulty1: int, difficulty2: int, rng: Rng)
    requires SkillCheck(s, config, attribute, difficulty1, rng).Ok?
    ensures var k := SkillCheck(s, config, attribute, difficulty1, rng).value;
      && (k.roll == 20 ==> k.success && SkillCheck(s, config, attribute, difficulty2, rng).value.success)
      && (k.roll == 1 ==> !k.success && !SkillCheck(s, config, attribute, difficulty2, rng).value.success)
  {
  }
}

=== FILE: config_merge.dfy ===
/** `_deep_merge` of the engine (`game_engine.py:83-91`): the loaded
    configuration file is laid over the built-in defaults. */
module ConfigMerge {
  import opened Results
  import opened Assoc
  import opened JsonValues

  /** The value stored for a key of the override: the override value wins
      unless both the current value and the override value are objects, in
      which case the two objects are merged in turn. */
  function MergedValue(current: Option<Json>, v: Json): Json
    decreases v, 0
  {
    match current
    case Some(JObj(bf)) =>
      (match v
       case JObj(of) => JObj(DeepMerge(bf, of))
       case _ => v)
    case _ => v
  }

  /** `_deep_merge(base, override)`: a copy of `base` with the entries of
      `override` assigned one after another. */
  function DeepMerge(base: Dict<Json>, override: Dict<Json>): (r: Dict<Json>)
    ensures forall k :: k in Keys(r) <==> k in Keys(base) || k in Keys(override)
    ensures forall k :: k !in Keys(override) ==> Get(r, k) == Get(base, k)
    decreases override, |override| + 1
  {
    MergeFrom(base, override, 0)
  }

  /** The loop of `_deep_merge` from entry `i` of the override on. */
  function MergeFrom(acc: Dict<Json>, override: Dict<Json>, i: nat): (r: Dict<Json>)
    requires i <= |override|
    ensures forall k :: k in Keys(r) <==> k in Keys(acc) || k in Keys(override[i..])
    ensures forall k :: k !in Keys(override[i..]) ==> Get(r, k) == Get(acc, k)
    decreases override, |override| - i
  {
    if i == |override| then acc
    else
      var k := override[i].0;
      assert override[i] in override;
      assert override[i].1 < override[i];
      assert Keys(override[i..]) == [k] + Keys(override[i + 1..]);
      var next := Put(acc, k, MergedValue(Get(acc, k), override[i].1));
      PutOthers(acc, k, MergedValue(Get(acc, k), override[i].1));
      MergeFrom(next, override, i + 1)
  }

  // ---------------------------------------------------------------------------
  // Properties

  lemma {:induction false} MergeFromOverrideKey(acc: Dict<Json>, override: Dict<Json>, i: nat, j: nat)
    requires UniqueKeys(override)
    requires i <= j < |override|
    ensures Get(MergeFrom(acc, override, i), override[j].0)
      == Some(MergedValue(Get(acc, override[j].0), override[j].1))
    decreases j - i
  {
    var k := override[i].0;
    var next := Put(acc, k, MergedValue(Get(acc, k), override[i].1));
    assert MergeFrom(acc, override, i) == MergeFrom(next, override, i + 1);
    if i == j {
      assert k !in Keys(override[i + 1..]);
    } else {
      MergeFromOverrideKey(next, override, i + 1, j);
      PutOthers(acc, k, MergedValue(Get(acc, k), override[i].1));
    }
  }

  /** For every key of the override, the merged configuration holds the
      override value, or the recursive merge of the two values when both are
      objects. */
  lemma DeepMergeOverrideKeys(base: Dict<Json>, override: Dict<Json>)
    requires UniqueKeys(override)
    ensures forall j :: 0 <= j < |override| ==>
      Get(DeepMerge(base, override), override[j].0)
        == Some(MergedValue(Get(base, override[j].0), override[j].1))
  {
    forall j | 0 <= j < |override| {
      MergeFromOverrideKey(base, override, 0, j);
    }
  }

  lemma {:induction false} MergeFromShape(acc: Dict<Json>, override: Dict<Json>, i: nat)
    requires i <= |override|
    ensures |MergeFrom(acc, override, i)| >= |acc|
    ensures forall p :: 0 <= p < |acc| ==> MergeFrom(acc, override, i)[p].0 == acc[p].0
    ensures UniqueKeys(acc) ==> UniqueKeys(MergeFrom(acc, override, i))
    decreases |override| - i
  {
    if i < |override| {
      var k := override[i].0;
      var v := MergedValue(Get(acc, k), override[i].1);
      var next := Put(acc, k, v);
      PutKeepsOrder(acc, k, v);
      MergeFromShape(next, override, i + 1);
    }
  }

  /** The merged configuration lists the keys of the defaults first, in
      their order, and has no duplicate key. */
  lemma DeepMergeKeepsBaseOrder(base: Dict<Json>, override: Dict<Json>)
    ensures |DeepMerge(base, override)| >= |base|
    ensures forall p :: 0 <= p < |base| ==> DeepMerge(base, override)[p].0 == base[p].0
    ensures UniqueKeys(base) ==> UniqueKeys(DeepMerge(base, override))
  {
    MergeFromShape(base, override, 0);
  }
}

=== FILE: dice.dfy ===
/** The dice notation library of the engine (`system/lib/dice.py`, of which
    `archive_old_system/system/lib/dice.py` is a byte-identical copy).

    Randomness is a parameter: an `Rng` maps the index of a die within one
    roll to a raw draw, and the face shown is `1 + draw % sides`, so every face
    of the die can come up and no other value can. An operation that rolls
    several times takes one `Rng` per roll. */
module DiceLib {
  import opened Results
  import opened Ascii

  /** A parsed `NdS+M` triple: number of dice, die size and flat modifier. */
  datatype Dice = Dice(count: nat, sides: nat, modifier: int)

  /** A value the engine accepts either as a literal integer or as text
      (a dice string or an integer written as text). */
  datatype Amount = Flat(n: int) | Text(s: string) {
    /** Python truthiness of the value: 0 and "" are false. */
    predicate Truthy() {
      match this
      case Flat(n) => n != 0
      case Text(s) => s != ""
    }
  }

  /** Python's `max` and `min` of two integers. */
  function Max(a: int, b: int): int {
    if a >= b then a else b
  }

  function Min(a: int, b: int): int {
    if a <= b then a else b
  }

  // ---------------------------------------------------------------------------
  // Parsing

  /** `str.replace(' ', '')`: deletes every space and nothing else. */
  function RemoveSpaces(s: string): (r: string)
    ensures forall k :: 0 <= k < |r| ==> r[k] != ' '
    ensures (forall k :: 0 <= k < |s| ==> s[k] != ' ') ==> r == s
  {
    if |s| == 0 then []
    else if s[0] == ' ' then RemoveSpaces(s[1..])
    else [s[0]] + RemoveSpaces(s[1..])
  }

  /** The text the regular expression is matched against: a leading `d` gets
      an implicit count of 1 first, and only then are spaces deleted, so
      `" d6"` keeps no leading count. */
  function Prepared(s: string): string {
    RemoveSpaces(if 0 < |s| && s[0] == 'd' then "1" + s else s)
  }

  predicate SignedDigits(r: string) {
    2 <= |r| && IsSign(r[0]) && AllDigits(r[1..])
  }

  function SignedValue(r: string): int
    requires SignedDigits(r)
  {
    if r[0] == '-' then -(DigitsValue(r[1..]) as int) else DigitsValue(r[1..])
  }

  /** The text after the die size: the optional `([+-]\d+)` group followed
      by `$`, which in Python also matches just before one final newline. */
  function ParseTail(r: string): Option<int> {
    var body := if 0 < |r| && r[|r| - 1] == '\n' then r[..|r| - 1] else r;
    if body == [] then Some(0)
    else if SignedDigits(body) then Some(SignedValue(body))
    else None
  }

  /** `re.match(r'^(\d+)d(\d+)([+-]\d+)?$', t)` and the conversion of its
      groups, on text whose spaces are already gone. */
  function ParseNormalized(t: string): Result<Dice> {
    var i := DigitRun(t, 0);
    if i == 0 || i == |t| || t[i] != 'd' then Err("Invalid dice string format")
    else
      var j := DigitRun(t, i + 1);
      if j == i + 1 then Err("Invalid dice string format")
      else
        match ParseTail(t[j..])
        case None => Err("Invalid dice string format")
        case Some(m) => Ok(Dice(DigitsValue(t[..i]), DigitsValue(t[i + 1..j]), m))
  }

  /** `parse_dice_string`: the triple the grammar gives the prepared text,
      and an error when the text has no such split. */
  function ParseDice(s: string): (r: Result<Dice>)
    ensures r.Ok? ==> exists i: nat, j: nat :: Splits(Prepared(s), i, j) && DiceAt(Prepared(s), i, j) == r.value
    ensures forall i: nat, j: nat :: Splits(Prepared(s), i, j) ==> r == Ok(DiceAt(Prepared(s), i, j))
  {
    ParseGrammarFacts(Prepared(s));
    ParseNormalized(Prepared(s))
  }

  // ---------------------------------------------------------------------------
  // The grammar as an independent definition

  /** `t` splits at `i` (the `d`) and `j` (end of the die size) into
      `digits "d" digits` followed by an optional signed modifier and an
      optional final newline. */
  ghost predicate Splits(t: string, i: nat, j: nat) {
    && 0 < i && i + 1 < j <= |t|
    && t[i] == 'd'
    && AllDigits(t[..i])
    && AllDigits(t[i + 1..j])
    && ModifierText(t[j..])
  }

  ghost predicate ModifierText(r: string) {
    || r == ""
    || r == "\n"
    || SignedDigits(r)
    || (0 < |r| && r[|r| - 1] == '\n' && SignedDigits(r[..|r| - 1]))
  }

  ghost function ModifierOf(r: string): int
    requires ModifierText(r)
  {
    if r == "" || r == "\n" then 0
    else if SignedDigits(r) then SignedValue(r)
    else SignedValue(r[..|r| - 1])
  }

  ghost function DiceAt(t: string, i: nat, j: nat): Dice
    requires Splits(t, i, j)
  {
    Dice(DigitsValue(t[..i]), DigitsValue(t[i + 1..j]), ModifierOf(t[j..]))
  }

  lemma TailAgrees(r: string)
    ensures ParseTail(r).Some? <==> ModifierText(r)
    ensures ModifierText(r) ==> ParseTail(r) == Some(ModifierOf(r))
  {
    if SignedDigits(r) {
      assert IsDigit(r[1..][|r| - 2]);
    }
  }

  /** What the parser reads splits as the grammar says, at the ends of the
      two digit runs. */
  lemma ParsedSplits(t: string, d: Dice)
    requires ParseNormalized(t) == Ok(d)
    ensures var i := DigitRun(t, 0);
      i + 1 <= |t| && Splits(t, i, DigitRun(t, i + 1)) && DiceAt(t, i, DigitRun(t, i + 1)) == d
  {
    var i := DigitRun(t, 0);
    var j := DigitRun(t, i + 1);
    assert t[0..i] == t[..i];
    TailAgrees(t[j..]);
  }

  /** Any split the grammar allows is the one the parser finds. */
  lemma SplitsParse(t: string, i: nat, j: nat, d: Dice)
    requires Splits(t, i, j) && DiceAt(t, i, j) == d
    ensures ParseNormalized(t) == Ok(d)
  {
    assert t[0..i] == t[..i];
    DigitRunUnique(t, 0, i);
    if j < |t| {
      assert t[j..][0] == t[j];
    }
    DigitRunUnique(t, i + 1, j);
    TailAgrees(t[j..]);
  }

  /** The parser agrees with the grammar in both directions: what it reads
      splits as the grammar says, and any split the grammar allows gives
      what it reads. */
  lemma ParseGrammarFacts(t: string)
    ensures ParseNormalized(t).Ok? ==> exists i: nat, j: nat :: Splits(t, i, j) && DiceAt(t, i, j) == ParseNormalized(t).value
    ensures forall i: nat, j: nat :: Splits(t, i, j) ==> ParseNormalized(t) == Ok(DiceAt(t, i, j))
  {
    if ParseNormalized(t).Ok? {
      ParsedSplits(t, ParseNormalized(t).value);
    }
    forall i: nat, j: nat | Splits(t, i, j)
      ensures ParseNormalized(t) == Ok(DiceAt(t, i, j))
    {
      SplitsParse(t, i, j, DiceAt(t, i, j));
    }
  }

  // ---------------------------------------------------------------------------
  // Rendering (the f-string at the end of `scale_for_area`)

  /** The modifier as rendered: always signed, `+0` included. */
  function ModifierString(m: int): string {
    if m >= 0 then "+" + NatToString(m) else "-" + NatToString(-m)
  }

  function Render(d: Dice): string {
    NatToString(d.count) + "d" + NatToString(d.sides) + ModifierString(d.modifier)
  }

  // ---------------------------------------------------------------------------
  // Rolling

  /** Raw draws: `rng(i)` is the entropy behind die `i` of one roll. */
  type Rng = nat -> nat

  /** `random.randint(1, sides)` for die `i`. */
  function Face(rng: Rng, i: nat, sides: nat): (f: int)
    requires 1 <= sides
    ensures 1 <= f <= sides
  {
    1 + rng(i) % sides
  }

  function Faces(rng: Rng, n: nat, sides: nat): (r: seq<int>)
    requires n == 0 || 1 <= sides
    ensures |r| == n
    ensures forall k :: 0 <= k < n ==> 1 <= r[k] <= sides
  {
    if n == 0 then [] else seq(n, k requires 0 <= k < n => Face(rng, k, sides))
  }

  function Sum(s: seq<int>): int {
    if |s| == 0 then 0 else Sum(s[..|s| - 1]) + s[|s| - 1]
  }

  /** The verbose result of `roll_dice`. */
  datatype Roll = Roll(total: int, rolls: seq<int>, modifier: int, text: string)

  /** `roll_dice(text, verbose=True)`. With a positive count and a die size
      of 0, `randint(1, 0)` raises; with a count of 0 no die is drawn. */
  function RollDiceVerbose(text: string, rng: Rng): (r: Result<Roll>)
    ensures r.Ok? <==> ParseDice(text).Ok? && (ParseDice(text).value.count == 0 || 1 <= ParseDice(text).value.sides)
    ensures r.Ok? ==>
      var d := ParseDice(text).value;
      && |r.value.rolls| == d.count
      && (forall k :: 0 <= k < d.count ==> 1 <= r.value.rolls[k] <= d.sides)
      && r.value.total == Sum(r.value.rolls) + d.modifier
      && r.value.modifier == d.modifier
      && r.value.text == text
  {
    var d :- ParseDice(text);
    if 0 < d.count && d.sides < 1 then Err("empty range for randint(1, 0)")
    else
      var rolls := Faces(rng, d.count, d.sides);
      Ok(Roll(Sum(rolls) + d.modifier, rolls, d.modifier, text))
  }

  /** `roll_dice(text)`. */
  function RollDice(text: string, rng: Rng): (r: Result<int>)
    ensures r.Ok? <==> RollDiceVerbose(text, rng).Ok?
    ensures r.Ok? ==> r.value == RollDiceVerbose(text, rng).value.total
  {
    var v :- RollDiceVerbose(text, rng);
    Ok(v.total)
  }

  /** `roll_with_advantage`: two complete rolls of the whole expression, the
      higher kept with advantage and the lower without. */
  function RollWithAdvantage(text: string, advantage: bool, rng1: Rng, rng2: Rng): (r: Result<int>)
    ensures r.Ok? <==> RollDice(text, rng1).Ok? && RollDice(text, rng2).Ok?
    ensures r.Ok? ==>
      var a, b := RollDice(text, rng1).value, RollDice(text, rng2).value;
      && (r.value == a || r.value == b)
      && (advantage ==> a <= r.value && b <= r.value)
      && (!advantage ==> r.value <= a && r.value <= b)
  {
    var a :- RollDice(text, rng1);
    var b := RollDice(text, rng2).value;
    Ok(if advantage then (if a >= b then a else b) else (if a <= b then a else b))
  }

  /** `roll_damage` with an integer critical multiplier: never below 1. */
  function RollDamage(text: string, bonus: int, isCrit: bool, multiplier: int, rng: Rng): (r: Result<int>)
    ensures r.Ok? <==> RollDice(text, rng).Ok?
    ensures r.Ok? ==> r.value >= 1
  {
    var base :- RollDice(text, rng);
    var total := if isCrit then (base + bonus) * multiplier else base + bonus;
    Ok(Max(1, total))
  }

  /** What `int(s)` accepts in the model: an optional sign and at least one
      digit. */
  function ParseIntLiteral(s: string): (r: Option<int>)
    ensures r.Some? <==> (0 < |s| && AllDigits(s)) || SignedDigits(s)
  {
    if 0 < |s| && AllDigits(s) then Some(DigitsValue(s))
    else if SignedDigits(s) then Some(SignedValue(s))
    else None
  }

  /** `roll_healing`: an integer (or integer text) is taken as is, anything
      else is rolled as dice; the bonus is added in both cases and there is
      no lower floor. */
  function RollHealing(amount: Amount, bonus: int, rng: Rng): (r: Result<int>)
    ensures r.Err? <==> amount.Text? && ParseIntLiteral(amount.s).None? && RollDice(amount.s, rng).Err?
    ensures amount.Text? && ParseIntLiteral(amount.s).Some? ==> r == Ok(ParseIntLiteral(amount.s).value + bonus)
    ensures r.Ok? && amount.Text? && ParseIntLiteral(amount.s).None? ==> r.value - bonus == RollDice(amount.s, rng).value
  {
    match amount
    case Flat(n) => Ok(n + bonus)
    case Text(s) =>
      match ParseIntLiteral(s)
      case Some(n) => Ok(n + bonus)
      case None =>
        var v :- RollDice(s, rng);
        Ok(v + bonus)
  }

  /** `check_critical` (default threshold 20). */
  predicate CheckCritical(roll: int, critOn: int)
    ensures 1 <= roll <= 20 && critOn == 20 ==> (CheckCritical(roll, critOn) <==> roll == 20)
    ensures CheckCritical(roll, critOn) ==> !CheckFumble(roll, critOn - 1)
  {
    roll >= critOn
  }

  /** `check_fumble` (default threshold 1). */
  predicate CheckFumble(roll: int, fumbleOn: int)
    ensures 1 <= roll <= 20 && fumbleOn == 1 ==> (CheckFumble(roll, fumbleOn) <==> roll == 1)
  {
    roll <= fumbleOn
  }

  // ---------------------------------------------------------------------------
  // Area scaling

  /** The triple `scale_for_area` computes before rendering it. */
  function ScaledDice(d: Dice, areaLevel: int, playerLevel: int): Dice {
    var levelDiff := if areaLevel - 1 > 0 then areaLevel - 1 else 0;
    var count := d.count + levelDiff / 3;
    var modifier := d.modifier + levelDiff * 2;
    var playerDiff := areaLevel - playerLevel;
    if playerDiff > 2 then Dice(count, d.sides, modifier + playerDiff)
    else if playerDiff < -2 then Dice(if count - 1 > 1 then count - 1 else 1, d.sides, modifier)
    else Dice(count, d.sides, modifier)
  }

  /** `scale_for_area`. */
  function ScaleForArea(text: string, areaLevel: int, playerLevel: int): (r: Result<string>)
    ensures r.Err? <==> ParseDice(text).Err?
  {
    var d :- ParseDice(text);
    Ok(Render(ScaledDice(d, areaLevel, playerLevel)))
  }
}

=== FILE: dice_proofs.dfy ===
/** Properties of the dice notation library: the parser accepts exactly the
    grammar, rendering and parsing are inverse, rolls stay within their
    bounds, damage never drops below 1, and the area scaling rules. */
module DiceProofs {
  import opened Results
  import opened Ascii
  import opened DiceLib
  import Seqs

  // ---------------------------------------------------------------------------
  // Parsing accepts exactly the grammar

  /** `parse_dice_string` succeeds with `d` exactly when the prepared text
      splits into count digits, `d`, size digits and an optional signed
      modifier (with Python's tolerated final newline), and `d` holds the
      values of those pieces. */
  lemma ParseMatchesGrammar(t: string, d: Dice)
    ensures ParseNormalized(t) == Ok(d) <==> exists i: nat, j: nat :: Splits(t, i, j) && DiceAt(t, i, j) == d
  {
    if ParseNormalized(t) == Ok(d) {
      ParsedSplits(t, d);
    }
    if exists i: nat, j: nat :: Splits(t, i, j) && DiceAt(t, i, j) == d {
      var i: nat, j: nat :| Splits(t, i, j) && DiceAt(t, i, j) == d;
      SplitsParse(t, i, j, d);
    }
  }

  // ---------------------------------------------------------------------------
  // Render, then parse, gives the triple back

  lemma ModifierStringIsSigned(m: int)
    ensures SignedDigits(ModifierString(m))
    ensures SignedValue(ModifierString(m)) == m
  {
    var s := ModifierString(m);
    if m >= 0 {
      assert s[1..] == NatToString(m);
    } else {
      assert s[1..] == NatToString(-m);
    }
  }

  /** The text `scale_for_area` produces parses back to exactly the triple
      that was rendered. */
  lemma RenderRoundTrip(d: Dice)
    ensures ParseDice(Render(d)) == Ok(d)
  {
    var a := NatToString(d.count);
    var b := NatToString(d.sides);
    var m := ModifierString(d.modifier);
    var t := Render(d);
    ModifierStringIsSigned(d.modifier);
    assert t == a + "d" + b + m;
    assert t[0] == a[0];
    assert IsDigit(a[0]);
    forall k | 0 <= k < |t|
      ensures t[k] != ' '
    {
      if k < |a| {
        assert t[k] == a[k];
      } else if k == |a| {
      } else if k < |a| + 1 + |b| {
        assert t[k] == b[k - |a| - 1];
      } else if k == |a| + 1 + |b| {
        assert t[k] == m[0];
      } else {
        assert t[k] == m[1..][k - |a| - 2 - |b|];
      }
    }
    assert Prepared(t) == t;
    var i := |a|;
    var j := |a| + 1 + |b|;
    assert t[..i] == a;
    assert t[i + 1..j] == b;
    assert t[j..] == m;
    assert Splits(t, i, j);
    assert DiceAt(t, i, j) == d;
    ParseMatchesGrammar(t, d);
  }

  /** Every rendered string carries an explicit sign and modifier, `+0`
      included. */
  lemma RenderAlwaysSigned(d: Dice)
    ensures var k := |NatToString(d.count)| + 1 + |NatToString(d.sides)|;
      k < |Render(d)| && IsSign(Render(d)[k])
    ensures Render(Dice(3, 8, 0)) == "3d8+0"
  {
    var k := |NatToString(d.count)| + 1 + |NatToString(d.sides)|;
    assert Render(d)[k] == ModifierString(d.modifier)[0];
  }

  /** Parsing succeeds with `d` once the prepared text is known to split at
      `i` and `j` into the pieces of `d`. */
  lemma ParsesAs(s: string, i: nat, j: nat, d: Dice)
    requires Splits(Prepared(s), i, j) && DiceAt(Prepared(s), i, j) == d
    ensures ParseDice(s) == Ok(d)
  {
    ParseMatchesGrammar(Prepared(s), d);
  }

  /** `ParsesAs` with the prepared text given by its pieces. */
  lemma ParsesPieces(s: string, a: string, b: string, m: string, d: Dice)
    requires Prepared(s) == a + "d" + b + m
    requires |a| > 0 && AllDigits(a) && |b| > 0 && AllDigits(b) && ModifierText(m)
    requires d == Dice(DigitsValue(a), DigitsValue(b), ModifierOf(m))
    ensures ParseDice(s) == Ok(d)
  {
    var t := a + "d" + b + m;
    var i := |a|;
    var j := |a| + 1 + |b|;
    assert t[..i] == a && t[i] == 'd' && t[i + 1..j] == b && t[j..] == m;
    ParsesAs(s, i, j, d);
  }

  // The parser examples of the unit tests, one lemma each: each names the
  // split of the prepared text and lets `ParsesAs` do the rest.

  lemma ParseExampleTwoD6PlusThree()
    ensures ParseDice("2d6+3") == Ok(Dice(2, 6, 3))
  {
    assert Prepared("2d6+3") == "2" + "d" + "6" + "+3";
    assert ModifierOf("+3") == 3;
    ParsesPieces("2d6+3", "2", "6", "+3", Dice(2, 6, 3));
  }

  lemma ParseExampleOneD20MinusTwo()
    ensures ParseDice("1d20-2") == Ok(Dice(1, 20, -2))
  {
    OneD20MinusTwoPieces();
    ParsesPieces("1d20-2", "1", "20", "-2", Dice(1, 20, -2));
  }

  lemma OneD20MinusTwoPieces()
    ensures Prepared("1d20-2") == "1" + "d" + "20" + "-2"
    ensures AllDigits("1") && AllDigits("20") && ModifierText("-2")
    ensures DigitsValue("1") == 1 && DigitsValue("20") == 20 && ModifierOf("-2") == -2
  {
    assert Prepared("1d20-2") == "1d20-2";
    assert DigitsValue("20") == 20;
    assert SignedDigits("-2");
  }

  lemma ParseExampleThreeD8()
    ensures ParseDice("3d8") == Ok(Dice(3, 8, 0))
  {
    assert Prepared("3d8") == "3d8";
    assert "3d8"[..1] == "3" && "3d8"[2..3] == "8" && "3d8"[3..] == "";
    ParsesAs("3d8", 1, 3, Dice(3, 8, 0));
  }

  /** A leading `d` means one die. */
  lemma ParseExampleImplicitCount()
    ensures ParseDice("d6") == Ok(Dice(1, 6, 0))
  {
    assert Prepared("d6") == "1d6";
    assert "1d6"[..1] == "1" && "1d6"[2..3] == "6" && "1d6"[3..] == "";
    ParsesAs("d6", 1, 3, Dice(1, 6, 0));
  }

  lemma ParseExampleImplicitCountWithModifier()
    ensures ParseDice("d20+5") == Ok(Dice(1, 20, 5))
  {
    assert Prepared("d20+5") == "1" + "d" + "20" + "+5";
    assert DigitsValue("20") == 20;
    assert ModifierOf("+5") == 5;
    ParsesPieces("d20+5", "1", "20", "+5", Dice(1, 20, 5));
  }

  /** Spaces anywhere are dropped. */
  lemma ParseExampleSpaces()
    ensures ParseDice("2 d 6 + 3") == Ok(Dice(2, 6, 3))
  {
    PreparedSpaces();
    ParseExampleTwoD6PlusThree();
  }

  lemma PreparedSpaces()
    ensures Prepared("2 d 6 + 3") == Prepared("2d6+3")
  {
    SpacedFive('2', 'd', '6', '+', '3');
    assert Prepared("2d6+3") == "2d6+3";
  }

  /** Five characters separated by single spaces lose the spaces. */
  lemma SpacedFive(a: char, b: char, c: char, d: char, e: char)
    requires a != ' ' && b != ' ' && c != ' ' && d != ' ' && e != ' '
    ensures RemoveSpaces([a, ' ', b, ' ', c, ' ', d, ' ', e]) == [a, b, c, d, e]
  {
    var s9: string := [];
    var s8 := [e] + s9;
    RemoveSpacesCons(e, s9);
    var s7 := [' '] + s8;
    RemoveSpacesCons(' ', s8);
    assert RemoveSpaces(s7) == [e];
    var s6 := [d] + s7;
    RemoveSpacesCons(d, s7);
    var s5 := [' '] + s6;
    RemoveSpacesCons(' ', s6);
    Seqs.ConsOntoOne(d, e);
    var s4 := [c] + s5;
    RemoveSpacesCons(c, s5);
    var s3 := [' '] + s4;
    RemoveSpacesCons(' ', s4);
    Seqs.ConsOntoPair(c, d, e);
    var s2 := [b] + s3;
    RemoveSpacesCons(b, s3);
    var s1 := [' '] + s2;
    RemoveSpacesCons(' ', s2);
    Seqs.ConsOntoThree(b, c, d, e);
    var s0 := [a] + s1;
    RemoveSpacesCons(a, s1);
    Seqs.ConsOntoFour(a, b, c, d, e);
    SpacedDisplay(a, b, c, d, e, ' ');
  }

  lemma SpacedDisplay<T>(a: T, b: T, c: T, d: T, e: T, sp: T)
    ensures [a] + ([sp] + ([b] + ([sp] + ([c] + ([sp] + ([d] + ([sp] + ([e] + []))))))))
      == [a, sp, b, sp, c, sp, d, sp, e]
  {
  }

  /** Deleting spaces one character at a time. */
  lemma RemoveSpacesCons(c: char, s: string)
    ensures RemoveSpaces([c] + s) == if c == ' ' then RemoveSpaces(s) else [c] + RemoveSpaces(s)
  {
    assert ([c] + s)[1..] == s;
  }

  /** `$` also matches before one final newline. */
  lemma ParseExampleFinalNewline()
    ensures ParseDice("2d6\n") == Ok(Dice(2, 6, 0))
  {
    assert Prepared("2d6\n") == "2d6\n";
    assert "2d6\n"[..1] == "2" && "2d6\n"[2..3] == "6" && "2d6\n"[3..] == "\n";
    ParsesAs("2d6\n", 1, 3, Dice(2, 6, 0));
  }

  /** The malformed inputs of the unit tests are rejected, and so are a
      space before a leading `d` (the implicit count is added before spaces
      go) and an upper-case `D`. */
  lemma ParseExampleRejected()
    ensures ParseDice("invalid").Err?
    ensures ParseDice("2d").Err?
    ensures ParseDice(" d6").Err?
    ensures ParseDice("2D6").Err?
  {
    RejectedMalformed();
    RejectedNotation();
  }

  /** The malformed inputs of the unit tests. */
  lemma RejectedMalformed()
    ensures ParseDice("invalid").Err?
    ensures ParseDice("2d").Err?
  {
    assert Prepared("invalid") == "invalid";
    assert DigitRun("invalid", 0) == 0;
    assert Prepared("2d") == "2d";
    assert DigitRun("2d", 0) == 1;
    assert DigitRun("2d", 2) == 2;
  }

  /** A space before a leading `d`, and an upper-case `D`. */
  lemma RejectedNotation()
    ensures ParseDice(" d6").Err?
    ensures ParseDice("2D6").Err?
  {
    assert Prepared(" d6") == "d6";
    assert DigitRun("d6", 0) == 0;
    assert Prepared("2D6") == "2D6";
    assert DigitRun("2D6", 0) == 1;
  }

  // ---------------------------------------------------------------------------
  // Rolls

  lemma {:induction false} SumBounds(s: seq<int>, lo: int, hi: int)
    requires forall k :: 0 <= k < |s| ==> lo <= s[k] <= hi
    ensures |s| * lo <= Sum(s) <= |s| * hi
  {
    if |s| > 0 {
      var init := s[..|s| - 1];
      SumBounds(init, lo, hi);
      assert |s| * lo == |init| * lo + lo;
      assert |s| * hi == |init| * hi + hi;
    }
  }

  /** A roll of `NdS+M` lies in [N+M, N*S+M]. */
  lemma RollBounds(text: string, rng: Rng)
    requires RollDice(text, rng).Ok?
    ensures var d := ParseDice(text).value;
      d.count + d.modifier <= RollDice(text, rng).value <= d.count * d.sides + d.modifier
  {
    var d := ParseDice(text).value;
    var r := RollDiceVerbose(text, rng).value;
    SumBounds(r.rolls, 1, d.sides);
  }

  /** `roll_with_advantage` keeps the better (or worse) of two full rolls, so
      it stays within the bounds of a single roll. */
  lemma AdvantageBounds(text: string, advantage: bool, rng1: Rng, rng2: Rng)
    requires RollWithAdvantage(text, advantage, rng1, rng2).Ok?
    ensures RollDice(text, rng1).Ok? && RollDice(text, rng2).Ok?
    ensures var v := RollWithAdvantage(text, advantage, rng1, rng2).value;
      var a := RollDice(text, rng1).value;
      var b := RollDice(text, rng2).value;
      && (v == a || v == b)
      && (advantage ==> v >= a && v >= b)
      && (!advantage ==> v <= a && v <= b)
    ensures var d := ParseDice(text).value;
      var v := RollWithAdvantage(text, advantage, rng1, rng2).value;
      d.count + d.modifier <= v <= d.count * d.sides + d.modifier
  {
    RollBounds(text, rng1);
    RollBounds(text, rng2);
  }

  lemma MulMono(a: int, b: int, m: int)
    requires a <= b && 0 <= m
    ensures a * m <= b * m
  {
  }

  /** `roll_damage` stays within the weapon's range plus bonus (times the
      multiplier on a critical hit), floored at 1. */
  lemma DamageRange(text: string, bonus: int, isCrit: bool, multiplier: int, rng: Rng)
    requires RollDice(text, rng).Ok?
    requires isCrit ==> 0 <= multiplier
    ensures var d := ParseDice(text).value;
      var lo := d.count + d.modifier + bonus;
      var hi := d.count * d.sides + d.modifier + bonus;
      var v := RollDamage(text, bonus, isCrit, multiplier, rng).value;
      && (!isCrit ==> Max(1, lo) <= v <= Max(1, hi))
      && (isCrit ==> Max(1, lo * multiplier) <= v <= Max(1, hi * multiplier))
  {
    var d := ParseDice(text).value;
    var base := RollDice(text, rng).value;
    RollBounds(text, rng);
    if isCrit {
      MulMono(d.count + d.modifier + bonus, base + bonus, multiplier);
      MulMono(base + bonus, d.count * d.sides + d.modifier + bonus, multiplier);
    }
  }

  /** The damage examples of the unit tests: `1d6` with bonus 2 deals 3 to
      8, and 6 to 16 on a doubled critical hit. */
  lemma DamageExamples(rng: Rng)
    ensures var v := RollDamage("1d6", 2, false, 2, rng); v.Ok? && 3 <= v.value <= 8
    ensures var v := RollDamage("1d6", 2, true, 2, rng); v.Ok? && 6 <= v.value <= 16
  {
    OneD6Parses();
    DamageRange("1d6", 2, false, 2, rng);
    DamageRange("1d6", 2, true, 2, rng);
  }

  lemma OneD6Parses()
    ensures ParseDice("1d6") == Ok(Dice(1, 6, 0))
  {
    assert Prepared("1d6") == "1" + "d" + "6" + "";
    ParsesPieces("1d6", "1", "6", "", Dice(1, 6, 0));
  }

  /** A large penalty still deals 1 damage. */
  lemma DamageExampleFloor(rng: Rng)
    ensures RollDamage("1d1", -10, false, 2, rng) == Ok(1)
  {
    OneD1Parses();
    RollBounds("1d1", rng);
  }

  lemma OneD1Parses()
    ensures ParseDice("1d1") == Ok(Dice(1, 1, 0))
  {
    assert Prepared("1d1") == "1" + "d" + "1" + "";
    ParsesPieces("1d1", "1", "1", "", Dice(1, 1, 0));
  }

  /** `roll_healing` takes integer text exactly, without rolling, and adds
      the bonus. */
  lemma HealingExamplesInteger(rng: Rng)
    ensures RollHealing(Text("20"), 0, rng) == Ok(20)
    ensures RollHealing(Text("20"), 5, rng) == Ok(25)
    ensures RollHealing(Text("-3"), 0, rng) == Ok(-3)
  {
    assert DigitsValue("20") == 20;
    assert SignedDigits("-3") && SignedValue("-3") == -3;
  }

  /** `roll_healing` rolls dice text. */
  lemma HealingExampleDice(rng: Rng)
    ensures var v := RollHealing(Text("2d4+2"), 0, rng); v.Ok? && 4 <= v.value <= 10
  {
    TwoD4PlusTwo();
    assert RollDice("2d4+2", rng).Ok?;
    RollBounds("2d4+2", rng);
  }

  /** `2d4+2` is dice text, not an integer. */
  lemma TwoD4PlusTwo()
    ensures ParseDice("2d4+2") == Ok(Dice(2, 4, 2))
    ensures ParseIntLiteral("2d4+2").None?
  {
    RenderRoundTrip(Dice(2, 4, 2));
    assert Render(Dice(2, 4, 2)) == "2d4+2";
    assert !SignedDigits("2d4+2");
    assert !AllDigits("2d4+2") by { assert !IsDigit("2d4+2"[1]); }
  }

  /** With the default thresholds, a d20 face is a critical exactly on 20 and
      a fumble exactly on 1. */
  lemma D20CriticalAndFumble(rng: Rng, i: nat)
    ensures CheckCritical(Face(rng, i, 20), 20) <==> Face(rng, i, 20) == 20
    ensures CheckFumble(Face(rng, i, 20), 1) <==> Face(rng, i, 20) == 1
  {
  }

  // ---------------------------------------------------------------------------
  // Area scaling

  /** The scaled text parses back to the scaled triple; scaling fails exactly
      when the input does not parse. */
  lemma ScaleRoundTrip(text: string, areaLevel: int, playerLevel: int)
    ensures ScaleForArea(text, areaLevel, playerLevel).Ok? <==> ParseDice(text).Ok?
    ensures ScaleForArea(text, areaLevel, playerLevel).Ok? ==>
      ParseDice(ScaleForArea(text, areaLevel, playerLevel).value)
        == Ok(ScaledDice(ParseDice(text).value, areaLevel, playerLevel))
  {
    if ParseDice(text).Ok? {
      RenderRoundTrip(ScaledDice(ParseDice(text).value, areaLevel, playerLevel));
    }
  }

  /** The scaled modifier never drops below the base modifier, and the count
      drops below the base count only through the overlevel reduction, by at
      most one and never below one. The die size never changes. */
  lemma ScalingMonotone(d: Dice, areaLevel: int, playerLevel: int)
    ensures ScaledDice(d, areaLevel, playerLevel).modifier >= d.modifier
    ensures ScaledDice(d, areaLevel, playerLevel).sides == d.sides
    ensures areaLevel - playerLevel >= -2 ==> ScaledDice(d, areaLevel, playerLevel).count >= d.count
    ensures areaLevel - playerLevel < -2 ==>
      var c := ScaledDice(d, areaLevel, playerLevel).count;
      c >= 1 && c + 1 >= d.count
  {
  }

  /** Scaling for area level 1 leaves a triple unchanged unless the player
      outlevels the area by more than two. */
  lemma ScalingIdentityAtBaseArea(d: Dice, playerLevel: int)
    requires -1 <= playerLevel <= 3
    ensures ScaledDice(d, 1, playerLevel) == d
  {
  }

  /** The scaling examples of the unit tests: area level 1 leaves `2d6+3`
      alone, area 5 against player 3 adds a die and eleven, an overleveled
      player loses a die, and the `+0` modifier is written out. */
  lemma ScalingExampleBaseArea()
    ensures ScaleForArea("2d6+3", 1, 1) == Ok("2d6+3")
  {
    ParseExampleTwoD6PlusThree();
    RenderTwoD6PlusThree();
  }

  lemma ScalingExampleHigherArea()
    ensures ScaleForArea("2d6+3", 5, 3) == Ok("3d6+11")
  {
    ParseExampleTwoD6PlusThree();
    assert ScaledDice(Dice(2, 6, 3), 5, 3) == Dice(3, 6, 11);
    RenderThreeD6PlusEleven();
  }

  lemma RenderThreeD6PlusEleven()
    ensures Render(Dice(3, 6, 11)) == "3d6+11"
  {
    assert NatToString(11) == "11";
  }

  lemma ScalingExampleOverleveled()
    ensures ScaleForArea("3d6+3", 1, 5) == Ok("2d6+3")
  {
    RenderRoundTrip(Dice(3, 6, 3));
    RenderThreeD6PlusThree();
    RenderTwoD6PlusThree();
  }

  lemma RenderTwoD6PlusThree()
    ensures Render(Dice(2, 6, 3)) == "2d6+3"
  {
    assert NatToString(2) == "2" && NatToString(6) == "6";
    assert ModifierString(3) == "+3";
  }

  lemma RenderThreeD6PlusThree()
    ensures Render(Dice(3, 6, 3)) == "3d6+3"
  {
    assert NatToString(3) == "3" && NatToString(6) == "6";
    assert ModifierString(3) == "+3";
  }

  lemma ScalingExampleZeroModifier()
    ensures ScaleForArea("3d8", 1, 1) == Ok("3d8+0")
  {
    ParseExampleThreeD8();
    RenderAlwaysSigned(Dice(3, 8, 0));
  }
}

=== FILE: engine_state.dfy ===
/** The data the engine rules work on (`game_engine.py`): the character
    record, the ordered status-effect dictionary, the merged configuration
    and the item and spell catalog (`content.py` is not part of this model;
    the catalog is given as maps from id to record). */
module EngineState {
  import opened Results
  import opened Assoc
  import opened DiceLib

  /** Equipment slots; the empty string is an empty slot (`None`). */
  datatype Equipment = Equipment(weapon: string, armor: string, accessory: string)

  /** The `character` section of the saved state. `attributes` holds the
      remaining integer entries of the record (strength, dexterity,
      constitution, intelligence, wisdom, charisma, ...). */
  datatype Character = Character(
    cls: string,
    level: int,
    hp: int, hpMax: int,
    mp: int, mpMax: int,
    stamina: int, staminaMax: int,
    xp: int, xpNext: int,
    gold: int,
    armor: int,
    damageBonus: int,
    skillPoints: int, statPoints: int,
    attributes: map<string, int>,
    inventory: seq<string>,
    equipment: Equipment)

  /** The entries of the record that hold text, a list or a dictionary
      rather than a number: `name` (always present, not modelled further),
      `class`, `inventory` and `equipment`. */
  const TextFields: set<string> := {"name", "class", "inventory", "equipment"}

  /** `char.get(key)` for the integer entries of the record. */
  function IntField(c: Character, key: string): Option<int> {
    match key
    case "level" => Some(c.level)
    case "hp" => Some(c.hp)
    case "hp_max" => Some(c.hpMax)
    case "mp" => Some(c.mp)
    case "mp_max" => Some(c.mpMax)
    case "stamina" => Some(c.stamina)
    case "stamina_max" => Some(c.staminaMax)
    case "xp" => Some(c.xp)
    case "xp_next" => Some(c.xpNext)
    case "gold" => Some(c.gold)
    case "armor" => Some(c.armor)
    case "damage_bonus" => Some(c.damageBonus)
    case "skill_points" => Some(c.skillPoints)
    case "stat_points" => Some(c.statPoints)
    case _ => if key in c.attributes then Some(c.attributes[key]) else None
  }

  /** `char[key] = v` for the integer entries of the record. */
  function SetIntField(c: Character, key: string, v: int): (r: Character)
    ensures IntField(r, key) == Some(v)
    ensures forall k :: k != key ==> IntField(r, k) == IntField(c, k)
    ensures r.cls == c.cls && r.inventory == c.inventory && r.equipment == c.equipment
  {
    match key
    case "level" => c.(level := v)
    case "hp" => c.(hp := v)
    case "hp_max" => c.(hpMax := v)
    case "mp" => c.(mp := v)
    case "mp_max" => c.(mpMax := v)
    case "stamina" => c.(stamina := v)
    case "stamina_max" => c.(staminaMax := v)
    case "xp" => c.(xp := v)
    case "xp_next" => c.(xpNext := v)
    case "gold" => c.(gold := v)
    case "armor" => c.(armor := v)
    case "damage_bonus" => c.(damageBonus := v)
    case "skill_points" => c.(skillPoints := v)
    case "stat_points" => c.(statPoints := v)
    case _ => c.(attributes := c.attributes[key := v])
  }

  /** One stored status effect, `{"duration": d, "power": p}`. */
  datatype EffectData = EffectData(duration: int, power: Amount)

  /** The saved state: the character, the status effects in insertion order
      (a missing `status_effects` section is the empty dictionary) and the
      current area. */
  datatype State = State(character: Character, effects: Dict<EffectData>, area: string)

  /** One entry of the `status_effects` section of the configuration; an
      absent key is `None`, and `otherKeys` records whether the entry has
      keys besides these ten (an `icon`, say) or one of them set to null. */
  datatype EffectConfig = EffectConfig(
    duration: Option<int>,
    durationBase: Option<int>,
    damagePerTurn: Option<Amount>,
    healPerTurn: Option<Amount>,
    passive: Option<bool>,
    skillBonus: Option<int>,
    armorBonus: Option<int>,
    armorPenalty: Option<int>,
    damageBonus: Option<int>,
    description: Option<string>,
    otherKeys: bool)
  {
    /** `not effect_config`: the entry is an empty dictionary. */
    predicate IsEmpty() {
      duration.None? && durationBase.None? && damagePerTurn.None? && healPerTurn.None?
      && passive.None? && skillBonus.None? && armorBonus.None? && armorPenalty.None?
      && damageBonus.None? && description.None? && !otherKeys
    }

    predicate IsPassive() {
      passive == Some(true)
    }
  }

  /** The `{}` that `.get(name, {})` yields for an unconfigured effect. */
  const NoEffectConfig := EffectConfig(None, None, None, None, None, None, None, None, None, None, false)

  /** Per-level gains of one class in `class_progression`. */
  datatype ClassProgression = ClassProgression(hpPerLevel: Option<int>, mpPerLevel: Option<int>, staminaPerLevel: Option<int>)

  /** The integer `game_constants`. The floating-point ones (`crit_chance`,
      `dodge_chance`, the regeneration rates, `xp_multiplier`) are not part
      of this model; the critical multiplier is an integer here. */
  datatype Constants = Constants(critMultiplier: int, staminaAttackCost: int, staminaDodgeCost: int, sneakBonusPerLevel: int)

  /** One entry of `area_scaling`: its level, and whether its
      `enemy_modifier` exceeds 1.0 (a floating-point comparison, so the
      outcome is recorded rather than computed). */
  datatype AreaConfig = AreaConfig(level: Option<int>, scalesEnemies: bool)

  datatype Config = Config(
    constants: Constants,
    effects: map<string, EffectConfig>,
    classes: map<string, ClassProgression>,
    areas: map<string, AreaConfig>)

  /** The configuration entry of an effect, `{}` when unconfigured. */
  function EffectConfigOf(config: Config, name: string): EffectConfig {
    if name in config.effects then config.effects[name] else NoEffectConfig
  }

  /** The built-in defaults of `load_config` (`game_engine.py:46-72`). */
  function DefaultConfig(): Config {
    var e := NoEffectConfig;
    Config(
      Constants(2, 10, 5, 3),
      map[
        "poisoned" := e.(damagePerTurn := Some(Flat(5)), duration := Some(3)),
        "burning" := e.(damagePerTurn := Some(Flat(8)), duration := Some(2)),
        "frozen" := e.(duration := Some(2)),
        "blessed" := e.(skillBonus := Some(2), duration := Some(5)),
        "shield_spell" := e.(armorBonus := Some(3), duration := Some(3)),
        "rage" := e.(damageBonus := Some(5), armorPenalty := Some(2), duration := Some(3))],
      map[],
      map[])
  }

  /** A catalog item; absent keys are `None`. Every catalog item has a
      category. */
  datatype Item = Item(
    category: string,
    damage: Option<string>,
    armor: Option<int>,
    heal: Option<Amount>,
    restore: Option<Amount>,
    effect: Option<string>,
    status: Option<string>,
    duration: Option<int>,
    power: Option<Amount>,
    cure: Option<string>)

  /** A catalog spell: its cost and which of the `healing`, `damage` and
      `effect` keys it has (with their values). */
  datatype Spell = Spell(mpCost: Option<int>, healing: Option<Amount>, damage: Option<Amount>, hasEffect: bool)

  datatype Catalog = Catalog(items: map<string, Item>, spells: map<string, Spell>)
}

=== FILE: inventory.dfy ===
/** Inventory rules of the engine (`game_engine.py`): `add_item`,
    `use_item` and `equip_item`. The inventory is a list of item ids in
    which an id may repeat; equipment slots hold one id each, or nothing. */
module Inventory {
  import opened Results
  import opened Ascii
  import opened Assoc
  import opened DiceLib
  import opened EngineState

  /** `n` copies of `x`. */
  function Repeat(x: string, n: nat): (r: seq<string>)
    ensures |r| == n && forall i :: 0 <= i < n ==> r[i] == x
  {
    if n == 0 then [] else [x] + Repeat(x, n - 1)
  }

  /** The position of the first occurrence of `x`. */
  function FirstIndex(s: seq<string>, x: string): (i: nat)
    requires x in s
    ensures i < |s| && s[i] == x && x !in s[..i]
  {
    if s[0] == x then 0 else FirstIndex(s[1..], x) + 1
  }

  /** `list.remove(x)`: the first occurrence of `x` goes, everything else
      stays in order. */
  function RemoveFirst(s: seq<string>, x: string): (r: seq<string>)
    requires x in s
    ensures |r| == |s| - 1
    ensures multiset(r) == multiset(s) - multiset{x}
    ensures r == s[..FirstIndex(s, x)] + s[FirstIndex(s, x) + 1..]
  {
    var i := FirstIndex(s, x);
    assert s == s[..i] + [x] + s[i + 1..];
    s[..i] + s[i + 1..]
  }

  // ---------------------------------------------------------------------------
  // add_item

  datatype AddOutcome = Added(itemAdded: string, quantity: int, inventorySize: nat) | AddUnknown(item: string)

  /** `add_item(item_id, quantity)`: an item unknown to the catalog is
      refused; otherwise `quantity` copies (none for a quantity below 1) go
      to the end of the inventory. */
  function AddItem(s: State, catalog: Catalog, itemId: string, quantity: int): (r: (AddOutcome, State))
    ensures r.0.AddUnknown? <==> itemId !in catalog.items
    ensures r.0.AddUnknown? ==> r.1 == s
    ensures r.0.Added? ==>
      var inv := s.character.inventory;
      var inv' := r.1.character.inventory;
      && inv' == inv + Repeat(itemId, if quantity > 0 then quantity else 0)
      && multiset(inv')[itemId] == multiset(inv)[itemId] + (if quantity > 0 then quantity else 0)
      && r.0.inventorySize == |inv'|
      && r.1 == s.(character := s.character.(inventory := inv'))
  {
    if itemId !in catalog.items then (AddUnknown(itemId), s)
    else
      var copies := Repeat(itemId, if quantity > 0 then quantity else 0);
      var inv := s.character.inventory + copies;
      assert multiset(copies)[itemId] == |copies| by { RepeatCount(itemId, |copies|); }
      (Added(itemId, quantity, |inv|), s.(character := s.character.(inventory := inv)))
  }

  lemma {:induction false} RepeatCount(x: string, n: nat)
    ensures multiset(Repeat(x, n))[x] == n
  {
    if n > 0 {
      RepeatCount(x, n - 1);
      assert Repeat(x, n) == [x] + Repeat(x, n - 1);
    }
  }

  // ---------------------------------------------------------------------------
  // use_item

  datatype UseEffect =
    | HealedHp(amount: int)
    | RestoredMp(amount: int)
    | RestoredStamina(amount: int)
    | AppliedStatus(status: string, duration: int)
    | CuredPoison
    | NoPoisonToCure

  datatype UseOutcome =
    | Used(effects: seq<UseEffect>)
    | NotInInventory
    | UnknownItem
    | NotConsumable

  /** The categories `use_item` accepts. */
  const ConsumableCategories: seq<string> := ["consumables", "custom_consumables"]

  /** Whether a restoring item restores mana: its lower-cased id mentions
      `mana` or `mp`; otherwise it restores stamina. */
  predicate RestoresMana(itemId: string) {
    Contains(Lower(itemId), "mana") || Contains(Lower(itemId), "mp")
  }

  /** Whether an item cures poison: its `cure` is `poison`, or its
      lower-cased id mentions `antidote`. */
  predicate CuresPoison(itemId: string, item: Item) {
    item.cure == Some("poison") || Contains(Lower(itemId), "antidote")
  }

  /** The healing step of `use_item`: hit points rise by the rolled amount
      but not above the maximum. */
  function UseHeal(s: State, item: Item, rng: Rng): (r: Result<(State, seq<UseEffect>)>)
    ensures item.heal.None? ==> r == Ok((s, []))
    ensures r.Ok? && item.heal.Some? ==> RollHealing(item.heal.value, 0, rng).Ok?
    ensures r.Ok? && item.heal.Some? && RollHealing(item.heal.value, 0, rng).Ok? ==>
      var n := RollHealing(item.heal.value, 0, rng).value;
      && r.value.0 == s.(character := s.character.(hp := Min(s.character.hp + n, s.character.hpMax)))
      && r.value.1 == [HealedHp(n)]
  {
    match item.heal
    case None => Ok((s, []))
    case Some(h) =>
      var n :- RollHealing(h, 0, rng);
      var c := s.character;
      Ok((s.(character := c.(hp := Min(c.hp + n, c.hpMax))), [HealedHp(n)]))
  }

  /** The restoring step of `use_item`: mana or stamina rise by the amount
      but not above the maximum. The amount is converted to text first, so
      an integer is taken as it is. */
  function UseRestore(s: State, itemId: string, item: Item, rng: Rng): (r: Result<(State, seq<UseEffect>)>)
    ensures item.restore.None? ==> r == Ok((s, []))
    ensures r.Ok? && item.restore.Some? ==> RollHealing(item.restore.value, 0, rng).Ok?
    ensures r.Ok? && item.restore.Some? && RollHealing(item.restore.value, 0, rng).Ok? ==>
      var n := RollHealing(item.restore.value, 0, rng).value;
      var c := s.character;
      && (RestoresMana(itemId) ==>
            r.value.0 == s.(character := c.(mp := Min(c.mp + n, c.mpMax))) && r.value.1 == [RestoredMp(n)])
      && (!RestoresMana(itemId) ==>
            r.value.0 == s.(character := c.(stamina := Min(c.stamina + n, c.staminaMax))) && r.value.1 == [RestoredStamina(n)])
  {
    match item.restore
    case None => Ok((s, []))
    case Some(a) =>
      var n :- RollHealing(a, 0, rng);
      var c := s.character;
      if RestoresMana(itemId) then Ok((s.(character := c.(mp := Min(c.mp + n, c.mpMax))), [RestoredMp(n)]))
      else Ok((s.(character := c.(stamina := Min(c.stamina + n, c.staminaMax))), [RestoredStamina(n)]))
  }

  /** The status step of `use_item`: an `apply_status` item with a status
      stores it unconditionally, with duration 3 and power `1d4` unless the
      item says otherwise. */
  function UseStatus(s: State, item: Item): (r: (State, seq<UseEffect>))
    ensures r.0.character == s.character && r.0.area == s.area
    ensures item.effect == Some("apply_status") && item.status.Some? && item.status.value != "" ==>
      var d := item.duration.GetOr(3);
      && Get(r.0.effects, item.status.value) == Some(EffectData(d, item.power.GetOr(Text("1d4"))))
      && r.1 == [AppliedStatus(item.status.value, d)]
    ensures !(item.effect == Some("apply_status") && item.status.Some? && item.status.value != "") ==> r == (s, [])
    ensures forall k :: k != item.status.GetOr("") ==> Get(r.0.effects, k) == Get(s.effects, k)
  {
    if item.effect == Some("apply_status") && item.status.Some? && item.status.value != "" then
      var status := item.status.value;
      var d := item.duration.GetOr(3);
      PutOthers(s.effects, status, EffectData(d, item.power.GetOr(Text("1d4"))));
      (s.(effects := Put(s.effects, status, EffectData(d, item.power.GetOr(Text("1d4"))))), [AppliedStatus(status, d)])
    else (s, [])
  }

  /** The cure step of `use_item`: a curing item removes `poisoned`, or
      reports that there was none. */
  function UseCure(s: State, itemId: string, item: Item): (r: (State, seq<UseEffect>))
    ensures r.0.character == s.character && r.0.area == s.area
    ensures CuresPoison(itemId, item) ==>
      && "poisoned" !in Keys(r.0.effects)
      && r.1 == (if "poisoned" in Keys(s.effects) then [CuredPoison] else [NoPoisonToCure])
    ensures !CuresPoison(itemId, item) ==> r == (s, [])
    ensures forall k :: k != "poisoned" ==> Get(r.0.effects, k) == Get(s.effects, k)
  {
    if CuresPoison(itemId, item) then
      if "poisoned" in Keys(s.effects) then (s.(effects := Remove(s.effects, "poisoned")), [CuredPoison])
      else (s, [NoPoisonToCure])
    else (s, [])
  }

  /** The item is carried, known and consumable. */
  predicate Usable(s: State, catalog: Catalog, itemId: string) {
    itemId in s.character.inventory && itemId in catalog.items
    && catalog.items[itemId].category in ConsumableCategories
  }

  /** `use_item(item_id)`: the item must be carried, known and consumable;
      then its healing, restoring, status and cure steps apply in that
      order and one copy leaves the inventory. The healing roll uses
      `rolls(0)` and the restoring roll `rolls(1)`. */
  function UseItem(s: State, catalog: Catalog, itemId: string, rolls: nat -> Rng): (r: Result<(UseOutcome, State)>)
    ensures itemId !in s.character.inventory ==> r == Ok((NotInInventory, s))
    ensures itemId in s.character.inventory && itemId !in catalog.items ==> r == Ok((UnknownItem, s))
    ensures itemId in s.character.inventory && itemId in catalog.items && catalog.items[itemId].category !in ConsumableCategories ==>
      r == Ok((NotConsumable, s))
    ensures Usable(s, catalog, itemId) ==>
      var item := catalog.items[itemId];
      (r.Err? <==> UseHeal(s, item, rolls(0)).Err? || UseRestore(UseHeal(s, item, rolls(0)).value.0, itemId, item, rolls(1)).Err?)
    ensures r.Ok? ==> (r.value.0.Used? <==> Usable(s, catalog, itemId))
    ensures r.Ok? && r.value.0.Used? ==>
      var item := catalog.items[itemId];
      var (s1, e1) := UseHeal(s, item, rolls(0)).value;
      var (s2, e2) := UseRestore(s1, itemId, item, rolls(1)).value;
      var (s3, e3) := UseStatus(s2, item);
      var (s4, e4) := UseCure(s3, itemId, item);
      && r.value.0.effects == e1 + e2 + e3 + e4
      && r.value.1.character.hp == s1.character.hp
      && r.value.1.character.mp == s2.character.mp
      && r.value.1.character.stamina == s2.character.stamina
      && r.value.1.character == s2.character.(inventory := RemoveFirst(s.character.inventory, itemId))
      && r.value.1.effects == s4.effects
      && multiset(r.value.1.character.inventory) == multiset(s.character.inventory) - multiset{itemId}
      && r.value.1.area == s.area
  {
    var c := s.character;
    if itemId !in c.inventory then Ok((NotInInventory, s))
    else if itemId !in catalog.items then Ok((UnknownItem, s))
    else
      var item := catalog.items[itemId];
      if item.category !in ConsumableCategories then Ok((NotConsumable, s))
      else
        var (s1, e1) :- UseHeal(s, item, rolls(0));
        var (s2, e2) :- UseRestore(s1, itemId, item, rolls(1));
        var (s3, e3) := UseStatus(s2, item);
        var (s4, e4) := UseCure(s3, itemId, item);
        assert s4.character.inventory == c.inventory;
        var c4 := s4.character;
        Ok((Used(e1 + e2 + e3 + e4), s4.(character := c4.(inventory := RemoveFirst(c.inventory, itemId)))))
  }

  // ---------------------------------------------------------------------------
  // equip_item

  datatype Slot = WeaponSlot | ArmorSlot | AccessorySlot

  datatype EquipOutcome =
    | Equipped(equipped: string, slot: Slot, unequipped: string)
    | EquipNotInInventory
    | EquipUnknown

  /** The slot an item's category goes to: weapons, armor, and anything
      else as an accessory. */
  function SlotOf(item: Item): Slot {
    if item.category == "weapons" then WeaponSlot
    else if item.category == "armor" then ArmorSlot
    else AccessorySlot
  }

  function SlotItem(e: Equipment, slot: Slot): string {
    match slot
    case WeaponSlot => e.weapon
    case ArmorSlot => e.armor
    case AccessorySlot => e.accessory
  }

  function SetSlot(e: Equipment, slot: Slot, id: string): (r: Equipment)
    ensures SlotItem(r, slot) == id
    ensures forall other :: other != slot ==> SlotItem(r, other) == SlotItem(e, other)
  {
    match slot
    case WeaponSlot => e.(weapon := id)
    case ArmorSlot => e.(armor := id)
    case AccessorySlot => e.(accessory := id)
  }

  /** The ids a character carries: the inventory and the occupied
      equipment slots. */
  function Carried(c: Character): multiset<string> {
    multiset(c.inventory) + Bag(c.equipment.weapon) + Bag(c.equipment.armor) + Bag(c.equipment.accessory)
  }

  /** The id a slot holds, as a bag: empty for an empty slot. */
  function Bag(id: string): multiset<string> {
    if id != "" then multiset{id} else multiset{}
  }

  /** `equip_item(item_id)`: the item must be carried and known; it moves
      from the inventory into its slot and the slot's previous occupant, if
      any, goes to the end of the inventory. */
  function EquipItem(s: State, catalog: Catalog, itemId: string): (r: (EquipOutcome, State))
    ensures itemId !in s.character.inventory ==> r == (EquipNotInInventory, s)
    ensures itemId in s.character.inventory && itemId !in catalog.items ==> r == (EquipUnknown, s)
    ensures itemId in s.character.inventory && itemId in catalog.items ==> r.0.Equipped?
    ensures r.0.Equipped? ==>
      var slot := SlotOf(catalog.items[itemId]);
      var old_ := SlotItem(s.character.equipment, slot);
      var c' := r.1.character;
      && itemId in catalog.items
      && r.0 == Equipped(itemId, slot, old_)
      && SlotItem(c'.equipment, slot) == itemId
      && (forall other :: other != slot ==> SlotItem(c'.equipment, other) == SlotItem(s.character.equipment, other))
      && multiset(c'.inventory) + multiset{itemId} == multiset(s.character.inventory) + Bag(old_)
      && r.1 == s.(character := s.character.(inventory := c'.inventory, equipment := c'.equipment))
  {
    var c := s.character;
    if itemId !in c.inventory then (EquipNotInInventory, s)
    else if itemId !in catalog.items then (EquipUnknown, s)
    else
      var slot := SlotOf(catalog.items[itemId]);
      var old_ := SlotItem(c.equipment, slot);
      var inv := if old_ != "" then c.inventory + [old_] else c.inventory;
      var inv' := RemoveFirst(inv, itemId);
      (Equipped(itemId, slot, old_), s.(character := c.(inventory := inv', equipment := SetSlot(c.equipment, slot, itemId))))
  }
}

=== FILE: inventory_proofs.dfy ===
/** Properties of the inventory rules: equipping never creates or loses an
    item, and using an item consumes exactly one copy. */
module InventoryProofs {
  import opened Results
  import opened Ascii
  import opened Assoc
  import opened DiceLib
  import opened EngineState
  import opened Inventory

  /** Equipping moves ids between the inventory and the slots: what the
      character carries, counted with multiplicity, is the same before and
      after. (The empty id stands for an empty slot, so it is excluded.) */
  lemma EquipPreservesCarried(s: State, catalog: Catalog, itemId: string)
    requires itemId != ""
    ensures Carried(EquipItem(s, catalog, itemId).1.character) == Carried(s.character)
  {
    var r := EquipItem(s, catalog, itemId);
    if r.0.Equipped? {
      SwapKeepsCarried(s.character, r.1.character, SlotOf(catalog.items[itemId]), itemId);
    }
  }

  /** Putting `id` into a slot while the inventory gives up `id` and takes
      the old occupant keeps the carried bag. */
  lemma SwapKeepsCarried(c: Character, c': Character, slot: Slot, id: string)
    requires id != ""
    requires SlotItem(c'.equipment, slot) == id
    requires forall other :: other != slot ==> SlotItem(c'.equipment, other) == SlotItem(c.equipment, other)
    requires multiset(c'.inventory) + multiset{id} == multiset(c.inventory) + Bag(SlotItem(c.equipment, slot))
    ensures Carried(c') == Carried(c)
  {
    var e, e' := c.equipment, c'.equipment;
    var inv, inv' := multiset(c.inventory), multiset(c'.inventory);
    match slot
    case WeaponSlot =>
      assert e'.armor == e.armor && e'.accessory == e.accessory by {
        assert SlotItem(e', ArmorSlot) == SlotItem(e, ArmorSlot);
        assert SlotItem(e', AccessorySlot) == SlotItem(e, AccessorySlot);
      }
      assert inv' + Bag(e'.weapon) == inv + Bag(e.weapon);
      assert Carried(c') == (inv' + Bag(e'.weapon)) + Bag(e.armor) + Bag(e.accessory);
      assert Carried(c) == (inv + Bag(e.weapon)) + Bag(e.armor) + Bag(e.accessory);
    case ArmorSlot =>
      assert e'.weapon == e.weapon && e'.accessory == e.accessory by {
        assert SlotItem(e', WeaponSlot) == SlotItem(e, WeaponSlot);
        assert SlotItem(e', AccessorySlot) == SlotItem(e, AccessorySlot);
      }
      assert inv' + Bag(e'.armor) == inv + Bag(e.armor);
      assert Carried(c') == (inv' + Bag(e'.armor)) + Bag(e.weapon) + Bag(e.accessory);
      assert Carried(c) == (inv + Bag(e.armor)) + Bag(e.weapon) + Bag(e.accessory);
    case AccessorySlot =>
      assert e'.weapon == e.weapon && e'.armor == e.armor by {
        assert SlotItem(e', WeaponSlot) == SlotItem(e, WeaponSlot);
        assert SlotItem(e', ArmorSlot) == SlotItem(e, ArmorSlot);
      }
      assert inv' + Bag(e'.accessory) == inv + Bag(e.accessory);
      assert Carried(c') == (inv' + Bag(e'.accessory)) + Bag(e.weapon) + Bag(e.armor);
      assert Carried(c) == (inv + Bag(e.accessory)) + Bag(e.weapon) + Bag(e.armor);
  }

  /** Equipping a sword over an equipped dagger puts the dagger back in
      the inventory in the sword's place. */
  lemma EquipSwapExample(s: State)
    requires s.character.inventory == ["sword", "potion"]
    requires s.character.equipment.weapon == "dagger"
    ensures var catalog := Catalog(map["sword" := Item("weapons", Some("1d8"), None, None, None, None, None, None, None, None)], map[]);
      var r := EquipItem(s, catalog, "sword");
      && r.0 == Equipped("sword", WeaponSlot, "dagger")
      && r.1.character.inventory == ["potion", "dagger"]
      && r.1.character.equipment.weapon == "sword"
  {
    var inv := ["sword", "potion"] + ["dagger"];
    assert inv == ["sword", "potion", "dagger"];
    assert FirstIndex(inv, "sword") == 0;
    assert RemoveFirst(inv, "sword") == ["potion", "dagger"];
  }

  /** Using an antidote removes the poison and leaves every other effect
      as it was. */
  lemma AntidoteCuresPoison(s: State, catalog: Catalog, rolls: nat -> Rng, k: string)
    requires Usable(s, catalog, "antidote")
    requires var item := catalog.items["antidote"];
      item.heal.None? && item.restore.None? && item.effect.None?
    requires "poisoned" in Keys(s.effects)
    ensures var r := UseItem(s, catalog, "antidote", rolls);
      && r.Ok? && r.value.0 == Used([CuredPoison])
      && "poisoned" !in Keys(r.value.1.effects)
      && (k != "poisoned" ==> Get(r.value.1.effects, k) == Get(s.effects, k))
  {
    var item := catalog.items["antidote"];
    AntidoteIdCures(item);
    assert UseHeal(s, item, rolls(0)) == Ok((s, []));
    assert UseRestore(s, "antidote", item, rolls(1)) == Ok((s, []));
    assert UseStatus(s, item) == (s, []);
    var (s4, e4) := UseCure(s, "antidote", item);
    assert e4 == [CuredPoison];
    assert [] + [] + [] + e4 == [CuredPoison];
  }

  /** An item whose id is `antidote` cures poison, whatever its fields. */
  lemma AntidoteIdCures(item: Item)
    ensures CuresPoison("antidote", item)
  {
    assert Lower("antidote") == "antidote";
    assert "antidote"[..|"antidote"|] == "antidote";
  }

  /** A plain healing potion raises the hit points by its amount up to the
      maximum, leaves mana, stamina and the status effects alone, and is
      used up. */
  lemma PotionHealsWithinMax(s: State, catalog: Catalog, itemId: string, n: int, rolls: nat -> Rng)
    requires Usable(s, catalog, itemId)
    requires catalog.items[itemId].heal == Some(Flat(n))
    requires catalog.items[itemId].restore.None? && catalog.items[itemId].effect.None?
    requires !CuresPoison(itemId, catalog.items[itemId])
    ensures var r := UseItem(s, catalog, itemId, rolls);
      && r.Ok? && r.value.0 == Used([HealedHp(n)])
      && r.value.1.character.hp == Min(s.character.hp + n, s.character.hpMax)
      && r.value.1.character.mp == s.character.mp
      && r.value.1.character.stamina == s.character.stamina
      && r.value.1.effects == s.effects
  {
    var item := catalog.items[itemId];
    assert RollHealing(Flat(n), 0, rolls(0)) == Ok(n);
    assert [HealedHp(n)] + [] + [] + [] == [HealedHp(n)];
  }
}

=== FILE: json_values.dfy ===
/** JSON documents as the engine loads them: objects keep their key order.
    Numbers are integers in this model. */
module JsonValues {
  import opened Results
  import opened Assoc

  datatype Json =
    | JNull
    | JBool(b: bool)
    | JInt(i: int)
    | JStr(s: string)
    | JArr(items: seq<Json>)
    | JObj(fields: Dict<Json>)

  /** Python truthiness: `None`, `False`, zero and empty values are
      false. */
  predicate Truthy(v: Json) {
    match v
    case JNull => false
    case JBool(b) => b
    case JInt(i) => i != 0
    case JStr(s) => s != ""
    case JArr(items) => items != []
    case JObj(fields) => fields != []
  }

  /** A JSON value in an integer comparison: booleans count as 0 and 1,
      anything else but a number raises `TypeError`. */
  function AsNumber(v: Json): (r: Result<int>)
    ensures r.Ok? <==> v.JInt? || v.JBool?
    ensures v.JInt? ==> r == Ok(v.i)
  {
    match v
    case JInt(i) => Ok(i)
    case JBool(b) => Ok(if b then 1 else 0)
    case _ => Err("TypeError")
  }
}

=== FILE: npc_matrix.dfy ===
/** The NPC relationship matrix (`npc_matrix.py`): dispositions toward
    the player between -100 and 100, their history, the relationship label
    a disposition implies, faction standings, and the ally, enemy and
    reaction queries. Timestamps and the JSON file are not modelled. */
module NpcMatrix {
  import opened Results
  import opened Assoc

  /** One `history` entry: the change as asked for, its reason and the
      disposition it produced. */
  datatype HistoryEntry = HistoryEntry(change: int, reason: string, newDisposition: int)

  datatype Npc = Npc(
    disposition: int, relationship: string, faction: string,
    notes: seq<string>, lastInteraction: string, history: seq<HistoryEntry>)

  datatype Faction = Faction(standing: int, reason: string)

  /** The matrix: NPCs and factions by name, in insertion order. */
  datatype Matrix = Matrix(npcs: Dict<Npc>, factions: Dict<Faction>)

  /** `max(-100, min(100, v))`. */
  function Clamp(v: int): (r: int)
    ensures -100 <= r <= 100
    ensures -100 <= v <= 100 ==> r == v
    ensures v > 100 ==> r == 100
    ensures v < -100 ==> r == -100
  {
    if v > 100 then 100 else if v < -100 then -100 else v
  }

  // ---------------------------------------------------------------------------
  // get_relationship_level

  /** The relationship labels from the worst band to the best. */
  const Bands: seq<string> :=
    ["Nemesis", "Enemy", "Hostile", "Wary", "Neutral",
     "Acquaintance", "Friendly", "Friend", "Close Friend", "Devoted Ally"]

  /** The lowest disposition of each band above the worst. */
  const Cuts: seq<int> := [-70, -50, -30, -10, 10, 30, 50, 70, 90]

  /** `get_relationship_level`: the label of the band a disposition falls
      in, tested from the best band down. */
  function RelationshipLevel(disposition: int): (l: string)
    ensures l in Bands
  {
    if disposition >= 90 then "Devoted Ally"
    else if disposition >= 70 then "Close Friend"
    else if disposition >= 50 then "Friend"
    else if disposition >= 30 then "Friendly"
    else if disposition >= 10 then "Acquaintance"
    else if disposition >= -10 then "Neutral"
    else if disposition >= -30 then "Wary"
    else if disposition >= -50 then "Hostile"
    else if disposition >= -70 then "Enemy"
    else "Nemesis"
  }

  /** How many of the first `n` cut points a disposition reaches: the index
      of its band. */
  function CutsReached(disposition: int, n: nat): (k: nat)
    requires n <= |Cuts|
    ensures k <= n
  {
    if n == 0 then 0 else CutsReached(disposition, n - 1) + (if disposition >= Cuts[n - 1] then 1 else 0)
  }

  // ---------------------------------------------------------------------------
  // add_npc, update_disposition, add_note, set_faction_standing

  /** `add_npc`: the entry is created or replaced outright, with an empty
      history; the disposition is stored as given, without clamping. */
  function AddNpc(m: Matrix, name: string, disposition: int, relationship: string, faction: string,
                  notes: seq<string>, lastInteraction: string): (r: Matrix)
    ensures Get(r.npcs, name) == Some(Npc(disposition, relationship, faction, notes, lastInteraction, []))
    ensures forall k :: k != name ==> Get(r.npcs, k) == Get(m.npcs, k)
    ensures forall k :: k in Keys(r.npcs) <==> k in Keys(m.npcs) || k == name
    ensures r.factions == m.factions
  {
    Store(m, name, Npc(disposition, relationship, faction, notes, lastInteraction, []))
  }

  /** `self.npcs[name] = npc`. */
  function Store(m: Matrix, name: string, npc: Npc): (r: Matrix)
    ensures Get(r.npcs, name) == Some(npc)
    ensures forall k :: k != name ==> Get(r.npcs, k) == Get(m.npcs, k)
    ensures forall k :: k in Keys(r.npcs) <==> k in Keys(m.npcs) || k == name
    ensures name in Keys(m.npcs) ==> Keys(r.npcs) == Keys(m.npcs)
    ensures r.factions == m.factions
  {
    PutOthers(m.npcs, name, npc);
    PutKeepsOrder(m.npcs, name, npc);
    m.(npcs := Put(m.npcs, name, npc))
  }

  /** `update_disposition`: an unknown NPC changes nothing and yields
      `None`. Otherwise the disposition moves by the change, clamped to
      [-100, 100]; the history records the change as asked for and the new
      disposition; the label follows the new disposition. The result is
      the old and the new disposition. */
  function UpdateDisposition(m: Matrix, name: string, change: int, reason: string): (r: (Option<(int, int)>, Matrix))
    ensures r.0.None? <==> name !in Keys(m.npcs)
    ensures r.0.None? ==> r.1 == m
    ensures r.0.Some? ==> Get(r.1.npcs, name).Some?
    ensures r.0.Some? && Get(r.1.npcs, name).Some? ==>
      var npc := Get(m.npcs, name).value;
      var npc' := Get(r.1.npcs, name).value;
      && r.0.value == (npc.disposition, npc'.disposition)
      && npc'.disposition == Clamp(npc.disposition + change)
      && npc'.history == npc.history + [HistoryEntry(change, reason, npc'.disposition)]
      && npc'.relationship == RelationshipLevel(npc'.disposition)
      && npc' == npc.(disposition := npc'.disposition, history := npc'.history, relationship := npc'.relationship)
    ensures forall k :: k != name ==> Get(r.1.npcs, k) == Get(m.npcs, k)
    ensures Keys(r.1.npcs) == Keys(m.npcs) && r.1.factions == m.factions
  {
    match Get(m.npcs, name)
    case None => (None, m)
    case Some(npc) =>
      var d := Clamp(npc.disposition + change);
      var npc' := npc.(disposition := d,
                       history := npc.history + [HistoryEntry(change, reason, d)],
                       relationship := RelationshipLevel(d));
      (Some((npc.disposition, d)), Store(m, name, npc'))
  }

  /** `add_note`: the note goes to the end of a known NPC's notes; an
      unknown NPC is silently ignored. */
  function AddNote(m: Matrix, name: string, note: string): (r: Matrix)
    ensures name !in Keys(m.npcs) ==> r == m
    ensures name in Keys(m.npcs) ==>
      var npc := Get(m.npcs, name).value;
      Get(r.npcs, name) == Some(npc.(notes := npc.notes + [note]))
    ensures forall k :: k != name ==> Get(r.npcs, k) == Get(m.npcs, k)
    ensures Keys(r.npcs) == Keys(m.npcs) && r.factions == m.factions
  {
    match Get(m.npcs, name)
    case None => m
    case Some(npc) =>
      Store(m, name, npc.(notes := npc.notes + [note]))
  }

  /** `set_faction_standing`: the faction's entry is replaced outright. */
  function SetFactionStanding(m: Matrix, faction: string, standing: int, reason: string): (r: Matrix)
    ensures Get(r.factions, faction) == Some(Faction(standing, reason))
    ensures forall k :: k != faction ==> Get(r.factions, k) == Get(m.factions, k)
    ensures r.npcs == m.npcs
  {
    PutOthers(m.factions, faction, Faction(standing, reason));
    m.(factions := Put(m.factions, faction, Faction(standing, reason)))
  }

  // ---------------------------------------------------------------------------
  // get_allies, get_enemies, predict_reaction

  /** The names, in order, whose disposition passes `keep`. */
  function Select(d: Dict<Npc>, keep: int -> bool): (r: seq<string>)
    ensures |r| <= |d|
    ensures forall i :: 0 <= i < |d| && keep(d[i].1.disposition) ==> d[i].0 in r
    ensures forall x :: x in r ==> exists i :: 0 <= i < |d| && d[i].0 == x && keep(d[i].1.disposition)
  {
    if |d| == 0 then []
    else
      var rest := Select(d[1..], keep);
      assert forall i :: 1 <= i < |d| ==> d[i] == d[1..][i - 1];
      if keep(d[0].1.disposition) then [d[0].0] + rest else rest
  }

  /** `get_allies(min_disposition)` (default 50). */
  function GetAllies(m: Matrix, minDisposition: int): (r: seq<string>)
    ensures forall i :: 0 <= i < |m.npcs| && m.npcs[i].1.disposition >= minDisposition ==> m.npcs[i].0 in r
    ensures forall x :: x in r ==> exists i :: 0 <= i < |m.npcs| && m.npcs[i].0 == x && m.npcs[i].1.disposition >= minDisposition
  {
    Select(m.npcs, v => v >= minDisposition)
  }

  /** `get_enemies(max_disposition)` (default -30). */
  function GetEnemies(m: Matrix, maxDisposition: int): (r: seq<string>)
    ensures forall i :: 0 <= i < |m.npcs| && m.npcs[i].1.disposition <= maxDisposition ==> m.npcs[i].0 in r
    ensures forall x :: x in r ==> exists i :: 0 <= i < |m.npcs| && m.npcs[i].0 == x && m.npcs[i].1.disposition <= maxDisposition
  {
    Select(m.npcs, v => v <= maxDisposition)
  }

  /** The five reactions `predict_reaction` describes, and its answer for
      an unknown NPC. */
  datatype Reaction = Supportive | Cooperative | Businesslike | HostileButCalm | Violent | UnknownNpc

  /** `predict_reaction`: five bands of the disposition, best first. */
  function PredictReaction(m: Matrix, name: string): (r: Reaction)
    ensures r == UnknownNpc <==> name !in Keys(m.npcs)
    ensures name in Keys(m.npcs) ==>
      var d := Get(m.npcs, name).value.disposition;
      && (r == Supportive <==> d >= 70)
      && (r == Cooperative <==> 30 <= d < 70)
      && (r == Businesslike <==> -10 <= d < 30)
      && (r == HostileButCalm <==> -50 <= d < -10)
      && (r == Violent <==> d < -50)
  {
    match Get(m.npcs, name)
    case None => UnknownNpc
    case Some(npc) =>
      var d := npc.disposition;
      if d >= 70 then Supportive
      else if d >= 30 then Cooperative
      else if d >= -10 then Businesslike
      else if d >= -50 then HostileButCalm
      else Violent
  }
}

=== FILE: npc_matrix_proofs.dfy ===
/** Properties of the NPC matrix: the relationship label is the band the
    cut points select and never worsens as the disposition rises; each
    reaction covers exactly two adjacent bands; changes within range undo
    each other; with the default thresholds nobody is both ally and
    enemy. */
module NpcMatrixProofs {
  import opened Results
  import opened Assoc
  import opened NpcMatrix

  /** The label is the band whose index counts the cut points reached. */
  lemma LabelIsBand(d: int)
    ensures RelationshipLevel(d) == Bands[CutsReached(d, |Cuts|)]
  {
    var c1 := CutsReached(d, 1);
    var c2 := CutsReached(d, 2);
    var c3 := CutsReached(d, 3);
    var c4 := CutsReached(d, 4);
    var c5 := CutsReached(d, 5);
    var c6 := CutsReached(d, 6);
    var c7 := CutsReached(d, 7);
    var c8 := CutsReached(d, 8);
    var c9 := CutsReached(d, 9);
  }

  /** Reaching a cut point means reaching every lower one too, so the band
      index only grows with the disposition. */
  lemma {:induction false} CutsMonotone(d1: int, d2: int, n: nat)
    requires d1 <= d2 && n <= |Cuts|
    ensures CutsReached(d1, n) <= CutsReached(d2, n)
  {
    if n > 0 {
      CutsMonotone(d1, d2, n - 1);
    }
  }

  /** A higher disposition never gets a worse label. */
  lemma LabelMonotone(d1: int, d2: int)
    requires d1 <= d2
    ensures var b1 := CutsReached(d1, |Cuts|); var b2 := CutsReached(d2, |Cuts|);
      && b1 <= b2
      && RelationshipLevel(d1) == Bands[b1] && RelationshipLevel(d2) == Bands[b2]
  {
    CutsMonotone(d1, d2, |Cuts|);
    LabelIsBand(d1);
    LabelIsBand(d2);
  }

  /** Each predicted reaction covers exactly two adjacent relationship
      bands. */
  lemma ReactionMatchesLabel(m: Matrix, name: string)
    requires name in Keys(m.npcs)
    ensures var l := RelationshipLevel(Get(m.npcs, name).value.disposition);
      var r := PredictReaction(m, name);
      && (r == Supportive <==> l == "Devoted Ally" || l == "Close Friend")
      && (r == Cooperative <==> l == "Friend" || l == "Friendly")
      && (r == Businesslike <==> l == "Acquaintance" || l == "Neutral")
      && (r == HostileButCalm <==> l == "Wary" || l == "Hostile")
      && (r == Violent <==> l == "Enemy" || l == "Nemesis")
  {
  }

  /** A change that stays within [-100, 100] is undone by its opposite,
      and the history keeps both steps. */
  lemma UpdateUndo(m: Matrix, name: string, change: int, reason: string, back: string)
    requires name in Keys(m.npcs)
    requires var d := Get(m.npcs, name).value.disposition;
      -100 <= d <= 100 && -100 <= d + change <= 100
    ensures var m1 := UpdateDisposition(m, name, change, reason).1;
      var m2 := UpdateDisposition(m1, name, -change, back).1;
      var npc := Get(m.npcs, name).value;
      && Get(m2.npcs, name).Some?
      && Get(m2.npcs, name).value.disposition == npc.disposition
      && |Get(m2.npcs, name).value.history| == |npc.history| + 2
  {
    var m1 := UpdateDisposition(m, name, change, reason).1;
    assert name in Keys(m1.npcs);
  }

  /** Clamping loses the excess: a friend at 85 who gains 50 is at 100, and
      the history records the 50 asked for. */
  lemma ClampExample(m: Matrix)
    requires Get(m.npcs, "Garrett") == Some(Npc(85, "Close Friend", "Merchants", [], "", []))
    ensures var r := UpdateDisposition(m, "Garrett", 50, "saved the town");
      && r.0 == Some((85, 100))
      && Get(r.1.npcs, "Garrett") == Some(Npc(100, "Devoted Ally", "Merchants", [], "", [HistoryEntry(50, "saved the town", 100)]))
  {
    var r := UpdateDisposition(m, "Garrett", 50, "saved the town");
    assert "Garrett" in Keys(m.npcs);
    assert Get(r.1.npcs, "Garrett").Some?;
    var npc := Get(m.npcs, "Garrett").value;
    var npc' := Get(r.1.npcs, "Garrett").value;
    assert npc'.disposition == 100;
    assert npc'.history == [] + [HistoryEntry(50, "saved the town", 100)];
    assert npc'.relationship == "Devoted Ally";
    assert npc' == npc.(disposition := 100, history := [HistoryEntry(50, "saved the town", 100)], relationship := "Devoted Ally");
  }

  /** With the default thresholds (50 and -30) and one entry per name, no
      NPC is both an ally and an enemy. */
  lemma AlliesAndEnemiesDisjoint(m: Matrix, x: string)
    requires UniqueKeys(m.npcs)
    ensures !(x in GetAllies(m, 50) && x in GetEnemies(m, -30))
  {
  }
}

=== FILE: progression.dfy ===
/** Experience and levelling of the engine (`game_engine.py`, `gain_xp`).
    The requirement for the next level (`xp_base * xp_multiplier **
    (level - 1)`, truncated) is floating-point arithmetic, so it is given as
    a function of the new level, positive for every level. */
module Progression {
  import opened Results
  import opened Ascii
  import opened EngineState

  /** A requirement for the next level, for every level: positive, or the
      level-up loop would never end. */
  ghost predicate PositiveRequirements(nextReq: int -> int) {
    forall l :: nextReq(l) > 0
  }

  /** The per-level gains of a class, `(hp, mp, stamina)`: the entry of the
      lower-cased class in `class_progression`, defaulting to 10, 5 and 5. */
  function ClassGains(config: Config, cls: string): (g: (int, int, int))
    ensures Lower(cls) !in config.classes ==> g == (10, 5, 5)
  {
    var key := Lower(cls);
    if key in config.classes then
      var p := config.classes[key];
      (p.hpPerLevel.GetOr(10), p.mpPerLevel.GetOr(5), p.staminaPerLevel.GetOr(5))
    else (10, 5, 5)
  }

  /** One pass of the level-up loop: the requirement is paid, the level,
      maxima and points rise, and hit points, mana and stamina refill. */
  function LevelUp(c: Character, config: Config, nextReq: int -> int): (r: Character)
    ensures r.xp + c.xpNext == c.xp
    ensures r.level == c.level + 1 && r.xpNext == nextReq(r.level)
    ensures r.hp == r.hpMax && r.mp == r.mpMax && r.stamina == r.staminaMax
    ensures (r.hpMax - c.hpMax, r.mpMax - c.mpMax, r.staminaMax - c.staminaMax) == ClassGains(config, c.cls)
    ensures r.skillPoints == c.skillPoints + 1 && r.statPoints == c.statPoints + 2
    ensures r == c.(xp := r.xp, level := r.level, xpNext := r.xpNext, hp := r.hp, hpMax := r.hpMax,
                    mp := r.mp, mpMax := r.mpMax, stamina := r.stamina, staminaMax := r.staminaMax,
                    skillPoints := r.skillPoints, statPoints := r.statPoints)
  {
    var (hpGain, mpGain, staminaGain) := ClassGains(config, c.cls);
    var level := c.level + 1;
    c.(xp := c.xp - c.xpNext, level := level,
       hpMax := c.hpMax + hpGain, mpMax := c.mpMax + mpGain, staminaMax := c.staminaMax + staminaGain,
       hp := c.hpMax + hpGain, mp := c.mpMax + mpGain, stamina := c.staminaMax + staminaGain,
       skillPoints := c.skillPoints + 1, statPoints := c.statPoints + 2,
       xpNext := nextReq(level))
  }

  /** The character after the level-up loop, and how many times it ran.
      The experience ends below the requirement; every pass adds one
      level, one skill point, two stat points and the class gains to the
      maxima; after any pass the resources are full. Nothing else changes. */
  function Settle(c: Character, config: Config, nextReq: int -> int): (r: (Character, nat))
    requires c.xpNext > 0 && PositiveRequirements(nextReq)
    ensures r.0.xp < r.0.xpNext && r.0.xpNext > 0
    ensures r.0.xp <= c.xp
    ensures r.1 == 0 <==> c.xp < c.xpNext
    ensures r.1 == 0 ==> r.0 == c
    ensures var (hpGain, mpGain, staminaGain) := ClassGains(config, c.cls);
      && r.0.level == c.level + r.1
      && r.0.skillPoints == c.skillPoints + r.1
      && r.0.statPoints == c.statPoints + 2 * r.1
      && r.0.hpMax == c.hpMax + r.1 * hpGain
      && r.0.mpMax == c.mpMax + r.1 * mpGain
      && r.0.staminaMax == c.staminaMax + r.1 * staminaGain
    ensures r.1 > 0 ==>
      && r.0.hp == r.0.hpMax && r.0.mp == r.0.mpMax && r.0.stamina == r.0.staminaMax
      && r.0.xpNext == nextReq(r.0.level)
    ensures r.0 == c.(xp := r.0.xp, level := r.0.level,
                      hpMax := r.0.hpMax, mpMax := r.0.mpMax, staminaMax := r.0.staminaMax,
                      hp := r.0.hp, mp := r.0.mp, stamina := r.0.stamina,
                      skillPoints := r.0.skillPoints, statPoints := r.0.statPoints,
                      xpNext := r.0.xpNext)
    decreases c.xp
  {
    if c.xp < c.xpNext then (c, 0)
    else
      var c1 := LevelUp(c, config, nextReq);
      var next := Settle(c1, config, nextReq);
      var (hpGain, mpGain, staminaGain) := ClassGains(config, c.cls);
      assert c1.cls == c.cls;
      MulStep(next.1, hpGain);
      MulStep(next.1, mpGain);
      MulStep(next.1, staminaGain);
      (next.0, next.1 + 1)
  }

  /** One more pass adds one more gain. */
  lemma MulStep(n: int, g: int)
    ensures (n + 1) * g == n * g + g
  {
  }

  datatype XpReport = XpReport(
    xpGained: int, currentXp: int, xpToNext: int,
    leveledUp: bool, newLevel: Option<int>,
    skillPoints: int, statPoints: int)

  /** `gain_xp(amount)`, with `amount` already scaled by the area's
      floating-point `xp_modifier`: the experience is added and the
      level-up loop runs until it is below the requirement. */
  method GainXp(c: Character, config: Config, amount: int, nextReq: int -> int) returns (report: XpReport, c': Character)
    requires c.xpNext > 0 && PositiveRequirements(nextReq)
    ensures (c', report.leveledUp) == (Settle(c.(xp := c.xp + amount), config, nextReq).0,
                                       Settle(c.(xp := c.xp + amount), config, nextReq).1 > 0)
    ensures c'.xp < c'.xpNext
    ensures report.leveledUp <==> c.xp + amount >= c.xpNext
    ensures report.newLevel == if report.leveledUp then Some(c'.level) else None
    ensures report.xpGained == amount && report.currentXp == c'.xp && report.xpToNext == c'.xpNext
    ensures report.skillPoints == c'.skillPoints && report.statPoints == c'.statPoints
  {
    var start := c.(xp := c.xp + amount);
    c' := start;
    var levelUps: nat := 0;
    while c'.xp >= c'.xpNext
      invariant c'.xpNext > 0
      invariant Settle(c', config, nextReq).0 == Settle(start, config, nextReq).0
      invariant Settle(c', config, nextReq).1 + levelUps == Settle(start, config, nextReq).1
      invariant levelUps > 0 ==> start.xp >= start.xpNext
      invariant levelUps == 0 ==> c' == start
      decreases c'.xp
    {
      c' := LevelUp(c', config, nextReq);
      levelUps := levelUps + 1;
    }
    report := XpReport(amount, c'.xp, c'.xpNext, levelUps > 0,
                       if levelUps > 0 then Some(c'.level) else None,
                       c'.skillPoints, c'.statPoints);
  }
}

=== FILE: progression_proofs.dfy ===
/** Properties of the level-up loop: it settles in one go, more experience
    never means fewer levels, and a worked example. */
module ProgressionProofs {
  import opened Results
  import opened Ascii
  import opened EngineState
  import opened Progression

  /** A settled character has nothing left to settle. */
  lemma SettleIdempotent(c: Character, config: Config, nextReq: int -> int)
    requires c.xpNext > 0 && PositiveRequirements(nextReq)
    ensures var once := Settle(c, config, nextReq).0;
      Settle(once, config, nextReq) == (once, 0)
  {
  }

  /** Of two characters that differ only in experience, the one with more
      gains at least as many levels. */
  lemma {:induction false} MoreXpNoFewerLevels(c: Character, extra: nat, config: Config, nextReq: int -> int)
    requires c.xpNext > 0 && PositiveRequirements(nextReq)
    ensures Settle(c, config, nextReq).1 <= Settle(c.(xp := c.xp + extra), config, nextReq).1
    decreases c.xp
  {
    var d := c.(xp := c.xp + extra);
    if c.xp >= c.xpNext {
      var c1 := LevelUp(c, config, nextReq);
      var d1 := LevelUp(d, config, nextReq);
      assert d1 == c1.(xp := c1.xp + extra);
      MoreXpNoFewerLevels(c1, extra, config, nextReq);
    }
  }

  /** A level-1 character of an unconfigured class with 0 of 100
      experience who gains 250 rises to level 2 with 150 of 200, full
      resources and its points, when each level requires 100 times the
      level. */
  lemma GainXpExample(c: Character, config: Config)
    requires c.level == 1 && c.xp == 0 && c.xpNext == 100
    requires c.cls == "" && "" !in config.classes
    requires c.hpMax == 20 && c.mpMax == 10 && c.staminaMax == 10
    requires c.skillPoints == 0 && c.statPoints == 0
    ensures var r := Settle(c.(xp := 250), config, l => if l > 0 then 100 * l else 100);
      && r.1 == 1
      && r.0.level == 2 && r.0.xp == 150 && r.0.xpNext == 200
      && r.0.hp == 30 && r.0.hpMax == 30 && r.0.mp == 15 && r.0.stamina == 15
      && r.0.skillPoints == 1 && r.0.statPoints == 2
  {
    var nextReq: int -> int := l => if l > 0 then 100 * l else 100;
    assert Lower("") == "";
    var c1 := LevelUp(c.(xp := 250), config, nextReq);
    assert c1.xp == 150 && c1.xpNext == 200;
    assert Settle(c1, config, nextReq) == (c1, 0);
  }
}

=== FILE: resources.dfy ===
/** Resource rules of the engine (`game_engine.py`): `heal`, `modify_gold`,
    `rest` and `cast_spell`. */
module Resources {
  import opened Results
  import opened Ascii
  import opened Assoc
  import opened DiceLib
  import opened EngineState
  import opened StatusEffects

  // ---------------------------------------------------------------------------
  // heal

  datatype HealReport = HealReport(healed: int, current: int, maximum: int)

  /** The amount `heal` adds: text goes through `roll_healing` (an integer
      literal as it is, dice rolled), an integer is taken as it is. */
  function HealAmount(amount: Amount, rng: Rng): (r: Result<int>)
    ensures amount.Flat? ==> r == Ok(amount.n)
    ensures amount.Text? ==> r == RollHealing(amount, 0, rng)
  {
    match amount
    case Flat(n) => Ok(n)
    case Text(_) => RollHealing(amount, 0, rng)
  }

  /** `heal(amount, resource)`: the resource rises by the amount but not
      above its `<resource>_max`; the report gives the real gain. A missing
      resource or maximum raises KeyError, and a zero maximum divides by
      zero in the health percentage. */
  function Heal(s: State, amount: Amount, resource: string, rng: Rng): (r: Result<(HealReport, State)>)
    ensures r.Ok? <==>
      && HealAmount(amount, rng).Ok?
      && IntField(s.character, resource).Some?
      && IntField(s.character, resource + "_max").Some?
      && IntField(s.character, resource + "_max").value != 0
    ensures r.Ok? ==>
      var (report, s') := r.value;
      var old_ := IntField(s.character, resource).value;
      var max := IntField(s.character, resource + "_max").value;
      var amt := HealAmount(amount, rng).value;
      && report.current == Min(old_ + amt, max)
      && report.current <= max
      && (old_ + amt <= max ==> report.current == old_ + amt)
      && report.healed == report.current - old_
      && report.maximum == max
      && IntField(s'.character, resource) == Some(report.current)
      && (forall k :: k != resource ==> IntField(s'.character, k) == IntField(s.character, k))
      && s'.character.cls == s.character.cls && s'.character.inventory == s.character.inventory
      && s'.character.equipment == s.character.equipment
      && s'.effects == s.effects && s'.area == s.area
  {
    var amt :- HealAmount(amount, rng);
    var maxKey := resource + "_max";
    match (IntField(s.character, resource), IntField(s.character, maxKey))
    case (Some(old_), Some(max)) =>
      var healed := Min(old_ + amt, max);
      if max == 0 then Err("ZeroDivisionError: division by zero")
      else Ok((HealReport(healed - old_, healed, max), s.(character := SetIntField(s.character, resource, healed))))
    case (None, _) => Err("KeyError: " + resource)
    case (_, None) => Err("KeyError: " + maxKey)
  }

  // ---------------------------------------------------------------------------
  // modify_gold

  datatype Transaction = Gain | Spend

  datatype GoldReport = GoldReport(change: int, total: int, transaction: Transaction)

  /** `modify_gold`: gold never drops below 0; any positive change is a
      gain, anything else a spend. */
  function ModifyGold(s: State, amount: int): (r: (GoldReport, State))
    ensures r.1.character.gold >= 0
    ensures s.character.gold + amount >= 0 ==> r.1.character.gold == s.character.gold + amount
    ensures s.character.gold + amount < 0 ==> r.1.character.gold == 0
    ensures r.0.transaction == Gain <==> amount > 0
    ensures r.0.total == r.1.character.gold && r.0.change == amount
    ensures r.1 == s.(character := s.character.(gold := r.1.character.gold))
  {
    var gold := Max(0, s.character.gold + amount);
    (GoldReport(amount, gold, if amount > 0 then Gain else Spend), s.(character := s.character.(gold := gold)))
  }

  // ---------------------------------------------------------------------------
  // rest

  datatype RestReport = RestReport(
    hpRecovered: int, mpRecovered: int, staminaRecovered: int,
    hp: int, mp: int, stamina: int, effectsCleared: bool)

  /** The effects a long rest removes. */
  const Debuffs: seq<string> := ["poisoned", "burning", "frozen"]

  /** `rest`. The recovery of each resource (its maximum times a configured
      floating-point rate, truncated) is given; each resource rises by it
      but not above its maximum, and a long rest also removes the three
      debuffs. */
  function Rest(s: State, restType: string, hpRecover: int, mpRecover: int, staminaRecover: int): (r: (RestReport, State))
    ensures var c := s.character; var c' := r.1.character;
      && c'.hp == Min(c.hpMax, c.hp + hpRecover)
      && c'.mp == Min(c.mpMax, c.mp + mpRecover)
      && c'.stamina == Min(c.staminaMax, c.stamina + staminaRecover)
      && c' == c.(hp := c'.hp, mp := c'.mp, stamina := c'.stamina)
    ensures var c := s.character; var c' := r.1.character;
      && r.0.hpRecovered == c'.hp - c.hp
      && r.0.mpRecovered == c'.mp - c.mp
      && r.0.staminaRecovered == c'.stamina - c.stamina
      && r.0.hp == c'.hp && r.0.mp == c'.mp && r.0.stamina == c'.stamina
    ensures r.0.effectsCleared <==> restType == "long"
    ensures restType != "long" ==> r.1.effects == s.effects
    ensures restType == "long" ==> forall k :: k in Keys(r.1.effects) <==> k in Keys(s.effects) && k !in Debuffs
    ensures r.1.area == s.area
  {
    var c := s.character;
    var hp := Min(c.hpMax, c.hp + hpRecover);
    var mp := Min(c.mpMax, c.mp + mpRecover);
    var stamina := Min(c.staminaMax, c.stamina + staminaRecover);
    var effects :=
      if restType == "long" then Remove(Remove(Remove(s.effects, "poisoned"), "burning"), "frozen")
      else s.effects;
    (RestReport(hp - c.hp, mp - c.mp, stamina - c.stamina, hp, mp, stamina, restType == "long"),
     s.(character := c.(hp := hp, mp := mp, stamina := stamina), effects := effects))
  }

  // ---------------------------------------------------------------------------
  // cast_spell

  datatype SpellType = Healing | Damage | Buff

  datatype CastReport = CastReport(
    spellType: SpellType, mpRemaining: int, mpCost: int,
    healed: Option<int>, effectValue: Option<int>, effectApplied: Option<string>)

  datatype CastOutcome =
    | Cast(report: CastReport)
    | UnknownSpell
    | InsufficientMp

  /** A text argument counts only when it is not empty. */
  function TruthyText(t: Option<string>): Option<string> {
    if t.Some? && t.value != "" then t else None
  }

  /** The kind, cost and power of a spell before the mana check: a catalog
      spell is healing, damage or a buff (an `effect` key, or `shield` in its
      id), in that order of precedence, and keeps the damage type with no
      power otherwise; without a spell id the cast is a 10-mana `1d6`
      damage spell. An explicit cost of 0 falls back to the spell's. */
  function SpellPlan(spell: Option<(string, Spell)>, mpCost: int, spellPower: Option<string>): (SpellType, int, Option<Amount>) {
    var given := if TruthyText(spellPower).Some? then Some(Text(spellPower.value)) else None;
    match spell
    case None => (Damage, if mpCost != 0 then mpCost else 10, if given.Some? then given else Some(Text("1d6")))
    case Some((id, sp)) =>
      var cost := if mpCost != 0 then mpCost else sp.mpCost.GetOr(10);
      if sp.healing.Some? then (Healing, cost, if given.Some? then given else sp.healing)
      else if sp.damage.Some? then (Damage, cost, if given.Some? then given else sp.damage)
      else if sp.hasEffect || Contains(Lower(id), "shield") then (Buff, cost, if given.Some? then given else Some(Text("0")))
      else (Damage, cost, if spellPower.Some? then Some(Text(spellPower.value)) else None)
  }

  /** The effect value of a spell's power: dice text is rolled and half the
      intelligence (rounded down) added; the text `0` is 0; an integer is
      taken as it is. No power at all is `int(None)`, a TypeError; a missing
      intelligence is a KeyError. */
  function SpellEffect(c: Character, power: Option<Amount>, rng: Rng): (r: Result<int>)
    ensures power.None? ==> r.Err?
    ensures power == Some(Text("0")) ==> r == Ok(0)
    ensures power.Some? && power.value.Flat? ==> r == Ok(power.value.n)
    ensures r.Ok? && power.Some? && power.value.Text? && power.value.s != "0" ==>
      && RollDice(power.value.s, rng).Ok?
      && IntField(c, "intelligence").Some?
      && r.value == RollDice(power.value.s, rng).value + IntField(c, "intelligence").value / 2
  {
    match power
    case None => Err("TypeError: int() argument must be a string or a number, not 'NoneType'")
    case Some(Flat(n)) => Ok(n)
    case Some(Text(t)) =>
      if t == "0" then Ok(0)
      else
        var rolled :- RollDice(t, rng);
        match IntField(c, "intelligence")
        case Some(i) => Ok(rolled + i / 2)
        case None => Err("KeyError: 'intelligence'")
  }

  /** The spell's effect once the mana is paid: healing raises the hit
      points up to the maximum, a shield or blessing buff applies its status
      effect, a damage spell reports its value for use on an enemy. */
  function SpellOutcome(paid: State, config: Config, kind: SpellType, cost: int, value: int, spellId: string): (r: (CastReport, State))
    ensures r.0.spellType == kind && r.0.mpCost == cost && r.0.mpRemaining == paid.character.mp
    ensures kind == Healing ==>
      && r.1 == paid.(character := paid.character.(hp := Min(paid.character.hpMax, paid.character.hp + value)))
      && r.0.healed == Some(r.1.character.hp - paid.character.hp)
    ensures kind != Healing ==> r.1.character == paid.character && r.0.healed.None?
    ensures kind == Buff ==>
      var shield := spellId != "" && Contains(Lower(spellId), "shield");
      var bless := spellId != "" && Contains(Lower(spellId), "bless");
      && (shield ==>
            r.0.effectApplied == Some("shield_spell") && r.1 == ApplyStatusEffect(paid, config, "shield_spell", None, None).1)
      && (!shield && bless ==>
            r.0.effectApplied == Some("blessed") && r.1 == ApplyStatusEffect(paid, config, "blessed", None, None).1)
      && (!shield && !bless ==> r.0.effectApplied.None? && r.1 == paid)
    ensures kind != Buff ==> r.0.effectApplied.None?
    ensures kind == Damage <==> r.0.effectValue.Some?
    ensures kind == Damage ==> r.0.effectValue == Some(value) && r.1 == paid
  {
    var c := paid.character;
    match kind
    case Healing =>
      var hp := Min(c.hpMax, c.hp + value);
      (CastReport(Healing, c.mp, cost, Some(hp - c.hp), None, None), paid.(character := c.(hp := hp)))
    case Buff =>
      var id := Lower(spellId);
      if spellId != "" && Contains(id, "shield") then
        (CastReport(Buff, c.mp, cost, None, None, Some("shield_spell")), ApplyStatusEffect(paid, config, "shield_spell", None, None).1)
      else if spellId != "" && Contains(id, "bless") then
        (CastReport(Buff, c.mp, cost, None, None, Some("blessed")), ApplyStatusEffect(paid, config, "blessed", None, None).1)
      else (CastReport(Buff, c.mp, cost, None, None, None), paid)
    case Damage =>
      (CastReport(Damage, c.mp, cost, None, Some(value), None), paid)
  }

  /** The catalog entry a spell id names, `None` without an id. */
  function LookupSpell(catalog: Catalog, spellId: string): (r: Option<(string, Spell)>)
    requires spellId == "" || spellId in catalog.spells
    ensures r.None? <==> spellId == ""
    ensures r.Some? ==> r.value.0 == spellId && r.value.1 == catalog.spells[spellId]
  {
    if spellId == "" then None else Some((spellId, catalog.spells[spellId]))
  }

  /** `cast_spell(mp_cost, spell_id, spell_power)`; `mpCost` 0 stands for an
      absent cost and `spellId` "" for an absent id. An unknown spell and a
      lack of mana change nothing; otherwise the mana drops by exactly the
      cost. */
  function CastSpell(s: State, config: Config, catalog: Catalog, mpCost: int, spellId: string, spellPower: Option<string>, rng: Rng): (r: Result<(CastOutcome, State)>)
    ensures spellId != "" && spellId !in catalog.spells ==> r == Ok((UnknownSpell, s))
    ensures ((spellId == "" || spellId in catalog.spells)
             && s.character.mp < SpellPlan(LookupSpell(catalog, spellId), mpCost, spellPower).1)
            ==> r == Ok((InsufficientMp, s))
    ensures ((spellId == "" || spellId in catalog.spells)
             && s.character.mp >= SpellPlan(LookupSpell(catalog, spellId), mpCost, spellPower).1)
            ==> && (r.Err? <==> SpellEffect(s.character, SpellPlan(LookupSpell(catalog, spellId), mpCost, spellPower).2, rng).Err?)
                && (r.Ok? ==> r.value.0.Cast?)
    ensures r.Ok? && !r.value.0.Cast? ==> r.value.1 == s
    ensures r.Ok? && r.value.0 == InsufficientMp ==> s.character.mp < SpellPlan(LookupSpell(catalog, spellId), mpCost, spellPower).1
    ensures r.Ok? && r.value.0.Cast? ==>
      var plan := SpellPlan(LookupSpell(catalog, spellId), mpCost, spellPower);
      var report := r.value.0.report;
      var c' := r.value.1.character;
      && report.mpCost == plan.1 <= s.character.mp
      && c'.mp == s.character.mp - report.mpCost
      && report.spellType == plan.0
      && SpellEffect(s.character, plan.2, rng).Ok?
      && (report.spellType == Healing ==>
            c'.hp == Min(s.character.hpMax, s.character.hp + SpellEffect(s.character, plan.2, rng).value))
      && (report.spellType != Healing ==> c'.hp == s.character.hp)
  {
    var c := s.character;
    if spellId != "" && spellId !in catalog.spells then Ok((UnknownSpell, s))
    else
      var (kind, cost, power) := SpellPlan(LookupSpell(catalog, spellId), mpCost, spellPower);
      if c.mp < cost then Ok((InsufficientMp, s))
      else
        var paid := s.(character := c.(mp := c.mp - cost));
        var value :- SpellEffect(c, power, rng);
        var (report, s') := SpellOutcome(paid, config, kind, cost, value, spellId);
        Ok((Cast(report), s'))
  }
}

=== FILE: resources_proofs.dfy ===
/** Properties of the resource rules: healing and resting never overshoot a
    maximum, gold changes undo each other, a long rest removes exactly the
    debuffs, and spell casting pays and heals as configured. */
module ResourcesProofs {
  import opened Results
  import opened Ascii
  import opened Assoc
  import opened DiceLib
  import opened EngineState
  import opened StatusEffects
  import opened Resources

  /** Healing 5 of 10 hit points by 3 gives 8; by 20 it stops at the
      maximum, having healed 5. */
  lemma HealExample(s: State, rng: Rng)
    requires s.character.hp == 5 && s.character.hpMax == 10
    ensures var r := Heal(s, Flat(3), "hp", rng);
      r.Ok? && r.value.0.current == 8 && r.value.0.healed == 3 && r.value.1.character.hp == 8
    ensures var r := Heal(s, Flat(20), "hp", rng);
      r.Ok? && r.value.0.current == 10 && r.value.0.healed == 5 && r.value.1.character.hp == 10
  {
    assert "hp" + "_max" == "hp_max";
  }

  /** A non-negative heal of a resource within its maximum never lowers it
      and never gains more than the amount. */
  lemma HealGainBounded(s: State, n: int, resource: string, rng: Rng)
    requires n >= 0
    requires Heal(s, Flat(n), resource, rng).Ok?
    requires IntField(s.character, resource).value <= IntField(s.character, resource + "_max").value
    ensures 0 <= Heal(s, Flat(n), resource, rng).value.0.healed <= n
  {
  }

  /** Spending back a gain restores the state, as long as the gain did not
      start from a debt the floor erased. */
  lemma GoldRoundTrip(s: State, amount: int)
    requires s.character.gold >= 0 && s.character.gold + amount >= 0
    ensures ModifyGold(ModifyGold(s, amount).1, -amount).1 == s
  {
  }

  /** Spending more gold than there is leaves exactly 0 and is a spend. */
  lemma OverspendingEmptiesPurse(s: State, amount: int)
    requires amount > s.character.gold >= 0
    ensures var r := ModifyGold(s, -amount);
      r.1.character.gold == 0 && r.0.transaction == Spend && r.0.total == 0
  {
  }

  /** A long rest removes exactly the three debuffs: every other effect
      keeps its entry. A short rest changes no effect. */
  lemma LongRestRemovesExactlyDebuffs(s: State, hpRecover: int, mpRecover: int, staminaRecover: int, k: string)
    ensures var after := Rest(s, "long", hpRecover, mpRecover, staminaRecover).1.effects;
      Get(after, k) == if k in Debuffs then None else Get(s.effects, k)
    ensures Get(Rest(s, "short", hpRecover, mpRecover, staminaRecover).1.effects, k) == Get(s.effects, k)
  {
    var e1 := Remove(s.effects, "poisoned");
    var e2 := Remove(e1, "burning");
    var e3 := Remove(e2, "frozen");
    assert Rest(s, "long", hpRecover, mpRecover, staminaRecover).1.effects == e3;
    if k in Debuffs {
      assert k !in Keys(e3);
    }
  }

  /** Resting with non-negative recovery never lowers a resource that was
      within its maximum, and never lifts it above the maximum. */
  lemma RestNeverLowers(s: State, restType: string, hpRecover: int, mpRecover: int, staminaRecover: int)
    requires hpRecover >= 0 && mpRecover >= 0 && staminaRecover >= 0
    requires s.character.hp <= s.character.hpMax && s.character.mp <= s.character.mpMax
    requires s.character.stamina <= s.character.staminaMax
    ensures var c' := Rest(s, restType, hpRecover, mpRecover, staminaRecover).1.character;
      && s.character.hp <= c'.hp <= s.character.hpMax
      && s.character.mp <= c'.mp <= s.character.mpMax
      && s.character.stamina <= c'.stamina <= s.character.staminaMax
  {
  }

  /** An explicit cost of 0 counts as no cost: the spell's own cost (10
      when it has none) applies, and 10 without a spell. */
  lemma ZeroCostFallsBack(id: string, sp: Spell, spellPower: Option<string>)
    ensures SpellPlan(Some((id, sp)), 0, spellPower).1 == sp.mpCost.GetOr(10)
    ensures SpellPlan(None, 0, spellPower).1 == 10
  {
  }

  /** A catalog spell without healing, damage or effect and without
      `shield` in its id has no power unless one is given, and casting it
      then fails once the mana suffices (`int(None)`). */
  lemma BareSpellFails(s: State, config: Config, catalog: Catalog, id: string, rng: Rng)
    requires id != "" && id in catalog.spells
    requires var sp := catalog.spells[id];
      sp.healing.None? && sp.damage.None? && !sp.hasEffect && !Contains(Lower(id), "shield")
    requires s.character.mp >= catalog.spells[id].mpCost.GetOr(10)
    ensures CastSpell(s, config, catalog, 0, id, None, rng).Err?
  {
    assert SpellPlan(Some((id, catalog.spells[id])), 0, None).2 == None;
  }

  /** A healing spell of power 7 on 10 of 20 hit points heals 7 for its
      cost of 4. */
  lemma HealingSpellExample(s: State, config: Config, rng: Rng)
    requires s.character.hp == 10 && s.character.hpMax == 20 && s.character.mp == 6
    ensures var catalog := Catalog(map[], map["cure" := Spell(Some(4), Some(Flat(7)), None, false)]);
      var r := CastSpell(s, config, catalog, 0, "cure", None, rng);
      && r.Ok? && r.value.0.Cast?
      && r.value.0.report.spellType == Healing
      && r.value.0.report.healed == Some(7)
      && r.value.1.character.hp == 17 && r.value.1.character.mp == 2
  {
  }

  /** Without enough mana a spell changes nothing and says so. */
  lemma InsufficientMpChangesNothing(s: State, config: Config, catalog: Catalog, rng: Rng)
    requires s.character.mp < 10
    ensures CastSpell(s, config, catalog, 0, "", None, rng) == Ok((InsufficientMp, s))
  {
  }

  /** A spell with `shield` in its id is a buff that stores the
      `shield_spell` effect under the default configuration. */
  lemma ShieldSpellApplies(s: State, rng: Rng)
    requires s.character.mp >= 3
    ensures var catalog := Catalog(map[], map["shield" := Spell(Some(3), None, None, false)]);
      var r := CastSpell(s, DefaultConfig(), catalog, 0, "shield", None, rng);
      && r.Ok? && r.value.0.Cast?
      && r.value.0.report.spellType == Buff
      && r.value.0.report.effectApplied == Some("shield_spell")
      && Get(r.value.1.effects, "shield_spell") == Some(EffectData(3, Flat(0)))
  {
    assert Lower("shield") == "shield";
    assert Contains("shield", "shield");
  }

  /** A buff touches only the status effects: the effect it reports is
      stored when the configuration knows it, adding no other key, and
      nothing changes when it reports none or the configuration lacks it. */
  lemma BuffStoresReportedEffect(paid: State, config: Config, cost: int, value: int, spellId: string)
    ensures var r := SpellOutcome(paid, config, Buff, cost, value, spellId);
      && r.1.character == paid.character && r.1.area == paid.area
      && (r.0.effectApplied.None? ==> r.1 == paid)
      && (r.0.effectApplied.Some? && EffectConfigOf(config, r.0.effectApplied.value).IsEmpty() ==> r.1 == paid)
      && (r.0.effectApplied.Some? && !EffectConfigOf(config, r.0.effectApplied.value).IsEmpty() ==>
            && Get(r.1.effects, r.0.effectApplied.value).Some?
            && forall k :: k in Keys(r.1.effects) <==> k in Keys(paid.effects) || k == r.0.effectApplied.value)
  {
  }
}

=== FILE: results.dfy ===
/** Option and Result types shared by every module of the model.
    A Python exception (ValueError, KeyError, TypeError, ...) raised by the
    modelled code becomes `Err` carrying a short description. */
module Results {

  datatype Option<+T> = None | Some(value: T) {
    function GetOr(default: T): T {
      match this
      case Some(v) => v
      case None => default
    }
  }

  datatype Result<+T> = Ok(value: T) | Err(error: string) {
    predicate IsFailure() {
      Err?
    }

    function PropagateFailure<U>(): Result<U>
      requires Err?
    {
      Err(error)
    }

    function Extract(): T
      requires Ok?
    {
      value
    }
  }
}

=== FILE: sanity_check.dfy ===
/** The sanity-check validator (`sanity_check.py`): pure checks over the
    loaded game state, progression history and configuration that collect
    critical issues, warnings and suggestions, and the exit code they imply.
    The files are passed in as already-loaded JSON objects (a missing file
    is the empty object, as `load_json` returns). A Python exception raised
    while checking is an `Err`. */
module SanityCheck {
  import opened Results
  import opened Ascii
  import opened Assoc
  import opened JsonValues

  /** A critical issue; any one of them fails the check. */
  datatype Issue =
    | StateMissing
    | CharacterMissing
    | FieldMissing(field: string)
    | OverMax(resource: string, value: int, maximum: int)
    | DuplicateCheckpoint(level: LevelKey)
    | UnknownClass(cls: string)

  datatype Warning = NoProgression | NoCheckpoint(level: int)

  /** The only suggestion the modelled checks make: add the class. */
  datatype Suggestion = AddClass(cls: string)

  /** A checkpoint level as a Python set element: a missing level and JSON
      `null` are both `None`, and `True`/`False` hash like `1`/`0`. */
  datatype LevelKey = NoLevel | IntLevel(i: int) | StrLevel(s: string)

  const RequiredFields: seq<string> :=
    ["name", "class", "level", "hp", "hp_max", "mp", "mp_max",
     "stamina", "stamina_max", "xp", "xp_next"]

  /** `char.get(key, 0)` used as a number. */
  function NumberOr0(fields: Dict<Json>, key: string): (r: Result<int>)
    ensures Get(fields, key).None? ==> r == Ok(0)
    ensures Get(fields, key).Some? ==> r == AsNumber(Get(fields, key).value)
  {
    match Get(fields, key)
    case None => Ok(0)
    case Some(v) => AsNumber(v)
  }

  /** One issue for each required field the character lacks, in the order
      of `required`. */
  function MissingFields(fields: Dict<Json>, required: seq<string>): (r: seq<Issue>)
    ensures |r| <= |required|
    ensures forall x :: x in r ==> x.FieldMissing?
    ensures forall f :: FieldMissing(f) in r <==> f in required && f !in Keys(fields)
  {
    if |required| == 0 then []
    else
      var rest := MissingFields(fields, required[1..]);
      assert forall f :: f in required <==> f == required[0] || f in required[1..];
      if required[0] in Keys(fields) then rest else [FieldMissing(required[0])] + rest
  }

  /** `if char.get(r, 0) > char.get(r_max, 0)`: an issue when the value
      exceeds its maximum. The message reads both keys directly, so an
      excess with either key missing raises `KeyError`. */
  function OverMaxCheck(fields: Dict<Json>, resource: string, maxKey: string): (r: Result<seq<Issue>>)
    ensures r.Ok? <==>
      && NumberOr0(fields, resource).Ok? && NumberOr0(fields, maxKey).Ok?
      && (NumberOr0(fields, resource).value > NumberOr0(fields, maxKey).value ==>
            resource in Keys(fields) && maxKey in Keys(fields))
    ensures r.Ok? && NumberOr0(fields, resource).value > NumberOr0(fields, maxKey).value ==>
      r.value == [OverMax(resource, NumberOr0(fields, resource).value, NumberOr0(fields, maxKey).value)]
    ensures r.Ok? && NumberOr0(fields, resource).value <= NumberOr0(fields, maxKey).value ==> r.value == []
  {
    var v :- NumberOr0(fields, resource);
    var m :- NumberOr0(fields, maxKey);
    if v <= m then Ok([])
    else if resource !in Keys(fields) || maxKey !in Keys(fields) then Err("KeyError")
    else Ok([OverMax(resource, v, m)])
  }

  /** The resource exceeds its maximum, both read as numbers. */
  predicate Exceeds(fields: Dict<Json>, resource: string, maxKey: string) {
    && NumberOr0(fields, resource).Ok? && NumberOr0(fields, maxKey).Ok?
    && NumberOr0(fields, resource).value > NumberOr0(fields, maxKey).value
  }

  /** The issue `Exceeds` gives rise to. */
  function OverMaxOf(fields: Dict<Json>, resource: string, maxKey: string): Issue
    requires Exceeds(fields, resource, maxKey)
  {
    OverMax(resource, NumberOr0(fields, resource).value, NumberOr0(fields, maxKey).value)
  }

  /** The checks on a character object: each missing required field, then
      each of hp, mp and stamina above its maximum. */
  function CharacterIssues(fields: Dict<Json>): (r: Result<seq<Issue>>)
    ensures r.Ok? <==>
      && OverMaxCheck(fields, "hp", "hp_max").Ok?
      && OverMaxCheck(fields, "mp", "mp_max").Ok?
      && OverMaxCheck(fields, "stamina", "stamina_max").Ok?
    ensures r.Ok? ==> forall f :: FieldMissing(f) in r.value <==> f in RequiredFields && f !in Keys(fields)
    ensures r.Ok? ==> forall x :: x in r.value ==>
      || x.FieldMissing?
      || (Exceeds(fields, "hp", "hp_max") && x == OverMaxOf(fields, "hp", "hp_max"))
      || (Exceeds(fields, "mp", "mp_max") && x == OverMaxOf(fields, "mp", "mp_max"))
      || (Exceeds(fields, "stamina", "stamina_max") && x == OverMaxOf(fields, "stamina", "stamina_max"))
    ensures r.Ok? && Exceeds(fields, "hp", "hp_max") ==> OverMaxOf(fields, "hp", "hp_max") in r.value
    ensures r.Ok? && Exceeds(fields, "mp", "mp_max") ==> OverMaxOf(fields, "mp", "mp_max") in r.value
    ensures r.Ok? && Exceeds(fields, "stamina", "stamina_max") ==> OverMaxOf(fields, "stamina", "stamina_max") in r.value
  {
    var hp :- OverMaxCheck(fields, "hp", "hp_max");
    var mp :- OverMaxCheck(fields, "mp", "mp_max");
    var st :- OverMaxCheck(fields, "stamina", "stamina_max");
    Ok(MissingFields(fields, RequiredFields) + hp + mp + st)
  }

  /** `check_game_state`: the issues found and the state handed on to the
      later checks (the empty object after an early return). A character
      that is not an object makes the checks raise. */
  function CheckGameState(state: Dict<Json>): (r: Result<(seq<Issue>, Dict<Json>)>)
    ensures |state| == 0 ==> r == Ok(([StateMissing], []))
    ensures |state| > 0 && "character" !in Keys(state) ==> r == Ok(([CharacterMissing], []))
    ensures "character" in Keys(state) ==>
      var ch := Get(state, "character").value;
      && (r.Ok? <==> ch.JObj? && CharacterIssues(ch.fields).Ok?)
      && (r.Ok? ==> r.value == (CharacterIssues(ch.fields).value, state))
  {
    if |state| == 0 then Ok(([StateMissing], []))
    else match Get(state, "character")
      case None => Ok(([CharacterMissing], []))
      case Some(ch) =>
        if !ch.JObj? then Err("TypeError")
        else
          var issues :- CharacterIssues(ch.fields);
          Ok((issues, state))
  }

  /** A checkpoint's `level` as a set element; a list or object level is
      unhashable. */
  function KeyOf(level: Option<Json>): (r: Result<LevelKey>)
    ensures r.Err? <==> level.Some? && (level.value.JArr? || level.value.JObj?)
  {
    match level
    case None => Ok(NoLevel)
    case Some(JNull) => Ok(NoLevel)
    case Some(JBool(b)) => Ok(IntLevel(if b then 1 else 0))
    case Some(JInt(i)) => Ok(IntLevel(i))
    case Some(JStr(s)) => Ok(StrLevel(s))
    case Some(_) => Err("TypeError")
  }

  /** The duplicate scan over the checkpoints, given the levels `seen` so
      far: the levels reported as duplicates and the levels seen at the end.
      Every checkpoint is either new or a duplicate. */
  function ScanCheckpoints(checkpoints: seq<Json>, seen: set<LevelKey>): (r: Result<(seq<LevelKey>, set<LevelKey>)>)
    ensures r.Ok? ==> |r.value.0| + |r.value.1| == |checkpoints| + |seen|
    ensures r.Ok? ==> seen <= r.value.1
    ensures r.Ok? ==> forall k :: k in r.value.0 ==> k in r.value.1
    ensures r.Ok? ==> forall k :: k in r.value.1 && k !in seen ==>
      exists i :: 0 <= i < |checkpoints| && checkpoints[i].JObj? && KeyOf(Get(checkpoints[i].fields, "level")) == Ok(k)
    ensures r.Ok? <==> forall i :: 0 <= i < |checkpoints| ==>
      checkpoints[i].JObj? && KeyOf(Get(checkpoints[i].fields, "level")).Ok?
  {
    if |checkpoints| == 0 then Ok(([], seen))
    else
      var cp := checkpoints[0];
      assert forall i :: 1 <= i < |checkpoints| ==> checkpoints[i] == checkpoints[1..][i - 1];
      if !cp.JObj? then Err("AttributeError")
      else match KeyOf(Get(cp.fields, "level"))
        case Err(e) => Err(e)
        case Ok(k) =>
          match ScanCheckpoints(checkpoints[1..], seen + {k})
          case Err(e) => Err(e)
          case Ok(rest) =>
            if k in seen then
              assert seen + {k} == seen;
              Ok(([k] + rest.0, rest.1))
            else Ok((rest.0, rest.1))
  }

  /** One duplicate issue per repeated level, in order. */
  function DuplicateIssues(levels: seq<LevelKey>): (r: seq<Issue>)
    ensures |r| == |levels|
    ensures forall i :: 0 <= i < |levels| ==> r[i] == DuplicateCheckpoint(levels[i])
  {
    if |levels| == 0 then [] else [DuplicateCheckpoint(levels[0])] + DuplicateIssues(levels[1..])
  }

  /** The values a Python `for` loop visits in a JSON value: a list's
      items, an object's keys and a string's one-character strings. Any
      other value is not iterable. */
  function Iterated(v: Json): (r: Result<seq<Json>>)
    ensures r.Ok? <==> v.JArr? || v.JObj? || v.JStr?
    ensures v.JArr? ==> r == Ok(v.items)
    ensures v.JObj? ==>
      && r.Ok? && |r.value| == |v.fields|
      && forall i :: 0 <= i < |v.fields| ==> r.value[i] == JStr(v.fields[i].0)
    ensures v.JStr? ==>
      && r.Ok? && |r.value| == |v.s|
      && forall i :: 0 <= i < |v.s| ==> r.value[i] == JStr([v.s[i]])
  {
    match v
    case JArr(items) => Ok(items)
    case JObj(fields) => Ok(seq(|fields|, i requires 0 <= i < |fields| => JStr(fields[i].0)))
    case JStr(s) => Ok(seq(|s|, i requires 0 <= i < |s| => JStr([s[i]])))
    case _ => Err("TypeError")
  }

  /** Python's `x in container` for a string `x`: a key of an object, an
      element of a list, a substring of a string. Any other container
      raises. */
  function Member(x: string, container: Json): (r: Result<bool>)
    ensures r.Ok? <==> container.JObj? || container.JArr? || container.JStr?
    ensures container.JObj? ==> r == Ok(x in Keys(container.fields))
    ensures container.JArr? ==> r == Ok(JStr(x) in container.items)
    ensures container.JStr? ==> r == Ok(Contains(container.s, x))
  {
    match container
    case JObj(fields) => Ok(x in Keys(fields))
    case JArr(items) => Ok(JStr(x) in items)
    case JStr(s) => Ok(Contains(s, x))
    case _ => Err("TypeError")
  }

  /** `state and "character" in state`. */
  predicate HasCharacter(state: Dict<Json>) {
    |state| > 0 && "character" in Keys(state)
  }

  /** The duplicate scan over whatever `progression.get("checkpoints", [])`
      holds. */
  function CheckpointScan(progression: Dict<Json>): Result<(seq<LevelKey>, set<LevelKey>)> {
    var items :- Iterated(Get(progression, "checkpoints").GetOr(JArr([])));
    ScanCheckpoints(items, {})
  }

  /** `state["character"].get("level", 1)` as a number; a character that
      is not an object has no `get`. */
  function CharacterLevel(state: Dict<Json>): (r: Result<int>)
    requires HasCharacter(state)
    ensures r.Ok? ==> Get(state, "character").value.JObj?
    ensures Get(state, "character").value.JObj? && Get(Get(state, "character").value.fields, "level").None? ==> r == Ok(1)
  {
    var ch := Get(state, "character").value;
    if !ch.JObj? then Err("AttributeError")
    else match Get(ch.fields, "level")
      case None => Ok(1)
      case Some(v) => AsNumber(v)
  }

  /** `check_progression_consistency`: one issue per checkpoint whose level
      an earlier checkpoint already had, and a warning (not an issue) when
      the current level is above 1 and no checkpoint has it. An empty
      history only warns. */
  function CheckProgression(state: Dict<Json>, progression: Dict<Json>): (r: Result<(seq<Issue>, seq<Warning>)>)
    ensures |progression| == 0 ==> r == Ok(([], [NoProgression]))
    ensures |progression| > 0 ==>
      (r.Ok? <==> CheckpointScan(progression).Ok? && (HasCharacter(state) ==> CharacterLevel(state).Ok?))
    ensures |progression| > 0 && r.Ok? ==>
      && r.value.0 == DuplicateIssues(CheckpointScan(progression).value.0)
      && |r.value.1| <= 1
      && forall l :: NoCheckpoint(l) in r.value.1 <==>
           HasCharacter(state) && CharacterLevel(state) == Ok(l) && l > 1
           && IntLevel(l) !in CheckpointScan(progression).value.1
    ensures r.Ok? ==> forall w :: w in r.value.1 ==> w.NoCheckpoint? || |progression| == 0
  {
    if |progression| == 0 then Ok(([], [NoProgression]))
    else
      var scan :- CheckpointScan(progression);
      var issues := DuplicateIssues(scan.0);
      if HasCharacter(state) then
        var level :- CharacterLevel(state);
        if level > 1 && IntLevel(level) !in scan.1 then Ok((issues, [NoCheckpoint(level)]))
        else Ok((issues, []))
      else Ok((issues, []))
  }

  /** `state["character"].get("class", "").lower()` when there is a
      character, and the empty class otherwise. A character that is not an
      object, or a class that is not a string, raises. */
  function ClassName(state: Dict<Json>): (r: Result<string>)
    ensures !HasCharacter(state) ==> r == Ok("")
    ensures r.Ok? && HasCharacter(state) ==>
      var ch := Get(state, "character").value;
      && ch.JObj?
      && Get(ch.fields, "class").GetOr(JStr("")).JStr?
      && r.value == Lower(Get(ch.fields, "class").GetOr(JStr("")).s)
  {
    if !HasCharacter(state) then Ok("")
    else
      var ch := Get(state, "character").value;
      if !ch.JObj? then Err("AttributeError")
      else
        var cls := Get(ch.fields, "class").GetOr(JStr(""));
        if !cls.JStr? then Err("AttributeError") else Ok(Lower(cls.s))
  }

  /** `config.get("class_progression", {})`. */
  function ClassTable(config: Dict<Json>): Json {
    Get(config, "class_progression").GetOr(JObj([]))
  }

  /** `check_class_support`: the lower-cased class of the character, when
      non-empty and not in the configuration's `class_progression`, gives
      one issue and one suggestion naming it. The empty class is never
      looked up. */
  function CheckClassSupport(state: Dict<Json>, config: Dict<Json>): (r: Result<(seq<Issue>, seq<Suggestion>)>)
    ensures r.Ok? <==>
      && ClassName(state).Ok?
      && (ClassName(state).value != "" ==> Member(ClassName(state).value, ClassTable(config)).Ok?)
    ensures r.Ok? ==> |r.value.0| == |r.value.1| <= 1
    ensures r.Ok? ==>
      var c := ClassName(state).value;
      (|r.value.0| == 1 <==> c != "" && !Member(c, ClassTable(config)).value)
    ensures r.Ok? && |r.value.0| == 1 ==>
      var c := ClassName(state).value;
      r.value == ([UnknownClass(c)], [AddClass(c)])
    ensures !HasCharacter(state) ==> r == Ok(([], []))
  {
    var c :- ClassName(state);
    if c == "" then Ok(([], []))
    else
      var known :- Member(c, ClassTable(config));
      if !known then Ok(([UnknownClass(c)], [AddClass(c)])) else Ok(([], []))
  }

  datatype Report = Report(issues: seq<Issue>, warnings: seq<Warning>, suggestions: seq<Suggestion>)

  /** The modelled part of `run_check`: the three checks in order, each
      given the state the first one handed on. */
  function RunChecks(state: Dict<Json>, progression: Dict<Json>, config: Dict<Json>): (r: Result<Report>)
    ensures r.Ok? <==>
      && CheckGameState(state).Ok?
      && CheckProgression(CheckGameState(state).value.1, progression).Ok?
      && CheckClassSupport(CheckGameState(state).value.1, config).Ok?
    ensures r.Ok? ==>
      var g := CheckGameState(state).value;
      var p := CheckProgression(g.1, progression).value;
      var c := CheckClassSupport(g.1, config).value;
      && r.value.issues == g.0 + p.0 + c.0
      && r.value.warnings == p.1
      && r.value.suggestions == c.1
  {
    var g :- CheckGameState(state);
    var p :- CheckProgression(g.1, progression);
    var c :- CheckClassSupport(g.1, config);
    Ok(Report(g.0 + p.0 + c.0, p.1, c.1))
  }

  /** `return 1 if self.issues else 0`: warnings and suggestions never fail
      the check. */
  function ExitCode(report: Report): (code: int)
    ensures code == 1 <==> |report.issues| > 0
    ensures code == 0 <==> report.issues == []
  {
    if |report.issues| > 0 then 1 else 0
  }
}

=== FILE: sanity_check_proofs.dfy ===
/** Properties of the sanity check: each missing field is reported exactly
    once, duplicates are counted exactly, a missing checkpoint only warns,
    and worked examples of the error paths. */
module SanityCheckProofs {
  import opened Results
  import opened Ascii
  import opened Assoc
  import opened JsonValues
  import opened SanityCheck
  import Seqs

  predicate Distinct<T(==)>(s: seq<T>) {
    forall i, j :: 0 <= i < j < |s| ==> s[i] != s[j]
  }

  /** Over distinct field names, each missing field is reported exactly
      once and a present one never. */
  lemma {:induction false} MissingFieldsOnce(fields: Dict<Json>, required: seq<string>, f: string)
    requires Distinct(required)
    ensures multiset(MissingFields(fields, required))[FieldMissing(f)] ==
      if f in required && f !in Keys(fields) then 1 else 0
  {
    if |required| > 0 {
      var rest := MissingFields(fields, required[1..]);
      assert Distinct(required[1..]) by {
        forall i, j | 0 <= i < j < |required[1..]|
          ensures required[1..][i] != required[1..][j]
        {
          assert required[1..][i] == required[i + 1] && required[1..][j] == required[j + 1];
        }
      }
      MissingFieldsOnce(fields, required[1..], f);
      if f == required[0] {
        assert f !in required[1..] by {
          forall i | 0 <= i < |required[1..]| ensures required[1..][i] != f {
            assert required[1..][i] == required[i + 1];
          }
        }
      }
      assert f in required <==> f == required[0] || f in required[1..];
    }
  }

  lemma RequiredDistinct()
    ensures Distinct(RequiredFields)
  {
  }

  /** A character object without some required field gets exactly one
      issue for it, whatever else is wrong. */
  lemma MissingFieldReportedOnce(fields: Dict<Json>, f: string)
    requires CharacterIssues(fields).Ok?
    ensures multiset(CharacterIssues(fields).value)[FieldMissing(f)] ==
      if f in RequiredFields && f !in Keys(fields) then 1 else 0
  {
    RequiredDistinct();
    MissingFieldsOnce(fields, RequiredFields, f);
    var hp := OverMaxCheck(fields, "hp", "hp_max").value;
    var mp := OverMaxCheck(fields, "mp", "mp_max").value;
    var st := OverMaxCheck(fields, "stamina", "stamina_max").value;
    assert CharacterIssues(fields).value == MissingFields(fields, RequiredFields) + hp + mp + st;
    assert FieldMissing(f) !in hp && FieldMissing(f) !in mp && FieldMissing(f) !in st;
  }

  /** Checkpoints with pairwise different levels, none seen before, give no
      duplicate. */
  lemma {:induction false} DistinctLevelsNoDuplicates(checkpoints: seq<Json>, keys: seq<LevelKey>, seen: set<LevelKey>)
    requires |keys| == |checkpoints|
    requires forall i :: 0 <= i < |checkpoints| ==>
      checkpoints[i].JObj? && KeyOf(Get(checkpoints[i].fields, "level")) == Ok(keys[i])
    requires Distinct(keys)
    requires forall i :: 0 <= i < |keys| ==> keys[i] !in seen
    ensures ScanCheckpoints(checkpoints, seen).Ok?
    ensures ScanCheckpoints(checkpoints, seen).value.0 == []
  {
    if |checkpoints| > 0 {
      var k := keys[0];
      assert forall i :: 1 <= i < |checkpoints| ==> checkpoints[1..][i - 1] == checkpoints[i] && keys[1..][i - 1] == keys[i];
      DistinctLevelsNoDuplicates(checkpoints[1..], keys[1..], seen + {k});
    }
  }

  /** A checkpoint as JSON. */
  function Checkpoint(level: int): Json {
    JObj([("level", JInt(level))])
  }

  /** One step of the scan over a numbered checkpoint. */
  lemma ScanStep(level: int, rest: seq<Json>, seen: set<LevelKey>)
    ensures ScanCheckpoints([Checkpoint(level)] + rest, seen) ==
      match ScanCheckpoints(rest, seen + {IntLevel(level)})
      case Err(e) => Err(e)
      case Ok(r) => Ok((if IntLevel(level) in seen then [IntLevel(level)] + r.0 else r.0, r.1))
  {
    assert ([Checkpoint(level)] + rest)[1..] == rest;
    assert Get(Checkpoint(level).fields, "level") == Some(JInt(level));
  }

  /** The last checkpoint of the example repeats level 2. */
  lemma DuplicateExampleLast()
    ensures ScanCheckpoints([Checkpoint(2)], {IntLevel(2), IntLevel(3)})
      == Ok(([IntLevel(2)], {IntLevel(2), IntLevel(3)}))
  {
    var both := {IntLevel(2), IntLevel(3)};
    assert both + {IntLevel(2)} == both;
    ScanStep(2, [], both);
    assert [Checkpoint(2)] + [] == [Checkpoint(2)];
    assert ScanCheckpoints([], both) == Ok(([], both));
    assert [IntLevel(2)] + [] == [IntLevel(2)];
  }

  /** The last two checkpoints of the example, after level 2. */
  lemma DuplicateExampleTail()
    ensures ScanCheckpoints([Checkpoint(3), Checkpoint(2)], {IntLevel(2)})
      == Ok(([IntLevel(2)], {IntLevel(2), IntLevel(3)}))
  {
    DuplicateExampleLast();
    assert {IntLevel(2)} + {IntLevel(3)} == {IntLevel(2), IntLevel(3)};
    ScanStep(3, [Checkpoint(2)], {IntLevel(2)});
    Seqs.ConsOntoOne(Checkpoint(3), Checkpoint(2));
  }

  /** Levels 2, 3 and 2 give one duplicate issue, for level 2. */
  lemma DuplicateExample()
    ensures ScanCheckpoints([Checkpoint(2), Checkpoint(3), Checkpoint(2)], {})
      == Ok(([IntLevel(2)], {IntLevel(2), IntLevel(3)}))
  {
    DuplicateExampleTail();
    assert {} + {IntLevel(2)} == {IntLevel(2)};
    ScanStep(2, [Checkpoint(3), Checkpoint(2)], {});
    Seqs.ConsOntoPair(Checkpoint(2), Checkpoint(3), Checkpoint(2));
  }

  /** `True` and `1` are the same set element, so they are duplicates. */
  lemma TrueRepeatsOne()
    ensures ScanCheckpoints([Checkpoint(1), JObj([("level", JBool(true))])], {}) == Ok(([IntLevel(1)], {IntLevel(1)}))
  {
    var t := JObj([("level", JBool(true))]);
    assert Get(t.fields, "level") == Some(JBool(true));
    assert KeyOf(Some(JBool(true))) == Ok(IntLevel(1));
    assert [t][1..] == [];
    assert {IntLevel(1)} + {IntLevel(1)} == {IntLevel(1)};
    assert ScanCheckpoints([], {IntLevel(1)}) == Ok(([], {IntLevel(1)}));
    assert [IntLevel(1)] + [] == [IntLevel(1)];
    assert ScanCheckpoints([t][1..], {IntLevel(1)} + {IntLevel(1)}) == Ok(([], {IntLevel(1)}));
    assert ScanCheckpoints([t], {IntLevel(1)}) == Ok(([IntLevel(1)], {IntLevel(1)}));
    ScanStep(1, [t], {});
    assert {} + {IntLevel(1)} == {IntLevel(1)};
  }

  /** A level-3 character whose history only records level 2 gets a
      warning but no issue. */
  lemma MissingCheckpointOnlyWarns()
    ensures var state := [("character", JObj([("level", JInt(3))]))];
      var progression := [("checkpoints", JArr([Checkpoint(2)]))];
      CheckProgression(state, progression) == Ok(([], [NoCheckpoint(3)]))
  {
    var state := [("character", JObj([("level", JInt(3))]))];
    var progression := [("checkpoints", JArr([Checkpoint(2)]))];
    ScanStep(2, [], {});
    assert [Checkpoint(2)] + [] == [Checkpoint(2)];
    assert Get(progression, "checkpoints") == Some(JArr([Checkpoint(2)]));
    assert Get(state, "character") == Some(JObj([("level", JInt(3))]));
    assert CharacterLevel(state) == Ok(3);
  }

  /** Whatever holds the checkpoints is iterated as Python would: an empty
      list, object or string visits nothing and finds no duplicate, while a
      non-empty object or string visits strings, which have no `get`, and
      raises. A number, boolean or `null` is not iterable. */
  lemma CheckpointContainers(progression: Dict<Json>, v: Json)
    requires Get(progression, "checkpoints") == Some(v)
    ensures v == JArr([]) || v == JObj([]) || v == JStr("") ==> CheckpointScan(progression) == Ok(([], {}))
    ensures (v.JObj? && |v.fields| > 0) || (v.JStr? && |v.s| > 0) ==> CheckpointScan(progression).Err?
    ensures v.JNull? || v.JBool? || v.JInt? ==> CheckpointScan(progression).Err?
  {
    if (v.JObj? && |v.fields| > 0) || (v.JStr? && |v.s| > 0) {
      var items := Iterated(v).value;
      assert !items[0].JObj?;
    }
  }

  /** Scanning one more checkpoint extends the scan: its level is a new
      duplicate exactly when some checkpoint before it had the level. */
  lemma {:induction false} ScanSnoc(checkpoints: seq<Json>, x: Json, k: LevelKey, seen: set<LevelKey>)
    requires ScanCheckpoints(checkpoints, seen).Ok?
    requires x.JObj? && KeyOf(Get(x.fields, "level")) == Ok(k)
    ensures var s := ScanCheckpoints(checkpoints, seen).value;
      ScanCheckpoints(checkpoints + [x], seen) == Ok((s.0 + (if k in s.1 then [k] else []), s.1 + {k}))
    decreases |checkpoints|
  {
    var all := checkpoints + [x];
    if |checkpoints| == 0 {
      assert all == [x];
      assert all[1..] == [];
      assert ScanCheckpoints([], seen + {k}) == Ok(([], seen + {k}));
      assert ScanCheckpoints(checkpoints, seen) == Ok(([], seen));
      if k in seen {
        assert seen + {k} == seen;
        assert ScanCheckpoints(all, seen) == Ok(([k] + [], seen));
        assert [k] + [] == [] + [k];
      } else {
        assert ScanCheckpoints(all, seen) == Ok(([], seen + {k}));
        var none: seq<LevelKey> := [];
        assert none + none == none;
      }
    } else {
      var k0 := KeyOf(Get(checkpoints[0].fields, "level")).value;
      assert all[0] == checkpoints[0];
      assert all[1..] == checkpoints[1..] + [x];
      ScanSnoc(checkpoints[1..], x, k, seen + {k0});
      var rest := ScanCheckpoints(checkpoints[1..], seen + {k0}).value;
      var tail := if k in rest.1 then [k] else [];
      if k0 in seen {
        Seqs.AppendAssoc([k0], rest.0, tail);
      }
    }
  }

  /** Recording a checkpoint for the level a warning names silences the
      warning and changes no issue. */
  lemma CheckpointSilencesWarning(state: Dict<Json>, progression: Dict<Json>, items: seq<Json>, level: int)
    requires Get(progression, "checkpoints") == Some(JArr(items))
    requires CheckProgression(state, progression).Ok?
    requires NoCheckpoint(level) in CheckProgression(state, progression).value.1
    ensures var fixed := Put(progression, "checkpoints", JArr(items + [Checkpoint(level)]));
      CheckProgression(state, fixed) == Ok((CheckProgression(state, progression).value.0, []))
  {
    var fixed := Put(progression, "checkpoints", JArr(items + [Checkpoint(level)]));
    assert |progression| > 0;
    var scan := CheckpointScan(progression).value;
    assert Get(Checkpoint(level).fields, "level") == Some(JInt(level));
    ScanSnoc(items, Checkpoint(level), IntLevel(level), {});
    assert scan.0 + [] == scan.0;
    assert CheckpointScan(fixed) == Ok((scan.0, scan.1 + {IntLevel(level)}));
    assert "checkpoints" in Keys(fixed);
  }

  /** Following the suggestion fixes the issue: once the class is a key of
      an object `class_progression`, the class check finds nothing. */
  lemma SuggestedClassResolves(state: Dict<Json>, config: Dict<Json>, c: string, gains: Json)
    requires CheckClassSupport(state, config) == Ok(([UnknownClass(c)], [AddClass(c)]))
    requires ClassTable(config).JObj?
    ensures var table := Put(ClassTable(config).fields, c, gains);
      CheckClassSupport(state, Put(config, "class_progression", JObj(table))) == Ok(([], []))
  {
    var table := Put(ClassTable(config).fields, c, gains);
    var fixed := Put(config, "class_progression", JObj(table));
    assert ClassTable(fixed) == JObj(table);
    assert Member(c, JObj(table)) == Ok(true);
  }

  /** The class check's outcome once the class name and the membership
      test are known. */
  lemma ClassOutcome(state: Dict<Json>, config: Dict<Json>, c: string, known: bool)
    requires ClassName(state) == Ok(c) && c != ""
    requires Member(c, ClassTable(config)) == Ok(known)
    ensures CheckClassSupport(state, config) ==
      if known then Ok(([], [])) else Ok(([UnknownClass(c)], [AddClass(c)]))
  {
  }

  /** A character of class "Mage". */
  function MageState(): Dict<Json> {
    [("character", JObj([("class", JStr("Mage"))]))]
  }

  lemma MageClassName()
    ensures ClassName(MageState()) == Ok("mage")
  {
    var ch := JObj([("class", JStr("Mage"))]);
    assert Get(MageState(), "character") == Some(ch);
    assert Get(ch.fields, "class") == Some(JStr("Mage"));
    assert Lower("Mage") == "mage";
  }

  /** A list `class_progression` is searched for the class. */
  lemma ClassInList()
    ensures CheckClassSupport(MageState(), [("class_progression", JArr([JStr("mage")]))]) == Ok(([], []))
    ensures CheckClassSupport(MageState(), [("class_progression", JArr([JStr("rogue")]))])
      == Ok(([UnknownClass("mage")], [AddClass("mage")]))
  {
    MageClassName();
    var listed: Dict<Json> := [("class_progression", JArr([JStr("mage")]))];
    assert ClassTable(listed) == JArr([JStr("mage")]);
    ClassOutcome(MageState(), listed, "mage", true);
    var other: Dict<Json> := [("class_progression", JArr([JStr("rogue")]))];
    assert ClassTable(other) == JArr([JStr("rogue")]);
    assert JStr("mage") !in [JStr("rogue")];
    ClassOutcome(MageState(), other, "mage", false);
  }

  lemma ArchmageContainsMage()
    ensures Contains("archmage", "mage")
  {
    assert "mage"[..4] == "mage" && Contains("mage", "mage");
    assert "hmage"[1..] == "mage" && Contains("hmage", "mage");
    assert "chmage"[1..] == "hmage" && Contains("chmage", "mage");
    assert "rchmage"[1..] == "chmage" && Contains("rchmage", "mage");
    assert "archmage"[1..] == "rchmage";
  }

  /** A string `class_progression` is searched for the class as a
      substring. */
  lemma ClassInString()
    ensures CheckClassSupport(MageState(), [("class_progression", JStr("archmage"))]) == Ok(([], []))
  {
    MageClassName();
    var text: Dict<Json> := [("class_progression", JStr("archmage"))];
    assert ClassTable(text) == JStr("archmage");
    ArchmageContainsMage();
    ClassOutcome(MageState(), text, "mage", true);
  }

  /** A number cannot be searched: the class check raises. */
  lemma ClassTableNumberRaises()
    ensures CheckClassSupport(MageState(), [("class_progression", JInt(3))]).Err?
  {
    MageClassName();
    var number: Dict<Json> := [("class_progression", JInt(3))];
    assert ClassTable(number) == JInt(3);
  }

  /** An empty state, or one without a character, is one issue and the
      later checks see the empty object. */
  lemma EarlyReturns(other: Json)
    ensures CheckGameState([]) == Ok(([StateMissing], []))
    ensures CheckGameState([("player", other)]) == Ok(([CharacterMissing], []))
    ensures CheckProgression([], [("checkpoints", JArr([]))]) == Ok(([], []))
  {
    assert Keys([("player", other)]) == ["player"];
    assert Get([("checkpoints", JArr([]))], "checkpoints") == Some(JArr([]));
  }

  /** An hp above a missing maximum makes the message itself raise; an hp
      of 0 without a maximum is fine. */
  lemma HpWithoutMaxRaises()
    ensures CheckGameState([("character", JObj([("hp", JInt(5))]))]).Err?
    ensures CharacterIssues([("hp", JInt(0))]).Ok?
  {
    var fields := [("hp", JInt(5))];
    assert Keys(fields) == ["hp"];
    assert NumberOr0(fields, "hp") == Ok(5);
    assert NumberOr0(fields, "hp_max") == Ok(0);
    assert OverMaxCheck(fields, "hp", "hp_max").Err?;
  }

  /** A class missing from the configuration is reported lower-cased, with
      the matching suggestion. */
  lemma ClassExamples()
    ensures CheckClassSupport([("character", JObj([("class", JStr("Paladin"))]))], [])
      == Ok(([UnknownClass("paladin")], [AddClass("paladin")]))
  {
    var state := [("character", JObj([("class", JStr("Paladin"))]))];
    PaladinClassName();
    assert ClassTable([]) == JObj([]);
    ClassOutcome(state, [], "paladin", false);
  }

  lemma PaladinClassName()
    ensures ClassName([("character", JObj([("class", JStr("Paladin"))]))]) == Ok("paladin")
  {
    var ch := JObj([("class", JStr("Paladin"))]);
    var state := [("character", ch)];
    assert Get(state, "character") == Some(ch);
    assert Get(ch.fields, "class") == Some(JStr("Paladin"));
    LowerPaladin();
  }

  lemma LowerPaladin()
    ensures Lower("Paladin") == "paladin"
  {
    assert forall i :: 0 <= i < 7 ==> Lower("Paladin")[i] == "paladin"[i];
  }

  /** A character without a class is not checked. */
  lemma NoClassNotChecked()
    ensures CheckClassSupport([("character", JObj([]))], []) == Ok(([], []))
  {
    var bare := [("character", JObj([]))];
    assert Get(bare, "character") == Some(JObj([]));
    assert ClassName(bare) == Ok("");
  }

  /** The exit code fails exactly on issues: warnings and suggestions alone
      pass. */
  lemma WarningsDoNotFail(warnings: seq<Warning>, suggestions: seq<Suggestion>)
    ensures ExitCode(Report([], warnings, suggestions)) == 0
    ensures ExitCode(Report([StateMissing], warnings, suggestions)) == 1
  {
  }
}

=== FILE: seqs.dfy ===
/** Facts about splitting sequences, proved once, element by element, so
    that the proofs using them need not rediscover them. */
module Seqs {
  /** Splitting a sequence around its element `i`. */
  lemma SplitAt<T>(s: seq<T>, i: nat)
    requires i < |s|
    ensures s[i..] == [s[i]] + s[i + 1..]
    ensures s[..i + 1] == s[..i] + [s[i]]
  {
    var t := [s[i]] + s[i + 1..];
    forall j | 0 <= j < |t| ensures s[i..][j] == t[j] {
    }
    var u := s[..i] + [s[i]];
    forall j | 0 <= j < |u| ensures s[..i + 1][j] == u[j] {
    }
  }

  /** Appending the head of a non-empty sequence, then its tail, appends
      the whole sequence. */
  lemma ConsTail<T>(s: seq<T>, t: seq<T>)
    requires |t| > 0
    ensures s + [t[0]] + t[1..] == s + t
  {
    var x := s + [t[0]] + t[1..];
    var y := s + t;
    assert |x| == |y|;
    forall i | 0 <= i < |y| ensures x[i] == y[i] {
      if i > |s| {
        assert x[i] == t[1..][i - |s| - 1];
      }
    }
  }

  /** Concatenation is associative. */
  lemma AppendAssoc<T>(a: seq<T>, b: seq<T>, c: seq<T>)
    ensures a + b + c == a + (b + c)
  {
    var x := a + b + c;
    var y := a + (b + c);
    forall i | 0 <= i < |x| ensures x[i] == y[i] {
      if i >= |a| + |b| {
        assert x[i] == c[i - |a| - |b|];
      }
    }
  }

  /** The first element and the rest of a two-part concatenation. */
  lemma SplitFirst2<T>(a: seq<T>, b: seq<T>)
    requires |a| > 0
    ensures a + b == [a[0]] + (a[1..] + b)
  {
    var x := a + b;
    var y := a[1..] + b;
    forall i | 0 <= i < |y| ensures x[i + 1] == y[i] {
    }
    assert x[1..] == y;
  }

  /** The first element and the rest of a three-part concatenation. */
  lemma SplitFirst<T>(a: seq<T>, m: seq<T>, b: seq<T>)
    requires |a| > 0
    ensures (a + m + b)[0] == a[0]
    ensures (a + m + b)[1..] == a[1..] + m + b
    ensures a + m + b == [a[0]] + (a[1..] + m + b)
  {
    var x := a + m + b;
    var y := a[1..] + m + b;
    assert |x| == |y| + 1;
    forall i | 0 <= i < |y| ensures x[i + 1] == y[i] {
      if i < |a| - 1 {
      } else if i < |a| - 1 + |m| {
      } else {
      }
    }
    assert x[1..] == y;
  }

  /** An element put in front of a short display. */
  lemma ConsOntoOne<T>(a: T, b: T)
    ensures [a] + [b] == [a, b]
  {
  }

  lemma ConsOntoPair<T>(a: T, b: T, c: T)
    ensures [a] + [b, c] == [a, b, c]
  {
  }

  lemma ConsOntoThree<T>(a: T, b: T, c: T, d: T)
    ensures [a] + [b, c, d] == [a, b, c, d]
  {
  }

  lemma ConsOntoFour<T>(a: T, b: T, c: T, d: T, e: T)
    ensures [a] + [b, c, d, e] == [a, b, c, d, e]
  {
  }
}

=== FILE: session_files.dfy ===
/** File naming for archived sessions (`claude_session_capture.py` and
    `end_session.py`): name sanitising, the session-name pipeline, chapter
    numbering from the existing file names, the archive's file name and
    content, and the name of a merged chapter. Directory listings are
    passed in as sequences of file names; dates and times are passed in as
    the text they format to. */
module SessionFiles {
  import opened Results
  import opened Ascii

  // ---------------------------------------------------------------------------
  // sanitize_filename, sanitize_session_name

  /** The characters `[\w\-]` keeps. */
  predicate SafeChar(c: char) {
    IsWordChar(c) || c == '-'
  }

  predicate AllSafe(s: string) {
    forall i :: 0 <= i < |s| ==> SafeChar(s[i])
  }

  predicate NoDoubleUnderscore(s: string) {
    forall i :: 0 <= i < |s| - 1 ==> !(s[i] == '_' && s[i + 1] == '_')
  }

  /** `re.sub(r'[^\w\-]', '_', name)`: every other character becomes `_`. */
  function ReplaceUnsafe(s: string): (r: string)
    ensures |r| == |s|
    ensures AllSafe(r)
    ensures forall i :: 0 <= i < |s| && SafeChar(s[i]) ==> r[i] == s[i]
    ensures forall i :: 0 <= i < |s| && !SafeChar(s[i]) ==> r[i] == '_'
  {
    if |s| == 0 then [] else [if SafeChar(s[0]) then s[0] else '_'] + ReplaceUnsafe(s[1..])
  }

  /** The characters of `s` other than `_`, in order. */
  function DropUnderscores(s: string): (r: string)
    ensures |r| <= |s|
    ensures forall i :: 0 <= i < |r| ==> r[i] != '_'
  {
    if |s| == 0 then [] else (if s[0] == '_' then [] else [s[0]]) + DropUnderscores(s[1..])
  }

  /** The characters of `s` that `[\w\-]` keeps, other than `_`, in order. */
  function KeptChars(s: string): (r: string)
    ensures |r| <= |s|
    ensures forall i :: 0 <= i < |r| ==> SafeChar(r[i]) && r[i] != '_'
  {
    if |s| == 0 then [] else (if SafeChar(s[0]) && s[0] != '_' then [s[0]] else []) + KeptChars(s[1..])
  }

  lemma DropCons(c: char, rest: string)
    ensures DropUnderscores([c] + rest) == (if c == '_' then [] else [c]) + DropUnderscores(rest)
  {
    assert ([c] + rest)[1..] == rest;
  }

  /** `re.sub(r'_+', '_', s)`: every run of underscores becomes one; every
      other character stays, in order. */
  function Collapse(s: string): (r: string)
    ensures |r| <= |s|
    ensures |s| > 0 ==> |r| > 0 && r[0] == s[0]
    ensures forall i :: 0 <= i < |r| ==> r[i] in s
    ensures DropUnderscores(r) == DropUnderscores(s)
    ensures NoDoubleUnderscore(r)
    ensures NoDoubleUnderscore(s) ==> r == s
  {
    if |s| == 0 then []
    else if s[0] == '_' && |s| > 1 && s[1] == '_' then
      assert forall c :: c in s[1..] ==> c in s;
      Collapse(s[1..])
    else
      var rest := Collapse(s[1..]);
      assert forall c :: c in s[1..] ==> c in s;
      DropCons(s[0], rest);
      NoDoubleTail(s);
      ConsNoDouble(s[0], rest);
      [s[0]] + rest
  }

  lemma NoDoubleTail(s: string)
    requires |s| > 0
    ensures NoDoubleUnderscore(s) ==> NoDoubleUnderscore(s[1..])
  {
    if NoDoubleUnderscore(s) {
      forall i | 0 <= i < |s[1..]| - 1 ensures !(s[1..][i] == '_' && s[1..][i + 1] == '_') {
        assert s[1..][i] == s[i + 1] && s[1..][i + 1] == s[i + 2];
      }
    }
  }

  /** A character in front of a text without `__` adds none, unless it is
      `_` before another `_`. */
  lemma ConsNoDouble(c: char, rest: string)
    requires NoDoubleUnderscore(rest)
    requires c == '_' && |rest| > 0 ==> rest[0] != '_'
    ensures NoDoubleUnderscore([c] + rest)
  {
    var r := [c] + rest;
    forall i | 0 <= i < |r| - 1 ensures !(r[i] == '_' && r[i + 1] == '_') {
      if i > 0 {
        assert r[i] == rest[i - 1] && r[i + 1] == rest[i];
      }
    }
  }

  /** `sanitize_filename` and `sanitize_session_name` (the two are the same
      code): only `[\w\-]` characters, no `__`, at most 100 characters, and
      empty only for an empty name. */
  function Sanitize(name: string): (r: string)
    ensures |r| <= 100
    ensures AllSafe(r)
    ensures NoDoubleUnderscore(r)
    ensures |name| > 0 <==> |r| > 0
    ensures DropUnderscores(r) <= KeptChars(name)
    ensures |Collapse(ReplaceUnsafe(name))| <= 100 ==> DropUnderscores(r) == KeptChars(name)
  {
    var u := ReplaceUnsafe(name);
    var c := Collapse(u);
    assert AllSafe(c) by {
      forall i | 0 <= i < |c| ensures SafeChar(c[i]) {
        var k :| 0 <= k < |u| && u[k] == c[i];
      }
    }
    ReplaceThenDrop(name);
    if |c| > 100 then
      DropOfPrefix(c, 100);
      c[..100]
    else c
  }

  /** Replacing the unsafe characters by `_` and then dropping every `_`
      leaves the kept characters. */
  lemma {:induction false} ReplaceThenDrop(s: string)
    ensures DropUnderscores(ReplaceUnsafe(s)) == KeptChars(s)
  {
    if |s| > 0 {
      var u := ReplaceUnsafe(s);
      assert u[1..] == ReplaceUnsafe(s[1..]);
      ReplaceThenDrop(s[1..]);
    }
  }

  /** Cutting a text short cuts its characters other than `_` short. */
  lemma {:induction false} DropOfPrefix(s: string, k: nat)
    requires k <= |s|
    ensures DropUnderscores(s[..k]) <= DropUnderscores(s)
  {
    if k > 0 {
      assert s[..k][1..] == s[1..][..k - 1];
      DropOfPrefix(s[1..], k - 1);
    }
  }

  /** `s.replace(' ', '_')`. */
  function ReplaceSpaces(s: string): (r: string)
    ensures |r| == |s|
    ensures forall i :: 0 <= i < |s| ==> r[i] == if s[i] == ' ' then '_' else s[i]
  {
    if |s| == 0 then [] else [if s[0] == ' ' then '_' else s[0]] + ReplaceSpaces(s[1..])
  }

  /** The session-name steps of `end_session.main`: a given name is
      sanitised, lower-cased and has its spaces replaced; a name that is
      then empty falls back to `session_<date>`. */
  function SessionName(raw: string, date: string): (r: string)
    ensures raw != "" ==> r == ReplaceSpaces(Lower(Sanitize(raw)))
    ensures raw == "" ==> r == "session_" + date
  {
    var named := if raw != "" then ReplaceSpaces(Lower(Sanitize(raw))) else raw;
    if named == "" then "session_" + date else named
  }

  // ---------------------------------------------------------------------------
  // Chapter numbering

  /** The names `glob("chapter_*.md")` lists. */
  predicate ChapterGlob(name: string) {
    |name| >= 11 && name[..8] == "chapter_" && name[|name| - 3..] == ".md"
  }

  /** `re.match(r'chapter_(\d+)_', name)`: the digits of the group. The
      greedy digit run can only be followed by `_` at its end, so the
      match is the maximal run after the prefix. */
  function ChapterDigits(name: string): (r: Option<string>)
    ensures r.Some? ==> |r.value| > 0 && AllDigits(r.value)
    ensures r.Some? ==> |name| > 8 + |r.value|
    ensures r.Some? ==> name == "chapter_" + r.value + "_" + name[9 + |r.value|..]
  {
    if |name| < 8 || name[..8] != "chapter_" then None
    else
      var j := DigitRun(name, 8);
      if j == 8 || j == |name| || name[j] != '_' then None
      else
        assert name == name[..8] + name[8..j] + "_" + name[j + 1..];
        Some(name[8..j])
  }

  /** `int(match.group(1))`. */
  function ChapterNumber(name: string): (r: Option<nat>)
    ensures r.Some? <==> ChapterDigits(name).Some?
    ensures r.Some? ==> r.value == DigitsValue(ChapterDigits(name).value)
  {
    match ChapterDigits(name)
    case None => None
    case Some(d) => Some(DigitsValue(d))
  }

  /** The file counts toward the numbering: the glob lists it and the
      pattern matches. */
  predicate Numbered(name: string) {
    ChapterGlob(name) && ChapterDigits(name).Some?
  }

  /** `r` is the largest number among the numbered names, or `None` when
      no name is numbered. */
  predicate IsMaxNumber(names: seq<string>, r: Option<nat>) {
    && (r.None? <==> forall i :: 0 <= i < |names| ==> !Numbered(names[i]))
    && (r.Some? ==> exists i :: 0 <= i < |names| && Numbered(names[i]) && ChapterNumber(names[i]) == Some(r.value))
    && (r.Some? ==> forall i :: 0 <= i < |names| && Numbered(names[i]) ==> ChapterNumber(names[i]).value <= r.value)
  }

  /** The largest number among the numbered names. */
  function MaxNumber(names: seq<string>): (r: Option<nat>)
    ensures r.None? <==> forall i :: 0 <= i < |names| ==> !Numbered(names[i])
    ensures r.Some? ==> exists i :: 0 <= i < |names| && Numbered(names[i]) && ChapterNumber(names[i]) == Some(r.value)
    ensures r.Some? ==> forall i :: 0 <= i < |names| && Numbered(names[i]) ==> ChapterNumber(names[i]).value <= r.value
  {
    if |names| == 0 then None
    else
      var rest := MaxNumber(names[1..]);
      var r := if !Numbered(names[0]) then rest
        else if rest.Some? && rest.value >= ChapterNumber(names[0]).value then rest
        else Some(ChapterNumber(names[0]).value);
      MaxCons(names, rest, r);
      r
  }

  /** One step of the scan: the head name against the maximum of the rest. */
  lemma MaxCons(names: seq<string>, rest: Option<nat>, r: Option<nat>)
    requires |names| > 0 && IsMaxNumber(names[1..], rest)
    requires r == if !Numbered(names[0]) then rest
      else if rest.Some? && rest.value >= ChapterNumber(names[0]).value then rest
      else Some(ChapterNumber(names[0]).value)
    ensures IsMaxNumber(names, r)
  {
    assert forall i :: 1 <= i < |names| ==> names[i] == names[1..][i - 1];
    if r.Some? && r == rest {
      var k :| 0 <= k < |names[1..]| && Numbered(names[1..][k]) && ChapterNumber(names[1..][k]) == Some(r.value);
      assert names[k + 1] == names[1..][k];
    }
  }

  /** `get_next_chapter_number` and the numbering of
      `save_conversation_markdown`, over the names in the chapter
      directories: 1 when no name is numbered, else one above the largest
      number. */
  function NextChapter(names: seq<string>): (r: nat)
    ensures r >= 1
    ensures forall i :: 0 <= i < |names| && Numbered(names[i]) ==> ChapterNumber(names[i]).value < r
    ensures (forall i :: 0 <= i < |names| ==> !Numbered(names[i])) ==> r == 1
    ensures r > 1 ==> exists i :: 0 <= i < |names| && Numbered(names[i]) && ChapterNumber(names[i]) == Some(r - 1)
  {
    match MaxNumber(names)
    case None => 1
    case Some(m) => m + 1
  }

  // ---------------------------------------------------------------------------
  // save_conversation_markdown, merge_with_narrative

  /** The archive's file name: the chapter number in two digits, then the
      sanitised session name, or `session_<date>` without one. */
  function ArchiveFileName(n: nat, sessionName: string, date: string): (r: string)
    ensures sessionName != "" ==> r == "chapter_" + Pad2(n) + "_" + Sanitize(sessionName) + "_claude.md"
    ensures sessionName == "" ==> r == "chapter_" + Pad2(n) + "_session_" + date + "_claude.md"
  {
    var middle := if sessionName != "" then Sanitize(sessionName) else "session_" + date;
    "chapter_" + Pad2(n) + "_" + middle + "_claude.md"
  }

  /** `'\n'.join(lines)`. */
  function Join(lines: seq<string>): (r: string)
    ensures |lines| == 1 ==> r == lines[0]
    ensures |lines| > 1 ==> r == lines[0] + "\n" + Join(lines[1..])
  {
    if |lines| == 0 then "" else if |lines| == 1 then lines[0] else lines[0] + "\n" + Join(lines[1..])
  }

  /** The metadata header of an archive. */
  function Header(n: nat, sessionName: string, stamp: string): seq<string> {
    ["# Claude Code Session Archive",
     "**Date**: " + stamp,
     "**Chapter**: " + Pad2(n),
     "**Session**: " + (if sessionName != "" then sessionName else "Adventure Session"),
     "", "---", ""]
  }

  /** `save_conversation_markdown` without the write: an empty conversation
      raises before anything is named; otherwise the file name and the
      content, the header lines (when asked for) and the conversation joined
      by newlines. */
  function SaveConversation(conversation: string, sessionName: string, includeMetadata: bool,
                            listing: seq<string>, date: string, stamp: string): (r: Result<(string, string)>)
    ensures r.Err? <==> conversation == ""
    ensures r.Ok? ==> r.value.0 == ArchiveFileName(NextChapter(listing), sessionName, date)
    ensures r.Ok? && !includeMetadata ==> r.value.1 == conversation
    ensures r.Ok? && includeMetadata ==>
      r.value.1 == Join(Header(NextChapter(listing), sessionName, stamp)) + "\n" + conversation
  {
    if conversation == "" then Err("Conversation text cannot be empty")
    else
      var n := NextChapter(listing);
      var header := if includeMetadata then Header(n, sessionName, stamp) else [];
      JoinAppend(header, conversation);
      Ok((ArchiveFileName(n, sessionName, date), Join(header + [conversation])))
  }

  /** Appending a line to a non-empty list adds a newline and the line. */
  lemma {:induction false} JoinAppend(lines: seq<string>, last: string)
    ensures |lines| == 0 ==> Join(lines + [last]) == last
    ensures |lines| > 0 ==> Join(lines + [last]) == Join(lines) + "\n" + last
  {
    if |lines| > 1 {
      JoinAppend(lines[1..], last);
      assert (lines + [last])[1..] == lines[1..] + [last];
    } else if |lines| == 1 {
      assert (lines + [last])[1..] == [last];
    }
  }

  /** The merged chapter's name: the archive's chapter digits reused
      verbatim, or a time-stamped name when the archive is not numbered. */
  function MergedFileName(archiveName: string, stamp: string): (r: string)
    ensures ChapterDigits(archiveName).Some? ==> r == "chapter_" + ChapterDigits(archiveName).value + "_complete.md"
    ensures ChapterDigits(archiveName).None? ==> r == "complete_session_" + stamp + ".md"
  {
    match ChapterDigits(archiveName)
    case Some(d) => "chapter_" + d + "_complete.md"
    case None => "complete_session_" + stamp + ".md"
  }
}

=== FILE: session_files_proofs.dfy ===
/** Properties of session file naming: sanitising is idempotent and leaves
    clean names alone, the later space replacement never changes anything,
    the chapter pattern reads back the number a file name was given, a new
    archive moves the numbering on by one, and a merge keeps the chapter's
    number. */
module SessionFilesProofs {
  import opened Results
  import opened Ascii
  import opened SessionFiles

  /** A name that is already clean and short is kept as it is. */
  lemma SanitizeKeepsClean(s: string)
    requires AllSafe(s) && NoDoubleUnderscore(s) && |s| <= 100
    ensures Sanitize(s) == s
  {
    assert ReplaceUnsafe(s) == s;
  }

  /** Sanitising twice is sanitising once. */
  lemma SanitizeIdempotent(name: string)
    ensures Sanitize(Sanitize(name)) == Sanitize(name)
  {
    SanitizeKeepsClean(Sanitize(name));
  }

  /** The `.replace(' ', '_')` after sanitising and lower-casing changes
      nothing: no space survives sanitising, and lower-casing adds none. */
  lemma SpaceReplaceIsNoop(name: string)
    ensures ReplaceSpaces(Lower(Sanitize(name))) == Lower(Sanitize(name))
  {
    var s := Sanitize(name);
    assert forall i :: 0 <= i < |s| ==> Lower(s)[i] != ' ' by {
      forall i | 0 <= i < |s| ensures Lower(s)[i] != ' ' {
        assert SafeChar(s[i]);
      }
    }
  }

  /** The `session_<date>` fallback happens only for an empty name: any
      other name keeps a non-empty sanitised form. */
  lemma FallbackOnlyForEmpty(raw: string, date: string)
    requires raw != ""
    ensures SessionName(raw, date) == Lower(Sanitize(raw))
    ensures |SessionName(raw, date)| > 0
  {
    SpaceReplaceIsNoop(raw);
  }

  /** The pattern reads back the digits after the prefix, whatever
      follows the underscore. */
  lemma ChapterDigitsOf(d: string, rest: string)
    requires |d| > 0 && AllDigits(d)
    ensures ChapterDigits("chapter_" + d + "_" + rest) == Some(d)
  {
    var name := "chapter_" + d + "_" + rest;
    assert name[..8] == "chapter_";
    assert name[8..8 + |d|] == d;
    assert name[8 + |d|] == '_';
    DigitRunUnique(name, 8, 8 + |d|);
  }

  /** An archive's name is numbered with the number it was given. */
  lemma ArchiveNameRoundTrip(n: nat, sessionName: string, date: string)
    ensures Numbered(ArchiveFileName(n, sessionName, date))
    ensures ChapterDigits(ArchiveFileName(n, sessionName, date)) == Some(Pad2(n))
    ensures ChapterNumber(ArchiveFileName(n, sessionName, date)) == Some(n)
  {
    var middle := if sessionName != "" then Sanitize(sessionName) else "session_" + date;
    var rest := middle + "_claude.md";
    assert ArchiveFileName(n, sessionName, date) == "chapter_" + Pad2(n) + "_" + rest;
    assert rest[|rest| - 3..] == ".md";
    NumberedName(Pad2(n), rest);
  }

  /** `chapter_<digits>_<rest>.md` counts toward the numbering, with those
      digits. */
  lemma NumberedName(d: string, rest: string)
    requires |d| > 0 && AllDigits(d)
    requires |rest| >= 3 && rest[|rest| - 3..] == ".md"
    ensures Numbered("chapter_" + d + "_" + rest)
    ensures ChapterDigits("chapter_" + d + "_" + rest) == Some(d)
  {
    var name := "chapter_" + d + "_" + rest;
    ChapterDigitsOf(d, rest);
    assert name[..8] == "chapter_";
    assert name[|name| - 3..] == rest[|rest| - 3..];
  }

  /** Saving an archive under the next number moves the numbering on by
      exactly one. */
  lemma NextAfterSave(listing: seq<string>, sessionName: string, date: string)
    ensures var n := NextChapter(listing);
      NextChapter(listing + [ArchiveFileName(n, sessionName, date)]) == n + 1
  {
    var n := NextChapter(listing);
    var name := ArchiveFileName(n, sessionName, date);
    var names := listing + [name];
    ArchiveNameRoundTrip(n, sessionName, date);
    assert names[|listing|] == name;
    assert forall i :: 0 <= i < |listing| ==> names[i] == listing[i];
  }

  /** Merging an archive keeps its chapter digits, so the merged chapter is
      numbered like the archive. */
  lemma MergeKeepsNumber(n: nat, sessionName: string, date: string, stamp: string)
    ensures var merged := MergedFileName(ArchiveFileName(n, sessionName, date), stamp);
      && merged == "chapter_" + Pad2(n) + "_complete.md"
      && Numbered(merged) && ChapterNumber(merged) == Some(n)
  {
    ArchiveNameRoundTrip(n, sessionName, date);
    CompleteNameNumbered(n);
  }

  /** `chapter_<nn>_complete.md` is numbered `n`. */
  lemma CompleteNameNumbered(n: nat)
    ensures var merged := "chapter_" + Pad2(n) + "_complete.md";
      Numbered(merged) && ChapterNumber(merged) == Some(n)
  {
    assert "chapter_" + Pad2(n) + "_complete.md" == "chapter_" + Pad2(n) + "_" + "complete.md";
    NumberedName(Pad2(n), "complete.md");
  }

  /** A comma and a space become one underscore. */
  lemma SanitizeExample()
    ensures Sanitize("a, b") == "a_b"
  {
    ReplaceExample();
    CollapseExample();
  }

  /** The comma and the space are both unsafe. */
  lemma ReplaceExample()
    ensures ReplaceUnsafe("a, b") == "a__b"
  {
    var u := ReplaceUnsafe("a, b");
    assert u[0] == 'a' && u[1] == '_' && u[2] == '_' && u[3] == 'b';
  }

  /** The run of two underscores becomes one. */
  lemma CollapseExample()
    ensures Collapse("a__b") == "a_b"
  {
    CollapseKeepsFirst();
    CollapseDropsFirst();
    CollapseDone();
  }

  lemma CollapseKeepsFirst()
    ensures Collapse("a__b") == "a" + Collapse("__b")
  {
    assert "a__b"[1..] == "__b";
  }

  lemma CollapseDropsFirst()
    ensures Collapse("__b") == Collapse("_b")
  {
    assert "__b"[1..] == "_b";
  }

  lemma CollapseDone()
    ensures Collapse("_b") == "_b"
  {
    assert NoDoubleUnderscore("_b");
  }

  /** Unnumbered names are skipped and the next chapter follows the
      largest number. */
  lemma NumberingExample()
    ensures NextChapter(["chapter_03_intro.md", "notes.md"]) == 4
  {
    var t := "chapter_03_intro.md";
    ChapterDigitsOf("03", "intro.md");
    assert t == "chapter_" + "03" + "_" + "intro.md";
    assert DigitsValue("03") == 3 by {
      assert "03"[..1] == "0";
    }
    assert t[|t| - 3..] == ".md";
    assert !ChapterGlob("notes.md");
  }
}

=== FILE: session_log.dfy ===
/** The session logger (`lib/session_logger_v2.py`): the in-memory event log
    with its bounded length, the combat buffer, the auto-save counter, the
    start of a combat and the attack narration. Timestamps and the outcome
    of the auto-save write are parameters; the files themselves are not
    modelled. */
module SessionLog {
  import opened Results
  import opened Ascii
  import opened Assoc
  import opened JsonValues

  /** `AUTO_SAVE_INTERVAL` and `MAX_SESSION_EVENTS` of the configuration. */
  const AutoSaveInterval: nat := 10
  const MaxSessionEvents: nat := 1000

  /** The event types that also go to the combat buffer. */
  const CombatTypes: seq<string> :=
    ["attack", "damage", "rage_release", "kill", "level_up", "combat_start", "combat_end"]

  /** One logged event. */
  datatype Event = Event(timestamp: string, eventType: string, data: Json, narrative: Option<string>)

  datatype Logger = Logger(session: seq<Event>, combat: seq<Event>, sinceSave: nat)

  /** The logger as its constructor leaves it. */
  const Fresh: Logger := Logger([], [], 0)

  /** `s[-k:]` when the list is longer than `k`, else `s`. */
  function Last<T>(s: seq<T>, k: nat): (r: seq<T>)
    ensures |r| == if |s| > k then k else |s|
    ensures r == s[|s| - |r|..]
  {
    if |s| > k then s[|s| - k..] else s
  }

  /** `log_event`: data that is not an object raises before anything
      changes. Otherwise the event is appended; the counter counts it and
      is reset only by a successful auto-save once it reaches the interval;
      the log keeps only its newest events; a combat event also goes to the
      combat buffer. */
  function LogEvent(lg: Logger, e: Event, saveOk: bool): (r: Result<Logger>)
    ensures r.Err? <==> !e.data.JObj?
    ensures r.Ok? ==> |r.value.session| <= MaxSessionEvents
    ensures r.Ok? ==> |r.value.session| > 0 && r.value.session[|r.value.session| - 1] == e
    ensures r.Ok? ==>
      var all := lg.session + [e];
      |r.value.session| <= |all| && r.value.session == all[|all| - |r.value.session|..]
    ensures r.Ok? && |lg.session| < MaxSessionEvents ==> r.value.session == lg.session + [e]
    ensures r.Ok? && e.eventType in CombatTypes ==> r.value.combat == lg.combat + [e]
    ensures r.Ok? && e.eventType !in CombatTypes ==> r.value.combat == lg.combat
    ensures r.Ok? ==> (r.value.sinceSave == 0 <==> saveOk && lg.sinceSave + 1 >= AutoSaveInterval)
    ensures r.Ok? && r.value.sinceSave != 0 ==> r.value.sinceSave == lg.sinceSave + 1
  {
    if !e.data.JObj? then Err("Event data must be a dictionary")
    else
      var since := lg.sinceSave + 1;
      var since' := if since >= AutoSaveInterval && saveOk then 0 else since;
      var session := Last(lg.session + [e], MaxSessionEvents);
      var combat := if e.eventType in CombatTypes then lg.combat + [e] else lg.combat;
      Ok(Logger(session, combat, since'))
  }

  /** The events of `evs` whose type is a combat type, in order. */
  function CombatOnly(evs: seq<Event>): (r: seq<Event>)
    ensures |r| <= |evs|
    ensures forall x :: x in r <==> x in evs && x.eventType in CombatTypes
  {
    if |evs| == 0 then []
    else
      var rest := CombatOnly(evs[1..]);
      assert forall x :: x in evs <==> x == evs[0] || x in evs[1..];
      if evs[0].eventType in CombatTypes then [evs[0]] + rest else rest
  }

  /** A run of `log_event` calls, every auto-save succeeding or every one
      failing; the first error stops the run. */
  function LogAll(lg: Logger, evs: seq<Event>, saveOk: bool): (r: Result<Logger>)
    ensures r.Ok? <==> forall i :: 0 <= i < |evs| ==> evs[i].data.JObj?
    decreases |evs|
  {
    if |evs| == 0 then Ok(lg)
    else
      AllObjectsStep(evs);
      match LogEvent(lg, evs[0], saveOk)
      case Err(e) => Err(e)
      case Ok(lg') => LogAll(lg', evs[1..], saveOk)
  }

  /** Every event of a non-empty run carries an object exactly when the
      first does and every later one does. */
  lemma AllObjectsStep(evs: seq<Event>)
    requires |evs| > 0
    ensures (forall i :: 0 <= i < |evs| ==> evs[i].data.JObj?) <==>
      evs[0].data.JObj? && forall i :: 0 <= i < |evs[1..]| ==> evs[1..][i].data.JObj?
  {
    assert forall i :: 1 <= i < |evs| ==> evs[i] == evs[1..][i - 1];
  }

  /** `start_combat`: the combat buffer is emptied and the `combat_start`
      event logged, carrying the description, the enemies and the player's
      hit points as read at that moment. Only the buffer is emptied: the
      event joins the session log and the auto-save counter as any other
      event does. */
  function StartCombat(lg: Logger, description: string, enemies: seq<string>, playerHp: Json,
                       timestamp: string, saveOk: bool): (r: Logger)
    ensures |r.combat| == 1 && r.combat[0].eventType == "combat_start"
    ensures r.combat[0].timestamp == timestamp
    ensures r.combat[0].narrative == Some("\U{2694}\U{FE0F} Combat begins: " + description)
    ensures r.combat[0].data.JObj?
      && Get(r.combat[0].data.fields, "description") == Some(JStr(description))
      && Get(r.combat[0].data.fields, "player_hp") == Some(playerHp)
    ensures r.combat[0].data.JObj? &&
      var listed := Get(r.combat[0].data.fields, "enemies");
      && listed.Some? && listed.value.JArr? && |listed.value.items| == |enemies|
      && forall i :: 0 <= i < |enemies| ==> listed.value.items[i] == JStr(enemies[i])
    ensures |r.session| > 0 && r.session[|r.session| - 1] == r.combat[0]
    ensures r.session == Last(lg.session + [r.combat[0]], MaxSessionEvents)
    ensures r.sinceSave == 0 <==> saveOk && lg.sinceSave + 1 >= AutoSaveInterval
    ensures r.sinceSave != 0 ==> r.sinceSave == lg.sinceSave + 1
  {
    var data := JObj([("description", JStr(description)),
                      ("enemies", JArr(seq(|enemies|, i requires 0 <= i < |enemies| => JStr(enemies[i])))),
                      ("player_hp", playerHp)]);
    var e := Event(timestamp, "combat_start", data, Some("\U{2694}\U{FE0F} Combat begins: " + description));
    assert Get(data.fields[2..], "player_hp") == Some(playerHp);
    assert Get(data.fields[1..], "player_hp") == Some(playerHp) by { assert data.fields[1..][1..] == data.fields[2..]; }
    assert Get(data.fields, "enemies") == Get(data.fields[1..], "enemies");
    LogEvent(lg.(combat := []), e, saveOk).value
  }

  // ---------------------------------------------------------------------------
  // narrate_attack

  /** `DAMAGE_THRESHOLDS` in the order `narrate_attack` tries them: by
      decreasing value. */
  const Thresholds: seq<(string, int)> :=
    [("devastating", 50), ("critical", 30), ("heavy", 20), ("solid", 10), ("light", 5), ("graze", 0)]

  /** The first threshold from position `i` on that the damage reaches. */
  function TierFrom(damage: int, i: nat): (r: Option<nat>)
    requires i <= |Thresholds|
    ensures r.Some? ==> i <= r.value < |Thresholds| && damage >= Thresholds[r.value].1
    ensures r.Some? ==> forall j :: i <= j < r.value ==> damage < Thresholds[j].1
    ensures r.None? <==> forall j :: i <= j < |Thresholds| ==> damage < Thresholds[j].1
    decreases |Thresholds| - i
  {
    if i == |Thresholds| then None
    else if damage >= Thresholds[i].1 then Some(i)
    else TierFrom(damage, i + 1)
  }

  /** The kind of line `narrate_attack` produces. */
  datatype AttackLine = CriticalHit | Tier(name: string) | Generic

  /** The line `narrate_attack` chooses: a truthy `critical` wins; then the
      tier of the highest threshold the damage reaches; a negative damage
      gets the generic line. A damage that is not a number raises. */
  function AttackKind(data: Dict<Json>): (r: Result<AttackLine>)
    ensures Truthy(Get(data, "critical").GetOr(JBool(false))) ==> r == Ok(CriticalHit)
    ensures !Truthy(Get(data, "critical").GetOr(JBool(false))) ==>
      var d := AsNumber(Get(data, "damage").GetOr(JInt(0)));
      && (r.Ok? <==> d.Ok?)
      && (r.Ok? ==> (r.value == Generic <==> d.value < 0))
      && (r.Ok? && r.value.Tier? ==> exists j :: 0 <= j < |Thresholds| && r.value.name == Thresholds[j].0
                                          && Thresholds[j].1 <= d.value && TierFrom(d.value, 0) == Some(j))
  {
    if Truthy(Get(data, "critical").GetOr(JBool(false))) then Ok(CriticalHit)
    else
      var damage :- AsNumber(Get(data, "damage").GetOr(JInt(0)));
      match TierFrom(damage, 0)
      case None => Ok(Generic)
      case Some(j) => Ok(Tier(Thresholds[j].0))
  }

  /** `str()` of the JSON values a narration line shows; lists and objects
      are not modelled. */
  function Show(v: Json): (r: Result<string>)
    ensures r.Err? <==> v.JArr? || v.JObj?
    ensures v.JStr? ==> r == Ok(v.s)
    ensures v.JInt? && v.i >= 0 ==> r.Ok? && AllDigits(r.value) && DigitsValue(r.value) == v.i
  {
    match v
    case JNull => Ok("None")
    case JBool(b) => Ok(if b then "True" else "False")
    case JInt(i) => Ok(IntToString(i))
    case JStr(s) => Ok(s)
    case _ => Err("not modelled")
  }

  /** The text of each kind of line. */
  function AttackText(line: AttackLine, weapon: string, damage: string): string {
    match line
    case CriticalHit => "**CRITICAL HIT!** The " + weapon + " finds its mark with devastating precision! [" + damage + " damage!]"
    case Generic => "The " + weapon + " deals " + damage + " damage."
    case Tier(name) =>
      if name == "devastating" then "**DEVASTATING!** The " + weapon + " obliterates the target! [" + damage + " damage!]"
      else if name == "critical" then "The " + weapon + " crashes down with tremendous force! [" + damage + " damage]"
      else if name == "heavy" then "A crushing blow from the " + weapon + "! [" + damage + " damage]"
      else if name == "solid" then "A solid strike with the " + weapon + " connects. [" + damage + " damage]"
      else if name == "light" then "The " + weapon + " finds its mark. [" + damage + " damage]"
      else if name == "graze" then "The " + weapon + " grazes the target. [" + damage + " damage]"
      else "Attack deals " + damage + " damage."
  }

  /** `narrate_attack`: the chosen line with the weapon (a greataxe unless
      given) and the damage (0 unless given) filled in. */
  function NarrateAttack(data: Dict<Json>): (r: Result<string>)
    ensures r.Ok? <==>
      && AttackKind(data).Ok?
      && Show(Get(data, "weapon").GetOr(JStr("greataxe"))).Ok?
      && Show(Get(data, "damage").GetOr(JInt(0))).Ok?
    ensures r.Ok? ==>
      var weapon := Show(Get(data, "weapon").GetOr(JStr("greataxe")));
      var damage := Show(Get(data, "damage").GetOr(JInt(0)));
      weapon.Ok? && damage.Ok? && r.value == AttackText(AttackKind(data).value, weapon.value, damage.value)
  {
    var line :- AttackKind(data);
    var weapon :- Show(Get(data, "weapon").GetOr(JStr("greataxe")));
    var damage :- Show(Get(data, "damage").GetOr(JInt(0)));
    Ok(AttackText(line, weapon, damage))
  }
}

=== FILE: session_log_proofs.dfy ===
/** Properties of the session logger over runs of events: the log is always
    the newest events in order, the combat buffer is exactly the combat
    events, the auto-save counter counts modulo the interval; and the attack
    narration picks the highest tier reached. */
module SessionLogProofs {
  import opened Results
  import opened Seqs
  import opened Ascii
  import opened Assoc
  import opened JsonValues
  import opened SessionLog

  /** Over any run of well-formed events, the log holds the newest
      `MaxSessionEvents` of everything logged, in order. */
  lemma {:induction false} LogKeepsNewest(lg: Logger, evs: seq<Event>, saveOk: bool)
    requires |lg.session| <= MaxSessionEvents
    requires forall i :: 0 <= i < |evs| ==> evs[i].data.JObj?
    ensures LogAll(lg, evs, saveOk).Ok?
    ensures LogAll(lg, evs, saveOk).value.session == Last(lg.session + evs, MaxSessionEvents)
    decreases |evs|
  {
    if |evs| > 0 {
      var lg' := LogEvent(lg, evs[0], saveOk).value;
      var s1 := lg.session + [evs[0]];
      LogAllUnfold(lg, evs, saveOk);
      StepTrims(lg, evs[0], saveOk);
      assert lg'.session == Last(s1, MaxSessionEvents);
      assert |lg'.session| <= MaxSessionEvents;
      LogKeepsNewest(lg', evs[1..], saveOk);
      var rest := LogAll(lg', evs[1..], saveOk).value;
      assert rest.session == Last(lg'.session + evs[1..], MaxSessionEvents);
      LastOfConcat(s1, evs[1..], MaxSessionEvents);
      ConsTail(lg.session, evs);
    }
  }

  /** A run of well-formed events is its first event, then the rest. */
  lemma LogAllUnfold(lg: Logger, evs: seq<Event>, saveOk: bool)
    requires |evs| > 0
    requires forall i :: 0 <= i < |evs| ==> evs[i].data.JObj?
    ensures LogEvent(lg, evs[0], saveOk).Ok?
    ensures forall i :: 0 <= i < |evs[1..]| ==> evs[1..][i].data.JObj?
    ensures LogAll(lg, evs, saveOk) == LogAll(LogEvent(lg, evs[0], saveOk).value, evs[1..], saveOk)
  {
    AllObjectsStep(evs);
  }

  /** One logged event trims the appended log. */
  lemma StepTrims(lg: Logger, e: Event, saveOk: bool)
    requires e.data.JObj?
    ensures LogEvent(lg, e, saveOk).Ok?
    ensures LogEvent(lg, e, saveOk).value.session == Last(lg.session + [e], MaxSessionEvents)
  {
  }

  /** Trimming first and then appending the rest keeps the same newest
      events as appending everything, once something is appended. */
  lemma LastOfConcat<T>(s: seq<T>, t: seq<T>, k: nat)
    requires k > 0
    ensures Last(Last(s, k) + t, k) == Last(s + t, k)
  {
    var r := Last(Last(s, k) + t, k);
    var l := Last(s + t, k);
    LastOfConcatAt(s, t, k, 0);
    forall j | 0 <= j < |l| ensures r[j] == l[j] {
      LastOfConcatAt(s, t, k, j);
    }
  }

  /** `LastOfConcat`, one position at a time. */
  lemma LastOfConcatAt<T>(s: seq<T>, t: seq<T>, k: nat, j: nat)
    requires k > 0
    ensures |Last(Last(s, k) + t, k)| == |Last(s + t, k)|
    ensures j < |Last(s + t, k)| ==> Last(Last(s, k) + t, k)[j] == Last(s + t, k)[j]
  {
    var a := Last(s, k);
    var u := a + t;
    var v := s + t;
    var r := Last(u, k);
    var l := Last(v, k);
    if j < |l| {
      var p := |u| - |r| + j;
      var q := |v| - |l| + j;
      assert r[j] == u[p] && l[j] == v[q];
      if p < |a| {
        assert u[p] == a[p] == s[q];
      } else {
        assert u[p] == t[p - |a|] && v[q] == t[q - |s|];
      }
    }
  }

  /** The combat buffer after a run is the old buffer followed by exactly
      the combat events of the run. */
  lemma {:induction false} CombatBufferIsCombatEvents(lg: Logger, evs: seq<Event>, saveOk: bool)
    requires forall i :: 0 <= i < |evs| ==> evs[i].data.JObj?
    ensures LogAll(lg, evs, saveOk).Ok?
    ensures LogAll(lg, evs, saveOk).value.combat == lg.combat + CombatOnly(evs)
    decreases |evs|
  {
    if |evs| > 0 {
      var lg' := LogEvent(lg, evs[0], saveOk).value;
      var first := if evs[0].eventType in CombatTypes then [evs[0]] else [];
      LogAllUnfold(lg, evs, saveOk);
      assert lg'.combat == lg.combat + first;
      CombatBufferIsCombatEvents(lg', evs[1..], saveOk);
      var rest := LogAll(lg', evs[1..], saveOk).value;
      assert rest.combat == lg'.combat + CombatOnly(evs[1..]);
      CombatOnlyCons(evs);
      AppendAssoc(lg.combat, first, CombatOnly(evs[1..]));
    }
  }

  /** After `start_combat`, the combat buffer holds the `combat_start`
      event followed by exactly the combat events logged since, whatever it
      held before the combat began. */
  lemma {:induction false} BufferSinceCombatStart(lg: Logger, description: string, enemies: seq<string>, playerHp: Json,
                               timestamp: string, saveOk: bool, evs: seq<Event>)
    requires forall i :: 0 <= i < |evs| ==> evs[i].data.JObj?
    ensures var start := StartCombat(lg, description, enemies, playerHp, timestamp, saveOk);
      && LogAll(start, evs, saveOk).Ok?
      && LogAll(start, evs, saveOk).value.combat == [start.combat[0]] + CombatOnly(evs)
  {
    var start := StartCombat(lg, description, enemies, playerHp, timestamp, saveOk);
    CombatBufferIsCombatEvents(start, evs, saveOk);
    assert start.combat == [start.combat[0]];
  }

  /** The combat events of a non-empty run: the first event if it is one,
      then those of the rest. */
  lemma CombatOnlyCons(evs: seq<Event>)
    requires |evs| > 0
    ensures CombatOnly(evs) == (if evs[0].eventType in CombatTypes then [evs[0]] else []) + CombatOnly(evs[1..])
  {
    if evs[0].eventType !in CombatTypes {
      assert [] + CombatOnly(evs[1..]) == CombatOnly(evs[1..]);
    }
  }

  /** With every auto-save succeeding, the counter counts the events
      modulo the interval. */
  lemma CounterModInterval(lg: Logger, evs: seq<Event>)
    requires lg.sinceSave < AutoSaveInterval
    requires forall i :: 0 <= i < |evs| ==> evs[i].data.JObj?
    ensures LogAll(lg, evs, true).Ok?
    ensures LogAll(lg, evs, true).value.sinceSave == (lg.sinceSave + |evs|) % AutoSaveInterval
  {
    CounterTracks(lg, evs);
    CounterAfterMod(lg.sinceSave, |evs|);
  }

  /** The counter after `k` successful steps from `since`: one up, and
      back to 0 at the interval. */
  function CounterAfter(since: nat, k: nat): nat
    decreases k
  {
    if k == 0 then since
    else CounterAfter(if since + 1 == AutoSaveInterval then 0 else since + 1, k - 1)
  }

  /** The step-by-step counter is the count modulo the interval. */
  lemma {:induction false} CounterAfterMod(since: nat, k: nat)
    requires since < AutoSaveInterval
    ensures CounterAfter(since, k) == (since + k) % AutoSaveInterval
    decreases k
  {
    if k == 0 {
      assert (since + 0) % 10 == since;
    } else {
      var since' := if since + 1 == AutoSaveInterval then 0 else since + 1;
      CounterAfterMod(since', k - 1);
      CounterWraps(since, since', k - 1, k, CounterAfter(since', k - 1));
    }
  }

  /** A run with every save succeeding moves the counter as
      `CounterAfter` does. */
  lemma {:induction false} CounterTracks(lg: Logger, evs: seq<Event>)
    requires lg.sinceSave < AutoSaveInterval
    requires forall i :: 0 <= i < |evs| ==> evs[i].data.JObj?
    ensures LogAll(lg, evs, true).Ok?
    ensures LogAll(lg, evs, true).value.sinceSave == CounterAfter(lg.sinceSave, |evs|)
    decreases |evs|
  {
    if |evs| > 0 {
      LogAllUnfold(lg, evs, true);
      CounterTracks(LogEvent(lg, evs[0], true).value, evs[1..]);
    }
  }

  /** Resetting the counter at the interval loses nothing modulo the
      interval. */
  lemma CounterWraps(since: nat, since': nat, n: nat, len: nat, counter: nat)
    requires since < AutoSaveInterval
    requires since' == if since + 1 == AutoSaveInterval then 0 else since + 1
    requires len == n + 1
    requires counter == (since' + n) % AutoSaveInterval
    ensures counter == (since + len) % AutoSaveInterval
  {
    if since + 1 == AutoSaveInterval {
      assert (0 + n) % 10 == (10 + n) % 10;
    }
  }

  /** With every auto-save failing, the counter only grows. */
  lemma {:induction false} CounterFailing(lg: Logger, evs: seq<Event>)
    requires forall i :: 0 <= i < |evs| ==> evs[i].data.JObj?
    ensures LogAll(lg, evs, false).Ok?
    ensures LogAll(lg, evs, false).value.sinceSave == lg.sinceSave + |evs|
    decreases |evs|
  {
    if |evs| > 0 {
      LogAllUnfold(lg, evs, false);
      CounterFailing(LogEvent(lg, evs[0], false).value, evs[1..]);
    }
  }

  /** The chosen tier is the highest threshold the damage reaches. */
  lemma TierIsHighestReached(damage: int, j: nat)
    requires TierFrom(damage, 0) == Some(j)
    ensures forall k :: 0 <= k < |Thresholds| && Thresholds[k].1 <= damage ==> Thresholds[k].1 <= Thresholds[j].1
  {
  }

  /** 25 damage is a heavy blow, 50 devastating, 0 a graze and -3 the
      generic line; a critical hit wins even over a damage that is not a
      number. */
  lemma TierExamples()
    ensures AttackKind([("damage", JInt(25))]) == Ok(Tier("heavy"))
    ensures AttackKind([("damage", JInt(50))]) == Ok(Tier("devastating"))
    ensures AttackKind([]) == Ok(Tier("graze"))
    ensures AttackKind([("damage", JInt(-3))]) == Ok(Generic)
    ensures AttackKind([("critical", JBool(true)), ("damage", JStr("lots"))]) == Ok(CriticalHit)
    ensures AttackKind([("damage", JStr("lots"))]).Err?
  {
    HighTiers();
    LowDamage();
    CriticalFirst();
  }

  lemma HighTiers()
    ensures AttackKind([("damage", JInt(25))]) == Ok(Tier("heavy"))
    ensures AttackKind([("damage", JInt(50))]) == Ok(Tier("devastating"))
  {
  }

  lemma LowDamage()
    ensures AttackKind([]) == Ok(Tier("graze"))
    ensures AttackKind([("damage", JInt(-3))]) == Ok(Generic)
  {
  }

  /** A truthy `critical` is read before the damage, which is then never
      converted. */
  lemma CriticalFirst()
    ensures AttackKind([("critical", JBool(true)), ("damage", JStr("lots"))]) == Ok(CriticalHit)
    ensures AttackKind([("damage", JStr("lots"))]).Err?
  {
  }

  /** The full line for a heavy sword blow. */
  lemma NarrateExample()
    ensures NarrateAttack([("weapon", JStr("sword")), ("damage", JInt(25))]) == Ok("A crushing blow from the sword! [25 damage]")
  {
    var data := [("weapon", JStr("sword")), ("damage", JInt(25))];
    assert Get(data, "damage") == Some(JInt(25));
    assert AttackKind(data) == Ok(Tier("heavy"));
    TwentyFiveText();
    assert Show(JInt(25)) == Ok("25");
    assert Get(data, "weapon") == Some(JStr("sword"));
    HeavyText("sword", "25");
    HeavySwordLine();
  }

  lemma HeavyText(weapon: string, damage: string)
    ensures AttackText(Tier("heavy"), weapon, damage) == "A crushing blow from the " + weapon + "! [" + damage + " damage]"
  {
  }

  lemma HeavySwordLine()
    ensures "A crushing blow from the " + "sword" + "! [" + "25" + " damage]" == "A crushing blow from the sword! [25 damage]"
  {
  }

  lemma TwentyFiveText()
    ensures IntToString(25) == "25"
  {
    assert NatToString(2) == "2";
    assert NatToString(25) == NatToString(2) + [DigitChar(5)];
  }
}

=== FILE: status_effects.dfy ===
/** Status effects of the engine (`game_engine.py`): `apply_status_effect`
    and `tick_status_effects`. The effects live in an insertion-ordered
    dictionary, and one turn walks a snapshot of it in that order. */
module StatusEffects {
  import opened Results
  import opened Assoc
  import opened DiceLib
  import opened EngineState

  // ---------------------------------------------------------------------------
  // apply_status_effect

  datatype ApplyOutcome =
    | Applied(effect: string, duration: int, description: string)
    | UnknownEffect(effect: string)

  /** The duration stored for a new effect: the argument, else the
      configured `duration`, else `duration_base`, else 5. */
  function StatusDuration(cfg: EffectConfig, duration: Option<int>): (d: int)
    ensures duration.Some? ==> d == duration.value
    ensures duration.None? && cfg.duration.Some? ==> d == cfg.duration.value
    ensures duration.None? && cfg.duration.None? && cfg.durationBase.Some? ==> d == cfg.durationBase.value
    ensures duration.None? && cfg.duration.None? && cfg.durationBase.None? ==> d == 5
  {
    match duration
    case Some(d) => d
    case None =>
      match cfg.duration
      case Some(d) => d
      case None => cfg.durationBase.GetOr(5)
  }

  /** The power stored for a new effect: `power or damage_per_turn`, 0 when
      neither is given. */
  function StatusPower(cfg: EffectConfig, power: Option<Amount>): (p: Amount)
    ensures power.Some? && power.value.Truthy() ==> p == power.value
    ensures (power.None? || !power.value.Truthy()) && cfg.damagePerTurn.Some? ==> p == cfg.damagePerTurn.value
    ensures (power.None? || !power.value.Truthy()) && cfg.damagePerTurn.None? ==> p == Flat(0)
  {
    if power.Some? && power.value.Truthy() then power.value else cfg.damagePerTurn.GetOr(Flat(0))
  }

  /** `apply_status_effect`: an effect without a (non-empty) configuration
      entry is refused and nothing changes; otherwise the effect is stored
      under its name, replacing an earlier entry in place or going to the
      end. Nothing but the effects changes. */
  function ApplyStatusEffect(s: State, config: Config, name: string, duration: Option<int>, power: Option<Amount>): (r: (ApplyOutcome, State))
    ensures var cfg := EffectConfigOf(config, name);
      r.0.UnknownEffect? <==> cfg.IsEmpty()
    ensures r.0.UnknownEffect? ==> r.1 == s && r.0.effect == name
    ensures r.0.Applied? ==>
      var cfg := EffectConfigOf(config, name);
      && r.0.effect == name
      && r.0.duration == StatusDuration(cfg, duration)
      && r.0.description == cfg.description.GetOr("")
      && Get(r.1.effects, name) == Some(EffectData(StatusDuration(cfg, duration), StatusPower(cfg, power)))
      && (forall k :: k in Keys(r.1.effects) <==> k in Keys(s.effects) || k == name)
      && (name in Keys(s.effects) ==> |r.1.effects| == |s.effects|)
      && r.1.character == s.character && r.1.area == s.area
  {
    var cfg := EffectConfigOf(config, name);
    if cfg.IsEmpty() then (UnknownEffect(name), s)
    else
      var d := StatusDuration(cfg, duration);
      (Applied(name, d, cfg.description.GetOr("")),
       s.(effects := Put(s.effects, name, EffectData(d, StatusPower(cfg, power)))))
  }

  // ---------------------------------------------------------------------------
  // tick_status_effects

  datatype TickEntry =
    | Damaged(effect: string, amount: int)
    | Healed(effect: string, amount: int)
    | Expired(effect: string)

  datatype TickReport = TickReport(processed: nat, log: seq<TickEntry>, hpRemaining: int, active: seq<string>)

  /** The amount one turn of a damage or healing value yields: nothing for a
      falsy value, an integer as it is, text rolled as dice (which fails for
      text that is not dice notation). */
  function TurnAmount(v: Amount, rng: Rng): (r: Result<int>)
    ensures v.Flat? ==> r == Ok(v.n)
    ensures v.Text? && v.s == "" ==> r == Ok(0)
    ensures v.Text? && v.s != "" ==> r == RollDice(v.s, rng)
  {
    if !v.Truthy() then Ok(0)
    else
      match v
      case Flat(n) => Ok(n)
      case Text(t) => RollDice(t, rng)
  }

  /** Whether a turn counts the effect down: it is not passive and has time
      left. */
  predicate CountsDown(cfg: EffectConfig, data: EffectData) {
    !cfg.IsPassive() && data.duration > 0
  }

  /** The number of `expired` entries of a log. */
  function CountExpired(log: seq<TickEntry>): nat {
    if |log| == 0 then 0 else CountExpired(log[..|log| - 1]) + (if log[|log| - 1].Expired? then 1 else 0)
  }

  lemma {:induction false} CountExpiredAppend(a: seq<TickEntry>, b: seq<TickEntry>)
    ensures CountExpired(a + b) == CountExpired(a) + CountExpired(b)
    decreases |b|
  {
    if |b| > 0 {
      assert (a + b)[..|a + b| - 1] == a + b[..|b| - 1];
      CountExpiredAppend(a, b[..|b| - 1]);
    } else {
      assert a + b == a;
    }
  }

  /** The damage and healing part of one effect's turn: the new hit points
      and the log entries. Damage never takes hit points below 0 and healing
      never above the maximum; only positive amounts are applied and
      logged. */
  function EffectTurn(c: Character, cfg: EffectConfig, name: string, data: EffectData, rngDamage: Rng, rngHeal: Rng): (r: Result<(int, seq<TickEntry>)>)
    ensures r.Ok? <==> TurnAmount(data.power, rngDamage).Ok? && TurnAmount(cfg.healPerTurn.GetOr(Flat(0)), rngHeal).Ok?
    ensures r.Ok? && 0 <= c.hp <= c.hpMax ==> 0 <= r.value.0 <= c.hpMax
    ensures r.Ok? ==> |r.value.1| <= 2 && CountExpired(r.value.1) == 0
    ensures r.Ok? ==> forall j :: 0 <= j < |r.value.1| ==> r.value.1[j].effect == name && !r.value.1[j].Expired? && r.value.1[j].amount > 0
    ensures r.Ok? && c.hp <= c.hpMax && r.value.0 < c.hp ==> |r.value.1| > 0 && r.value.1[0].Damaged?
  {
    match TurnAmount(data.power, rngDamage)
    case Err(e) => Err(e)
    case Ok(damage) =>
      match TurnAmount(cfg.healPerTurn.GetOr(Flat(0)), rngHeal)
      case Err(e) => Err(e)
      case Ok(healing) => Ok(ApplyAmounts(c, name, damage, healing))
  }

  /** The hit points and log entries once the damage and the healing of a
      turn are known. */
  function ApplyAmounts(c: Character, name: string, damage: int, healing: int): (r: (int, seq<TickEntry>))
    ensures 0 <= c.hp <= c.hpMax ==> 0 <= r.0 <= c.hpMax
    ensures |r.1| <= 2 && CountExpired(r.1) == 0
    ensures forall j :: 0 <= j < |r.1| ==> r.1[j].effect == name && !r.1[j].Expired? && r.1[j].amount > 0
    ensures c.hp <= c.hpMax && r.0 < c.hp ==> |r.1| > 0 && r.1[0].Damaged?
  {
    var hp1 := if damage > 0 then Max(0, c.hp - damage) else c.hp;
    var hp2 := if healing > 0 then Min(hp1 + healing, c.hpMax) else hp1;
    var log :=
      if damage > 0 && healing > 0 then [Damaged(name, damage), Healed(name, healing)]
      else if damage > 0 then [Damaged(name, damage)]
      else if healing > 0 then [Healed(name, healing)]
      else [];
    NoneExpired(log);
    (hp2, log)
  }

  /** A log without `expired` entries counts none. */
  lemma {:induction false} NoneExpired(log: seq<TickEntry>)
    requires forall j :: 0 <= j < |log| ==> !log[j].Expired?
    ensures CountExpired(log) == 0
    decreases |log|
  {
    if |log| > 0 {
      NoneExpired(log[..|log| - 1]);
    }
  }

  /** The countdown part of one effect's turn: the effects afterwards and
      the `expired` entry, if any. */
  function Countdown(effects: Dict<EffectData>, cfg: EffectConfig, name: string, data: EffectData): (r: (Dict<EffectData>, seq<TickEntry>))
    ensures CountExpired(r.1) == if CountsDown(cfg, data) && data.duration == 1 then 1 else 0
    ensures forall j :: 0 <= j < |r.1| ==> r.1[j] == Expired(name)
  {
    if !CountsDown(cfg, data) then (effects, [])
    else if data.duration - 1 <= 0 then
      assert [Expired(name)][..0] == [];
      (Remove(effects, name), [Expired(name)])
    else (Put(effects, name, data.(duration := data.duration - 1)), [])
  }

  /** The state of a turn in progress: the character, the live effects and
      the log so far. */
  datatype Ticked = Ticked(character: Character, effects: Dict<EffectData>, log: seq<TickEntry>)

  /** Effect `name`'s damage and configured healing can both be worked
      out: each is falsy, an integer, or dice text that rolls. */
  predicate TurnSucceeds(config: Config, name: string, data: EffectData, rngDamage: Rng, rngHeal: Rng) {
    && TurnAmount(data.power, rngDamage).Ok?
    && TurnAmount(EffectConfigOf(config, name).healPerTurn.GetOr(Flat(0)), rngHeal).Ok?
  }

  /** One effect's turn: its damage, then its configured healing, then its
      countdown. */
  function TickEffect(t: Ticked, config: Config, name: string, data: EffectData, rngDamage: Rng, rngHeal: Rng): (r: Result<Ticked>)
    ensures r.Ok? <==> TurnSucceeds(config, name, data, rngDamage, rngHeal)
    ensures r.Ok? && 0 <= t.character.hp <= t.character.hpMax ==> 0 <= r.value.character.hp <= r.value.character.hpMax
    ensures r.Ok? ==> r.value.character == t.character.(hp := r.value.character.hp)
    ensures r.Ok? ==> |r.value.log| >= |t.log| && r.value.log[..|t.log|] == t.log
    ensures r.Ok? ==>
      var cfg := EffectConfigOf(config, name);
      && CountExpired(r.value.log) == CountExpired(t.log) + (if CountsDown(cfg, data) && data.duration == 1 then 1 else 0)
      && r.value.effects == Countdown(t.effects, cfg, name, data).0
  {
    var cfg := EffectConfigOf(config, name);
    var (hp, entries) :- EffectTurn(t.character, cfg, name, data, rngDamage, rngHeal);
    var (effects, expired) := Countdown(t.effects, cfg, name, data);
    var log := t.log + (entries + expired);
    CountExpiredAppend(t.log, entries + expired);
    CountExpiredAppend(entries, expired);
    assert log[..|t.log|] == t.log;
    Ok(Ticked(t.character.(hp := hp), effects, log))
  }

  /** The turn from entry `i` of the snapshot on. Effect `i` rolls its
      damage with `rolls(2 * i)` and its healing with `rolls(2 * i + 1)`. */
  function TickFrom(t: Ticked, snapshot: Dict<EffectData>, i: nat, config: Config, rolls: nat -> Rng): (r: Result<Ticked>)
    requires i <= |snapshot|
    ensures r.Ok? <==>
      forall j :: i <= j < |snapshot| ==> TurnSucceeds(config, snapshot[j].0, snapshot[j].1, rolls(2 * j), rolls(2 * j + 1))
    ensures r.Ok? && 0 <= t.character.hp <= t.character.hpMax ==> 0 <= r.value.character.hp <= r.value.character.hpMax
    ensures r.Ok? ==> r.value.character == t.character.(hp := r.value.character.hp)
    ensures r.Ok? ==> |r.value.log| >= |t.log| && r.value.log[..|t.log|] == t.log
    decreases |snapshot| - i
  {
    if i == |snapshot| then Ok(t)
    else
      match TickEffect(t, config, snapshot[i].0, snapshot[i].1, rolls(2 * i), rolls(2 * i + 1))
      case Err(e) => Err(e)
      case Ok(next) => TickFrom(next, snapshot, i + 1, config, rolls)
  }

  /** `tick_status_effects`. A die string that is not valid notation makes
      the turn fail. Only the hit points and the effects change; the report
      counts exactly the log entries. */
  function Tick(s: State, config: Config, rolls: nat -> Rng): (r: Result<(TickReport, State)>)
    ensures r.Ok? <==>
      forall j :: 0 <= j < |s.effects| ==> TurnSucceeds(config, s.effects[j].0, s.effects[j].1, rolls(2 * j), rolls(2 * j + 1))
    ensures r.Ok? ==>
      var (report, s') := r.value;
      && report.processed == |report.log|
      && report.hpRemaining == s'.character.hp
      && report.active == Keys(s'.effects)
      && s'.character == s.character.(hp := s'.character.hp)
      && s'.area == s.area
    ensures r.Ok? && 0 <= s.character.hp <= s.character.hpMax ==>
      0 <= r.value.1.character.hp <= s.character.hpMax
  {
    var t :- TickFrom(Ticked(s.character, s.effects, []), s.effects, 0, config, rolls);
    Ok((TickReport(|t.log|, t.log, t.character.hp, Keys(t.effects)),
        s.(character := t.character, effects := t.effects)))
  }

  // ---------------------------------------------------------------------------
  // The effects after a turn, defined entry by entry

  /** The effects left after one turn, computed without rolling anything:
      passive effects and effects without time left stay as they are, an
      effect with one turn left is gone, any other loses one turn. */
  function Survivors(d: Dict<EffectData>, config: Config): Dict<EffectData> {
    if |d| == 0 then []
    else
      var rest := Survivors(d[1..], config);
      var (name, data) := d[0];
      if !CountsDown(EffectConfigOf(config, name), data) then [d[0]] + rest
      else if data.duration == 1 then rest
      else [(name, data.(duration := data.duration - 1))] + rest
  }
}

=== FILE: status_effects_proofs.dfy ===
/** Properties of status effects: what a turn leaves of the effects, the
    hit point bounds, and what applying an effect does to the others. */
module StatusEffectsProofs {
  import opened Results
  import opened Seqs
  import opened Assoc
  import opened DiceLib
  import opened DiceProofs
  import opened EngineState
  import opened StatusEffects

  // ---------------------------------------------------------------------------
  // Survivors

  lemma {:induction false} SurvivorsAppend(a: Dict<EffectData>, b: Dict<EffectData>, config: Config)
    ensures Survivors(a + b, config) == Survivors(a, config) + Survivors(b, config)
  {
    if |a| > 0 {
      assert (a + b)[0] == a[0];
      assert (a + b)[1..] == a[1..] + b;
      SurvivorsAppend(a[1..], b, config);
    } else {
      assert a + b == b;
    }
  }

  /** A turn never adds an effect, and keeps the order of the rest. */
  lemma {:induction false} SurvivorsKeys(d: Dict<EffectData>, config: Config)
    ensures |Survivors(d, config)| <= |d|
    ensures forall k :: k in Keys(Survivors(d, config)) ==> k in Keys(d)
  {
    if |d| > 0 {
      SurvivorsKeys(d[1..], config);
      var rest := Survivors(d[1..], config);
      var r := Survivors(d, config);
      assert Keys(d) == [d[0].0] + Keys(d[1..]);
      if r != rest {
        assert r[1..] == rest;
        assert Keys(r) == [r[0].0] + Keys(rest);
      }
    }
  }

  /** The key of entry `i` occurs nowhere else. */
  lemma UniqueKeyAt(d: Dict<EffectData>, i: nat)
    requires UniqueKeys(d) && i < |d|
    ensures d[i].0 !in Keys(d[..i])
    ensures d[i].0 !in Keys(d[i + 1..])
  {
    forall j | 0 <= j < i ensures Keys(d[..i])[j] != d[i].0 {
      assert Keys(d[..i])[j] == d[j].0;
    }
    var tail := d[i + 1..];
    forall j | 0 <= j < |tail| ensures Keys(tail)[j] != d[i].0 {
      assert tail[j] == d[i + 1 + j];
    }
  }

  /** `Survivors` of a single entry. */
  lemma SurvivorsOfOne(n: string, e: EffectData, config: Config)
    ensures var cfg := EffectConfigOf(config, n);
      Survivors([(n, e)], config)
        == if !CountsDown(cfg, e) then [(n, e)]
           else if e.duration == 1 then []
           else [(n, e.(duration := e.duration - 1))]
  {
    assert [(n, e)][1..] == [];
  }

  /** One countdown replaces the entry in place, or deletes it, just as
      `Survivors` does for that entry alone. */
  lemma CountdownInPlace(a: Dict<EffectData>, n: string, e: EffectData, b: Dict<EffectData>, config: Config)
    requires n !in Keys(a) && n !in Keys(b)
    ensures Countdown(a + [(n, e)] + b, EffectConfigOf(config, n), n, e).0 == a + Survivors([(n, e)], config) + b
  {
    var cfg := EffectConfigOf(config, n);
    var one := Survivors([(n, e)], config);
    SurvivorsOfOne(n, e, config);
    if !CountsDown(cfg, e) {
      CountdownKeeps(a + [(n, e)] + b, n, e, cfg);
      assert one == [(n, e)];
    } else if e.duration == 1 {
      CountdownDeletes(a, n, e, b, cfg);
      SurvivorsAroundDeleted(a, n, e, b, config);
    } else {
      CountdownDecrements(a, n, e, b, cfg);
      assert one == [(n, e.(duration := e.duration - 1))];
    }
  }

  lemma SurvivorsAroundDeleted(a: Dict<EffectData>, n: string, e: EffectData, b: Dict<EffectData>, config: Config)
    requires CountsDown(EffectConfigOf(config, n), e) && e.duration == 1
    ensures a + Survivors([(n, e)], config) + b == a + b
  {
    SurvivorsOfOne(n, e, config);
    assert a + [] + b == a + b;
  }

  lemma CountdownKeeps(d: Dict<EffectData>, n: string, e: EffectData, cfg: EffectConfig)
    requires !CountsDown(cfg, e)
    ensures Countdown(d, cfg, n, e).0 == d
  {
  }

  lemma CountdownDeletes(a: Dict<EffectData>, n: string, e: EffectData, b: Dict<EffectData>, cfg: EffectConfig)
    requires n !in Keys(a) && n !in Keys(b)
    requires CountsDown(cfg, e) && e.duration == 1
    ensures Countdown(a + [(n, e)] + b, cfg, n, e).0 == a + b
  {
    RemoveAt(a, n, e, b);
  }

  lemma CountdownDecrements(a: Dict<EffectData>, n: string, e: EffectData, b: Dict<EffectData>, cfg: EffectConfig)
    requires n !in Keys(a)
    requires CountsDown(cfg, e) && e.duration > 1
    ensures Countdown(a + [(n, e)] + b, cfg, n, e).0 == a + [(n, e.(duration := e.duration - 1))] + b
  {
    PutAt(a, n, e, e.(duration := e.duration - 1), b);
  }

  /** The turn from entry `i` on takes the effects from "entries before `i`
      already counted down" to "all entries counted down", and logs one
      `expired` entry per effect that goes. */
  lemma {:induction false} TickFromSurvivors(t: Ticked, snapshot: Dict<EffectData>, i: nat, config: Config, rolls: nat -> Rng)
    requires i <= |snapshot| && UniqueKeys(snapshot)
    requires t.effects == Survivors(snapshot[..i], config) + snapshot[i..]
    requires TickFrom(t, snapshot, i, config, rolls).Ok?
    ensures var r := TickFrom(t, snapshot, i, config, rolls).value;
      && r.effects == Survivors(snapshot, config)
      && CountExpired(r.log) == CountExpired(t.log) + (|snapshot| - i) - |Survivors(snapshot[i..], config)|
    decreases |snapshot| - i
  {
    if i == |snapshot| {
      assert snapshot[..i] == snapshot;
      assert snapshot[i..] == [];
    } else {
      var next := TickEffect(t, config, snapshot[i].0, snapshot[i].1, rolls(2 * i), rolls(2 * i + 1)).value;
      TickStep(t, snapshot, i, config, rolls);
      TickFromUnfold(t, snapshot, i, config, rolls);
      TickFromSurvivors(next, snapshot, i + 1, config, rolls);
      SplitAt(snapshot, i);
      SurvivorsAppend([snapshot[i]], snapshot[i + 1..], config);
    }
  }

  /** A turn from entry `i` on is effect `i`'s turn, then the turn from
      entry `i + 1` on. */
  lemma TickFromUnfold(t: Ticked, snapshot: Dict<EffectData>, i: nat, config: Config, rolls: nat -> Rng)
    requires i < |snapshot|
    requires TickEffect(t, config, snapshot[i].0, snapshot[i].1, rolls(2 * i), rolls(2 * i + 1)).Ok?
    ensures var next := TickEffect(t, config, snapshot[i].0, snapshot[i].1, rolls(2 * i), rolls(2 * i + 1)).value;
      TickFrom(t, snapshot, i, config, rolls) == TickFrom(next, snapshot, i + 1, config, rolls)
  {
  }

  /** One effect's turn moves the boundary between counted-down and
      untouched entries on by one. */
  lemma TickStep(t: Ticked, snapshot: Dict<EffectData>, i: nat, config: Config, rolls: nat -> Rng)
    requires i < |snapshot| && UniqueKeys(snapshot)
    requires t.effects == Survivors(snapshot[..i], config) + snapshot[i..]
    requires TickEffect(t, config, snapshot[i].0, snapshot[i].1, rolls(2 * i), rolls(2 * i + 1)).Ok?
    ensures var next := TickEffect(t, config, snapshot[i].0, snapshot[i].1, rolls(2 * i), rolls(2 * i + 1)).value;
      && next.effects == Survivors(snapshot[..i + 1], config) + snapshot[i + 1..]
      && CountExpired(next.log) == CountExpired(t.log) + 1 - |Survivors([snapshot[i]], config)|
  {
    var n := snapshot[i].0;
    var e := snapshot[i].1;
    var a := Survivors(snapshot[..i], config);
    var b := snapshot[i + 1..];
    SplitAt(snapshot, i);
    assert snapshot[i] == (n, e);
    assert t.effects == a + [(n, e)] + b;
    UniqueKeyAt(snapshot, i);
    SurvivorsKeys(snapshot[..i], config);
    SurvivorsAppend(snapshot[..i], [(n, e)], config);
    CountdownInPlace(a, n, e, b, config);
    SurvivorsOfOne(n, e, config);
  }

  /** After a turn the effects are exactly `Survivors` of the effects before
      it, whatever the dice rolled, and the log holds one `expired` entry per
      effect that went. */
  lemma TickLeavesSurvivors(s: State, config: Config, rolls: nat -> Rng)
    requires UniqueKeys(s.effects)
    requires Tick(s, config, rolls).Ok?
    ensures var (report, s') := Tick(s, config, rolls).value;
      && s'.effects == Survivors(s.effects, config)
      && CountExpired(report.log) == |s.effects| - |s'.effects|
  {
    assert s.effects[..0] == [] && s.effects[0..] == s.effects;
    TickFromSurvivors(Ticked(s.character, s.effects, []), s.effects, 0, config, rolls);
  }

  /** What one turn does to one stored effect: `None` when it goes. */
  function AfterTurn(cfg: EffectConfig, e: EffectData): Option<EffectData> {
    if !CountsDown(cfg, e) then Some(e)
    else if e.duration == 1 then None
    else Some(e.(duration := e.duration - 1))
  }

  /** Key by key, `Survivors` keeps passive effects and effects without time
      left unchanged, deletes effects with one turn left and counts the rest
      down by one. */
  lemma {:induction false} SurvivorsGet(d: Dict<EffectData>, config: Config, k: string)
    requires UniqueKeys(d)
    ensures Get(Survivors(d, config), k)
      == match Get(d, k) case None => None case Some(e) => AfterTurn(EffectConfigOf(config, k), e)
  {
    if |d| > 0 {
      var rest := d[1..];
      assert UniqueKeys(rest) by {
        forall i, j | 0 <= i < j < |rest| ensures rest[i].0 != rest[j].0 {
          assert rest[i] == d[i + 1] && rest[j] == d[j + 1];
        }
      }
      SurvivorsGet(rest, config, k);
      var r := Survivors(d, config);
      var sr := Survivors(rest, config);
      if d[0].0 == k {
        UniqueKeyAt(d, 0);
        assert d[1..] == rest;
        assert Get(rest, k).None?;
        if r != sr {
          assert r[0].0 == k;
        }
      } else if r != sr {
        assert r[0].0 != k;
        assert r[1..] == sr;
      }
    }
  }

  /** A turn deletes an effect exactly when it is not passive and has one
      turn left; every other effect stays. */
  lemma TickRemovesExactlyExpiring(s: State, config: Config, rolls: nat -> Rng, k: string)
    requires UniqueKeys(s.effects)
    requires Tick(s, config, rolls).Ok?
    requires k in Keys(s.effects)
    ensures var (report, s') := Tick(s, config, rolls).value;
      var e := Get(s.effects, k).value;
      k !in report.active <==> CountsDown(EffectConfigOf(config, k), e) && e.duration == 1
  {
    TickLeavesSurvivors(s, config, rolls);
    SurvivorsGet(s.effects, config, k);
  }

  /** Applying an effect leaves every other effect as it was and keeps the
      names unique, so each name has exactly one entry. */
  lemma ApplyKeepsOtherEffects(s: State, config: Config, name: string, duration: Option<int>, power: Option<Amount>)
    ensures var (outcome, s') := ApplyStatusEffect(s, config, name, duration, power);
      forall k :: k != name ==> Get(s'.effects, k) == Get(s.effects, k)
    ensures var (outcome, s') := ApplyStatusEffect(s, config, name, duration, power);
      UniqueKeys(s.effects) ==> UniqueKeys(s'.effects)
  {
    var cfg := EffectConfigOf(config, name);
    if !cfg.IsEmpty() {
      var e := EffectData(StatusDuration(cfg, duration), StatusPower(cfg, power));
      PutOthers(s.effects, name, e);
      PutKeepsOrder(s.effects, name, e);
    }
  }

  lemma OneD4Bounds(rng: Rng)
    ensures RollDice("1d4", rng).Ok? && 1 <= RollDice("1d4", rng).value <= 4
  {
    assert Splits("1d4", 1, 3) && DiceAt("1d4", 1, 3) == Dice(1, 4, 0);
    ParseMatchesGrammar("1d4", Dice(1, 4, 0));
    assert Prepared("1d4") == "1d4";
    RollBounds("1d4", rng);
  }

  /** A stored power of `1d4` (the default of an item's status) deals 1 to 4
      damage in a turn. */
  lemma DefaultPowerDamages(s: State, config: Config, rolls: nat -> Rng, name: string, duration: int)
    requires s.effects == [(name, EffectData(duration, Text("1d4")))]
    requires EffectConfigOf(config, name).healPerTurn.None?
    ensures Tick(s, config, rolls).Ok?
    ensures var (report, s') := Tick(s, config, rolls).value;
      && |report.log| >= 1 && report.log[0].Damaged?
      && 1 <= report.log[0].amount <= 4
      && s'.character.hp == Max(0, s.character.hp - report.log[0].amount)
  {
    var data := EffectData(duration, Text("1d4"));
    var t := Ticked(s.character, s.effects, []);
    D4Turn(t, config, name, data, rolls(0), rolls(1));
    var next := TickEffect(t, config, name, data, rolls(0), rolls(1)).value;
    TickFromUnfold(t, s.effects, 0, config, rolls);
    assert TickFrom(next, s.effects, 1, config, rolls) == Ok(next);
    TickReports(s, config, rolls, next);
  }

  /** The turn's report and state, from the walk over the effects. */
  lemma TickReports(s: State, config: Config, rolls: nat -> Rng, t: Ticked)
    requires TickFrom(Ticked(s.character, s.effects, []), s.effects, 0, config, rolls) == Ok(t)
    ensures Tick(s, config, rolls) == Ok((TickReport(|t.log|, t.log, t.character.hp, Keys(t.effects)),
                                          s.(character := t.character, effects := t.effects)))
  {
  }

  /** One turn of a `1d4` effect without healing logs the damage first. */
  lemma D4Turn(t: Ticked, config: Config, name: string, data: EffectData, rngDamage: Rng, rngHeal: Rng)
    requires data.power == Text("1d4")
    requires EffectConfigOf(config, name).healPerTurn.None?
    ensures RollDice("1d4", rngDamage).Ok?
    ensures var v := RollDice("1d4", rngDamage).value;
      var r := TickEffect(t, config, name, data, rngDamage, rngHeal);
      && 1 <= v <= 4
      && r.Ok? && |r.value.log| >= |t.log| + 1 && r.value.log[|t.log|] == Damaged(name, v)
      && r.value.character.hp == Max(0, t.character.hp - v)
  {
    OneD4Bounds(rngDamage);
    var v := RollDice("1d4", rngDamage).value;
    var cfg := EffectConfigOf(config, name);
    D4EffectTurn(t.character, cfg, name, data, rngDamage, rngHeal);
    var (effects, expired) := Countdown(t.effects, cfg, name, data);
    assert (t.log + ([Damaged(name, v)] + expired))[|t.log|] == Damaged(name, v);
  }

  lemma D4EffectTurn(c: Character, cfg: EffectConfig, name: string, data: EffectData, rngDamage: Rng, rngHeal: Rng)
    requires data.power == Text("1d4")
    requires cfg.healPerTurn.None?
    requires RollDice("1d4", rngDamage).Ok? && 1 <= RollDice("1d4", rngDamage).value
    ensures var v := RollDice("1d4", rngDamage).value;
      EffectTurn(c, cfg, name, data, rngDamage, rngHeal) == Ok((Max(0, c.hp - v), [Damaged(name, v)]))
  {
    var v := RollDice("1d4", rngDamage).value;
    EffectTurnNoHeal(c, cfg, name, data, rngDamage, rngHeal);
    DamageOnly(c, name, v);
  }

  /** Without healing the turn applies the rolled damage alone. */
  lemma EffectTurnNoHeal(c: Character, cfg: EffectConfig, name: string, data: EffectData, rngDamage: Rng, rngHeal: Rng)
    requires data.power == Text("1d4")
    requires cfg.healPerTurn.None?
    requires RollDice("1d4", rngDamage).Ok?
    ensures EffectTurn(c, cfg, name, data, rngDamage, rngHeal) == Ok(ApplyAmounts(c, name, RollDice("1d4", rngDamage).value, 0))
  {
    assert TurnAmount(data.power, rngDamage) == RollDice("1d4", rngDamage);
    assert TurnAmount(cfg.healPerTurn.GetOr(Flat(0)), rngHeal) == Ok(0);
  }

  /** A positive damage and no healing: one damage entry. */
  lemma DamageOnly(c: Character, name: string, v: int)
    requires 1 <= v
    ensures ApplyAmounts(c, name, v, 0) == (Max(0, c.hp - v), [Damaged(name, v)])
  {
  }
}

=== FILE: tool_dice.dfy ===
/** The standalone dice tool (`tools/dice.py`): a permissive `roll` that
    reads plain numbers, resource changes such as `hp-15` and dice
    notation, and a d20 `check` with advantage and disadvantage. Die draws
    come from an `Rng` as in the dice library. */
module ToolDice {
  import opened Results
  import opened Ascii
  import opened DiceLib
  import opened DiceProofs

  // ---------------------------------------------------------------------------
  // roll

  /** The outcome of `roll`. A `Failed` roll reports 0 with an `Error:`
      breakdown; `EvalFallback` is the branch that hands the text to
      Python's `eval`, which is not part of this model. */
  datatype ToolRoll =
    | Number(value: int)
    | Keyword(value: int)
    | Rolled(rolls: seq<int>, modifier: int, total: int, critical: bool)
    | Failed
    | EvalFallback

  /** `expression.replace('-', '').replace('+', '')`. */
  function StripSigns(s: string): (r: string)
    ensures |r| <= |s|
    ensures forall k :: 0 <= k < |r| ==> !IsSign(r[k])
    ensures (forall k :: 0 <= k < |s| ==> !IsSign(s[k])) ==> r == s
  {
    if |s| == 0 then []
    else if IsSign(s[0]) then StripSigns(s[1..])
    else [s[0]] + StripSigns(s[1..])
  }

  /** `str.isdigit()`: non-empty and all digits. */
  predicate IsDigitText(s: string) {
    0 < |s| && AllDigits(s)
  }

  /** Whether the lower-cased text mentions a resource: `hp`, `mp`, `xp`
      or `gold`. */
  predicate MentionsResource(s: string) {
    var l := Lower(s);
    Contains(l, "hp") || Contains(l, "mp") || Contains(l, "xp") || Contains(l, "gold")
  }

  /** `re.search(r'[-+]?\d+', s)` from position `i` on, converted with
      `int()`: the leftmost integer, with the sign just before it. */
  function FirstInt(s: string, i: nat): (r: Option<int>)
    requires i <= |s|
    ensures r.None? <==> forall k :: i <= k < |s| ==> !IsDigit(s[k])
    decreases |s| - i
  {
    if i == |s| then None
    else if i + 1 < |s| && IsSign(s[i]) && IsDigit(s[i + 1]) then
      var j := DigitRun(s, i + 1);
      Some(if s[i] == '-' then -(DigitsValue(s[i + 1..j]) as int) else DigitsValue(s[i + 1..j]))
    else if IsDigit(s[i]) then
      Some(DigitsValue(s[i..DigitRun(s, i)]))
    else FirstInt(s, i + 1)
  }

  /** The integer found is the leftmost digit run at or after `i`, negative
      exactly when a `-` stands just before it inside the searched text (a
      `+` there, or a sign before `i`, leaves it positive). */
  lemma {:induction false} FirstIntLeftmost(s: string, i: nat, k: nat)
    requires i <= k < |s| && IsDigit(s[k])
    requires forall m :: i <= m < k ==> !IsDigit(s[m])
    ensures var d := DigitsValue(s[k..DigitRun(s, k)]);
      FirstInt(s, i) == Some(if k > i && s[k - 1] == '-' then -(d as int) else d)
    decreases k - i
  {
    if k > i && !(k == i + 1 && IsSign(s[i])) {
      FirstIntLeftmost(s, i + 1, k);
    }
  }

  /** `re.match(r'(\d+)d(\d+)([+-]\d+)?', t)`: count, die size and modifier
      at the start of `t`; whatever follows is ignored. The pattern matches
      whenever some prefix of `t` is strict dice notation;
      `MatchIsParsedPrefix` shows the converse, with the same triple. */
  function MatchDice(t: string): (r: Option<Dice>)
    ensures forall k :: 0 < k <= |t| && ParseNormalized(t[..k]).Ok? ==> r.Some?
  {
    var i := DigitRun(t, 0);
    if i == 0 || i == |t| || t[i] != 'd' then
      NoPrefixParses(t);
      None
    else
      var j := DigitRun(t, i + 1);
      if j == i + 1 then
        NoPrefixParses(t);
        None
      else
        var m :=
          if j + 1 < |t| && IsSign(t[j]) && IsDigit(t[j + 1]) then SignedValue(t[j..DigitRun(t, j + 1)])
          else 0;
        Some(Dice(DigitsValue(t[..i]), DigitsValue(t[i + 1..j]), m))
  }

  /** What the pattern matches is a prefix of the text that the library's
      strict parser reads as the same triple. */
  lemma MatchIsParsedPrefix(t: string)
    requires MatchDice(t).Some?
    ensures exists k :: 0 < k <= |t| && ParseNormalized(t[..k]) == Ok(MatchDice(t).value)
  {
    var i := DigitRun(t, 0);
    var j := DigitRun(t, i + 1);
    var signed := j + 1 < |t| && IsSign(t[j]) && IsDigit(t[j + 1]);
    var k := if signed then DigitRun(t, j + 1) else j;
    MatchedPrefixParses(t, i, j, k, MatchDice(t).value);
  }

  /** The text the pattern matched, from the start up to `k`, is strict
      notation for the triple it read. */
  lemma MatchedPrefixParses(t: string, i: nat, j: nat, k: nat, d: Dice)
    requires i == DigitRun(t, 0) && 0 < i < |t| && t[i] == 'd'
    requires j == DigitRun(t, i + 1) && j != i + 1
    requires var signed := j + 1 < |t| && IsSign(t[j]) && IsDigit(t[j + 1]);
      && k == (if signed then DigitRun(t, j + 1) else j)
      && d == Dice(DigitsValue(t[..i]), DigitsValue(t[i + 1..j]), if signed then SignedValue(t[j..k]) else 0)
    ensures 0 < k <= |t| && ParseNormalized(t[..k]) == Ok(d)
  {
    var p := t[..k];
    assert p[..i] == t[0..i];
    assert p[i + 1..j] == t[i + 1..j];
    assert p[j..] == t[j..k];
    if j + 1 < |t| && IsSign(t[j]) && IsDigit(t[j + 1]) {
      assert t[j..k][1..] == t[j + 1..k];
      assert SignedDigits(t[j..k]);
    }
    SplitsParse(p, i, j, d);
  }

  /** Where the pattern finds no notation at the start, no prefix of the
      text is strict notation. */
  lemma NoPrefixParses(t: string)
    requires var i := DigitRun(t, 0);
      i == 0 || i == |t| || t[i] != 'd' || DigitRun(t, i + 1) == i + 1
    ensures forall k :: 0 < k <= |t| ==> ParseNormalized(t[..k]).Err?
  {
    forall k | 0 < k <= |t|
      ensures ParseNormalized(t[..k]).Err?
    {
      if ParseNormalized(t[..k]).Ok? {
        ParsedPrefixStarts(t, k);
      }
    }
  }

  /** A prefix the strict parser reads starts with a count, a `d` and the
      first digit of a die size. */
  lemma ParsedPrefixStarts(t: string, k: nat)
    requires 0 < k <= |t| && ParseNormalized(t[..k]).Ok?
    ensures var i := DigitRun(t, 0);
      0 < i < |t| && t[i] == 'd' && DigitRun(t, i + 1) != i + 1
  {
    var p := t[..k];
    ParsedSplits(p, ParseNormalized(p).value);
    var i := DigitRun(p, 0);
    var j := DigitRun(p, i + 1);
    assert t[0..i] == p[..i];
    assert t[i] == p[i];
    DigitRunUnique(t, 0, i);
    assert t[i + 1] == p[i + 1..j][0];
  }

  /** Whatever the strict library parser reads, the permissive tool pattern
      reads the same way. */
  lemma MatchAgreesWithParser(t: string, d: Dice)
    requires ParseNormalized(t) == Ok(d)
    ensures MatchDice(t) == Some(d)
  {
    var i := DigitRun(t, 0);
    assert 0 < i < |t| && t[i] == 'd';
    var j := DigitRun(t, i + 1);
    assert j != i + 1;
    assert ParseTail(t[j..]) == Some(d.modifier);
    assert d == Dice(DigitsValue(t[..i]), DigitsValue(t[i + 1..j]), d.modifier);
    TailModifier(t, j, d.modifier);
    var m := if j + 1 < |t| && IsSign(t[j]) && IsDigit(t[j + 1]) then SignedValue(t[j..DigitRun(t, j + 1)]) else 0;
    assert m == d.modifier;
  }

  /** The modifier the strict parser reads after the die size is the one
      the tool's pattern finds there. */
  lemma TailModifier(t: string, j: nat, m: int)
    requires j <= |t| && ParseTail(t[j..]) == Some(m)
    ensures j + 1 < |t| && IsSign(t[j]) && IsDigit(t[j + 1]) ==>
      && j + 1 <= DigitRun(t, j + 1) <= |t|
      && SignedDigits(t[j..DigitRun(t, j + 1)])
      && SignedValue(t[j..DigitRun(t, j + 1)]) == m
    ensures !(j + 1 < |t| && IsSign(t[j]) && IsDigit(t[j + 1])) ==> m == 0
  {
    var r := t[j..];
    var body := if 0 < |r| && r[|r| - 1] == '\n' then r[..|r| - 1] else r;
    assert t[j..j + |body|] == body;
    assert j + |body| == |t| || t[j + |body|] == '\n';
    if SignedDigits(body) {
      SignedTailMatches(t, j, body);
    } else {
      assert body == [];
      NoSignedTail(t, j);
    }
  }

  /** A signed modifier that runs to the end of the text, or to a final
      newline, is the one the tool's pattern finds. */
  lemma SignedTailMatches(t: string, j: nat, body: string)
    requires j + |body| <= |t| && t[j..j + |body|] == body
    requires j + |body| == |t| || t[j + |body|] == '\n'
    requires SignedDigits(body)
    ensures j + 1 < |t| && IsSign(t[j]) && IsDigit(t[j + 1])
    ensures DigitRun(t, j + 1) == j + |body|
    ensures t[j..DigitRun(t, j + 1)] == body
  {
    var k := j + |body|;
    assert AllDigits(t[j + 1..k]) by {
      assert t[j + 1..k] == body[1..];
    }
    assert t[j + 1] == body[1];
    DigitRunUnique(t, j + 1, k);
  }

  /** Nothing, or just a newline, after the die size gives no modifier. */
  lemma NoSignedTail(t: string, j: nat)
    requires j <= |t|
    requires j == |t| || t[j] == '\n'
    ensures !(j + 1 < |t| && IsSign(t[j]) && IsDigit(t[j + 1]))
  {
  }

  /** The dice branch of `roll` once the notation matched: a die size of 0
      with at least one die fails, and a single d20 showing 20 is
      critical. A roll of `NdS+M` lies in [N+M, N*S+M]. */
  function RollMatched(d: Dice, rng: Rng): (r: ToolRoll)
    ensures r.Failed? <==> 0 < d.count && d.sides < 1
    ensures r.Failed? || r.Rolled?
    ensures r.Rolled? ==>
      && |r.rolls| == d.count
      && (forall k :: 0 <= k < d.count ==> 1 <= r.rolls[k] <= d.sides)
      && r.modifier == d.modifier
      && r.total == Sum(r.rolls) + d.modifier
      && d.count + d.modifier <= r.total <= d.count * d.sides + d.modifier
      && (r.critical <==> d.count == 1 && d.sides == 20 && r.rolls[0] == 20)
  {
    if 0 < d.count && d.sides < 1 then Failed
    else
      var rolls := Faces(rng, d.count, d.sides);
      SumBounds(rolls, 1, d.sides);
      Rolled(rolls, d.modifier, Sum(rolls) + d.modifier, d.count == 1 && d.sides == 20 && rolls[0] == 20)
  }

  /** `roll(expression)`. Text that is all digits once its signs are
      dropped is read with `int()` (failing for `1-2`); text that mentions
      a resource yields its first integer, or 0; dice notation at the start
      of the lower-cased text is rolled, and wherever the dice library's
      parser reads that text the roll is of the same dice. A die size of 0
      with at least one die fails. */
  function ToolRollOf(expression: string, rng: Rng): (r: ToolRoll)
    ensures IsDigitText(StripSigns(expression)) ==>
      && (r.Number? || r.Failed?)
      && (r.Number? <==> ParseIntLiteral(expression).Some?)
      && (r.Number? ==> r.value == ParseIntLiteral(expression).value)
    ensures !IsDigitText(StripSigns(expression)) && MentionsResource(expression) ==>
      && r.Keyword?
      && (FirstInt(expression, 0).None? ==> r.value == 0)
      && (FirstInt(expression, 0).Some? ==> r.value == FirstInt(expression, 0).value)
    ensures !IsDigitText(StripSigns(expression)) && !MentionsResource(expression) ==>
      (r.EvalFallback? <==> MatchDice(Lower(expression)).None?)
    ensures (!IsDigitText(StripSigns(expression)) && !MentionsResource(expression)
             && MatchDice(Lower(expression)).Some?) ==>
      r == RollMatched(MatchDice(Lower(expression)).value, rng)
    ensures (!IsDigitText(StripSigns(expression)) && !MentionsResource(expression)
             && ParseNormalized(Lower(expression)).Ok?) ==>
      r == RollMatched(ParseNormalized(Lower(expression)).value, rng)
    ensures r.Rolled? ==>
      var d := MatchDice(Lower(expression)).value;
      && MatchDice(Lower(expression)).Some?
      && |r.rolls| == d.count
      && d.count + d.modifier <= r.total <= d.count * d.sides + d.modifier
  {
    if IsDigitText(StripSigns(expression)) then
      match ParseIntLiteral(expression)
      case Some(v) => Number(v)
      case None => Failed
    else if MentionsResource(expression) then Keyword(FirstInt(expression, 0).GetOr(0))
    else
      var t := Lower(expression);
      assert ParseNormalized(t).Ok? ==> MatchDice(t) == Some(ParseNormalized(t).value) by {
        if ParseNormalized(t).Ok? {
          MatchAgreesWithParser(t, ParseNormalized(t).value);
        }
      }
      match MatchDice(t)
      case None => EvalFallback
      case Some(d) => RollMatched(d, rng)
  }

  /** The `result` entry of a roll (the evaluated fallback has none here). */
  function ResultOf(r: ToolRoll): Option<int> {
    match r
    case Number(v) => Some(v)
    case Keyword(v) => Some(v)
    case Rolled(_, _, total, _) => Some(total)
    case Failed => Some(0)
    case EvalFallback => None
  }

  // ---------------------------------------------------------------------------
  // check

  datatype CheckReport = CheckReport(baseRoll: int, total: int, success: bool, margin: int, critical: bool, fumble: bool)

  /** `check(stat_bonus, dc, advantage, disadvantage)`: a d20 (the better
      of two with advantage, the worse of two with disadvantage, a single
      one when both or neither are asked for) plus the bonus against the
      difficulty. There is no automatic success or failure on a natural
      20 or 1; those only set the critical and fumble flags. */
  function Check(statBonus: int, dc: int, advantage: bool, disadvantage: bool, rng: Rng): (r: CheckReport)
    ensures 1 <= r.baseRoll <= 20
    ensures r.total == r.baseRoll + statBonus
    ensures r.success <==> r.total >= dc
    ensures r.margin == r.total - dc
    ensures r.critical <==> r.baseRoll == 20
    ensures r.fumble <==> r.baseRoll == 1
    ensures advantage == disadvantage ==> r.baseRoll == Face(rng, 0, 20)
    ensures advantage && !disadvantage ==>
      r.baseRoll == Max(Face(rng, 0, 20), Face(rng, 1, 20))
    ensures disadvantage && !advantage ==>
      r.baseRoll == Min(Face(rng, 0, 20), Face(rng, 1, 20))
  {
    var (adv, dis) := if advantage && disadvantage then (false, false) else (advantage, disadvantage);
    var first := Face(rng, 0, 20);
    var second := Face(rng, 1, 20);
    var base :=
      if adv then (if first >= second then first else second)
      else if dis then (if first <= second then first else second)
      else first;
    var total := base + statBonus;
    CheckReport(base, total, total >= dc, total - dc, base == 20, base == 1)
  }
}

=== FILE: tool_dice_proofs.dfy ===
/** Properties of the standalone dice tool: its dice pattern accepts every
    string the library parser accepts, with the same reading; rolls stay
    within the notation's bounds; and the d20 check orders advantage,
    plain and disadvantage. */
module ToolDiceProofs {
  import opened Results
  import opened Ascii
  import opened DiceLib
  import opened DiceProofs
  import opened ToolDice

  /** Plain numbers are read as they are; `1-2` passes the digit test but
      not `int()`. */
  lemma NumberExamples(rng: Rng)
    ensures ToolRollOf("15", rng) == Number(15)
    ensures ToolRollOf("-7", rng) == Number(-7)
    ensures ToolRollOf("1-2", rng) == Failed
  {
    PlainNumberRead();
    NegativeNumberRead();
    DashedNumberRejected();
  }

  lemma PlainNumberRead()
    ensures IsDigitText(StripSigns("15")) && ParseIntLiteral("15") == Some(15)
  {
    assert StripSigns("15") == "15";
    assert DigitsValue("15") == 15;
  }

  lemma NegativeNumberRead()
    ensures IsDigitText(StripSigns("-7")) && ParseIntLiteral("-7") == Some(-7)
  {
    assert StripSigns("-7") == "7";
    assert "-7"[1..] == "7";
  }

  lemma DashedNumberRejected()
    ensures IsDigitText(StripSigns("1-2")) && ParseIntLiteral("1-2").None?
  {
    assert StripSigns("1-2") == "12";
    assert !SignedDigits("1-2") by { assert !IsSign("1-2"[0]); }
    assert !AllDigits("1-2") by { assert !IsDigit("1-2"[1]); }
  }

  /** A resource change yields its signed number. */
  lemma KeywordExample(rng: Rng)
    ensures ToolRollOf("hp-15", rng) == Keyword(-15)
  {
    HpChangeIsNotANumber();
    HpChangeMentionsResource();
    FirstIntExample();
  }

  lemma HpChangeIsNotANumber()
    ensures !IsDigitText(StripSigns("hp-15"))
  {
    assert StripSigns("hp-15") == "hp15";
    assert !IsDigit("hp15"[0]);
  }

  lemma HpChangeMentionsResource()
    ensures MentionsResource("hp-15")
  {
    var s := "hp-15";
    assert Lower(s) == s;
    assert s[..2] == "hp";
  }

  /** The first integer of `hp-15` is -15, its sign included. */
  lemma FirstIntExample()
    ensures FirstInt("hp-15", 0) == Some(-15)
  {
    var s := "hp-15";
    assert !IsDigit(s[0]) && !IsSign(s[0]) && !IsDigit(s[1]) && !IsSign(s[1]);
    assert FirstInt(s, 0) == FirstInt(s, 1) == FirstInt(s, 2);
    DigitRunUnique(s, 3, 5);
    assert s[3..5] == "15";
    assert DigitsValue("15") == 15;
  }

  /** Text after the notation is ignored: `roll("2d6+3 fire")` rolls
      2d6+3, whatever the dice show. */
  lemma TrailingTextIgnored(rng: Rng)
    ensures ToolRollOf("2d6+3 fire", rng) == RollMatched(Dice(2, 6, 3), rng)
  {
    TrailingIsNotANumber();
    TrailingNamesNoResource();
    TrailingMatch();
  }

  lemma TrailingIsNotANumber()
    ensures !IsDigitText(StripSigns("2d6+3 fire"))
  {
    assert "2d6+3 fire"[1] == 'd';
    StripKeepsOthers("2d6+3 fire", 1);
  }

  /** Dropping the signs keeps every other character. */
  lemma {:induction false} StripKeepsOthers(s: string, k: nat)
    requires k < |s| && !IsSign(s[k])
    ensures s[k] in StripSigns(s)
    decreases k
  {
    if 0 < k {
      StripKeepsOthers(s[1..], k - 1);
    }
  }

  lemma TrailingNamesNoResource()
    ensures Lower("2d6+3 fire") == "2d6+3 fire"
    ensures !MentionsResource("2d6+3 fire")
  {
    TrailingLettersAbsent();
    TrailingLower();
    NoResourceLetters("2d6+3 fire");
  }

  lemma TrailingLettersAbsent()
    ensures 'h' !in "2d6+3 fire" && 'm' !in "2d6+3 fire" && 'x' !in "2d6+3 fire" && 'g' !in "2d6+3 fire"
  {
  }

  lemma TrailingLower()
    ensures Lower("2d6+3 fire") == "2d6+3 fire"
  {
    NoCapitals("2d6+3 fire");
  }

  /** Text without capitals is its own lower case. */
  lemma NoCapitals(s: string)
    requires forall k :: 0 <= k < |s| ==> !('A' <= s[k] <= 'Z')
    ensures Lower(s) == s
  {
    assert Lower(s) == s;
  }

  /** Lower-case text without the letters `h`, `m`, `x` and `g` names no
      resource. */
  lemma NoResourceLetters(l: string)
    requires Lower(l) == l
    requires 'h' !in l && 'm' !in l && 'x' !in l && 'g' !in l
    ensures !MentionsResource(l)
  {
    MissingFirstChar(l, "hp");
    MissingFirstChar(l, "mp");
    MissingFirstChar(l, "xp");
    MissingFirstChar(l, "gold");
  }

  lemma TrailingMatch()
    ensures MatchDice("2d6+3 fire") == Some(Dice(2, 6, 3))
  {
    var e := "2d6+3 fire";
    TrailingRuns();
    assert e[..1] == "2" && e[2..3] == "6" && e[3..5] == "+3";
  }

  /** Text without the first character of `needle` does not contain it. */
  lemma {:induction false} MissingFirstChar(hay: string, needle: string)
    requires 0 < |needle|
    requires needle[0] !in hay
    ensures !Contains(hay, needle)
    decreases |hay|
  {
    if |needle| <= |hay| {
      assert hay[..|needle|][0] == hay[0];
      MissingFirstChar(hay[1..], needle);
    }
  }

  lemma TrailingRuns()
    ensures DigitRun("2d6+3 fire", 0) == 1
    ensures DigitRun("2d6+3 fire", 2) == 3
    ensures DigitRun("2d6+3 fire", 4) == 5
  {
    var t := "2d6+3 fire";
    DigitRunUnique(t, 0, 1);
    DigitRunUnique(t, 2, 3);
    DigitRunUnique(t, 4, 5);
  }

  /** Advantage together with disadvantage is a plain roll. */
  lemma AdvantageCancels(statBonus: int, dc: int, rng: Rng)
    ensures Check(statBonus, dc, true, true, rng) == Check(statBonus, dc, false, false, rng)
  {
  }

  /** Advantage never does worse than a plain roll, and disadvantage never
      better. */
  lemma AdvantageOrder(statBonus: int, dc: int, rng: Rng)
    ensures Check(statBonus, dc, false, true, rng).total <= Check(statBonus, dc, false, false, rng).total
    ensures Check(statBonus, dc, false, false, rng).total <= Check(statBonus, dc, true, false, rng).total
  {
  }

  /** A natural 20 is critical but still fails against a difficulty out of
      reach: the tool has no automatic success. */
  lemma NoNaturalTwentyOverride()
    ensures var r := Check(0, 40, false, false, _ => 19);
      r.critical && !r.success
  {
  }
}

=== FILE: xp_tools.dfy ===
/** The standalone experience calculator (`tools/xp.py`): the cumulative
    experience table, the level it implies, the experience still needed,
    awarding experience, per-class stat gains, level titles and the
    same-level kill reward. */
module XpTools {
  import opened Results

  /** `XP_TABLE`: the experience that level `i + 1` requires, for levels 1
      to 20. */
  const XpTable: seq<int> :=
    [0, 100, 200, 400, 800, 1500, 2500, 4000, 6000, 9000,
     13000, 18000, 25000, 35000, 50000, 70000, 95000, 130000, 175000, 235000]

  const MaxLevel: int := 20

  /** The experience a level requires. */
  function Threshold(level: int): int
    requires 1 <= level <= MaxLevel
  {
    XpTable[level - 1]
  }

  /** The `for` loop of `calculate_level` from table entry `i` on, with
      `level` the level reached so far: it moves to each level whose
      requirement is met and stops at the first that is not. */
  function ScanLevel(xp: int, i: nat, level: int): (r: int)
    requires i <= MaxLevel
    requires i == 0 ==> level == 1
    requires i > 0 ==> level == i
    ensures level <= r <= MaxLevel
    decreases MaxLevel - i
  {
    if i == MaxLevel then level
    else if xp >= XpTable[i] then ScanLevel(xp, i + 1, i + 1)
    else level
  }

  /** The scan stops at a level whose requirement is met and whose
      successor's is not. */
  lemma {:induction false} ScanBrackets(xp: int, i: nat, level: int)
    requires i <= MaxLevel
    requires i == 0 ==> level == 1
    requires i > 0 ==> level == i && XpTable[i - 1] <= xp
    ensures var r := ScanLevel(xp, i, level);
      && (r == 1 || Threshold(r) <= xp)
      && (r == MaxLevel || xp < Threshold(r + 1))
    decreases MaxLevel - i
  {
    if i < MaxLevel && xp >= XpTable[i] {
      ScanBrackets(xp, i + 1, i + 1);
    }
  }

  /** `calculate_level`: the highest level whose requirement the
      experience meets, and 1 when it meets none (negative experience).
      The level is bracketed by its own requirement and the next one. */
  function CalculateLevel(xp: int): (level: int)
    ensures 1 <= level <= MaxLevel
    ensures level == 1 || Threshold(level) <= xp
    ensures xp < Threshold(2) ==> level == 1
    ensures level < MaxLevel ==> xp < Threshold(level + 1)
  {
    ScanBrackets(xp, 0, 1);
    ScanLevel(xp, 0, 1)
  }

  /** `xp_to_next_level` without its floating-point progress percentage:
      the experience still needed for the next level and that level's
      requirement, both 0 at the top level. */
  function XpToNextLevel(xp: int): (r: (int, int))
    ensures CalculateLevel(xp) >= MaxLevel ==> r == (0, 0)
    ensures CalculateLevel(xp) < MaxLevel ==>
      r.1 == Threshold(CalculateLevel(xp) + 1) && r.0 == r.1 - xp && r.0 > 0
  {
    var level := CalculateLevel(xp);
    if level >= MaxLevel then (0, 0)
    else (XpTable[level] - xp, XpTable[level])
  }

  datatype AwardReport = AwardReport(
    oldXp: int, newXp: int, xpGained: int,
    oldLevel: int, newLevel: int, leveledUp: bool,
    levelsGained: Option<int>, xpToNext: Option<int>)

  /** `award_xp(current_xp, amount, current_level)`: the new level is the
      one the new total implies; the old level is the one given, or else
      the one the old total implies. The level gain and the experience to
      the next level are reported only on a level-up. */
  function AwardXp(currentXp: int, amount: int, currentLevel: Option<int>): (r: AwardReport)
    ensures r.newXp == currentXp + amount && r.xpGained == amount && r.oldXp == currentXp
    ensures r.newLevel == CalculateLevel(currentXp + amount)
    ensures r.oldLevel == if currentLevel.Some? then currentLevel.value else CalculateLevel(currentXp)
    ensures r.leveledUp <==> r.newLevel > r.oldLevel
    ensures r.levelsGained.Some? <==> r.leveledUp
    ensures r.leveledUp ==> r.levelsGained == Some(r.newLevel - r.oldLevel) && r.levelsGained.value > 0
    ensures r.leveledUp ==> r.xpToNext == Some(XpToNextLevel(r.newXp).0)
  {
    var oldLevel := if currentLevel.Some? then currentLevel.value else CalculateLevel(currentXp);
    var newXp := currentXp + amount;
    var newLevel := CalculateLevel(newXp);
    var up := newLevel > oldLevel;
    AwardReport(currentXp, newXp, amount, oldLevel, newLevel, up,
                if up then Some(newLevel - oldLevel) else None,
                if up then Some(XpToNextLevel(newXp).0) else None)
  }

  /** One class of `CLASS_PROGRESSION`. */
  datatype ClassGains = ClassGains(hp: int, mp: int, stamina: int, primaryStats: seq<string>)

  /** `CLASS_PROGRESSION.get(cls, CLASS_PROGRESSION["warrior"])`. */
  function GainsOf(cls: string): ClassGains {
    match cls
    case "berserker" => ClassGains(15, 2, 10, ["strength", "constitution"])
    case "mage" => ClassGains(6, 12, 4, ["intelligence", "wisdom"])
    case "rogue" => ClassGains(8, 5, 10, ["dexterity", "charisma"])
    case _ => ClassGains(12, 3, 8, ["strength", "constitution"])
  }

  datatype StatIncrease = StatIncrease(hp: int, mp: int, stamina: int, statPoints: int, skillPoints: int, primaryStats: seq<string>)

  /** `calculate_stat_increase`: nothing unless the level rose; otherwise
      the class's gains once per level gained, two stat points and one
      skill point per level. The class name is matched exactly. */
  function CalculateStatIncrease(oldLevel: int, newLevel: int, cls: string): (r: Option<StatIncrease>)
    ensures r.None? <==> newLevel <= oldLevel
    ensures r.Some? ==>
      var n := newLevel - oldLevel;
      var g := GainsOf(cls);
      && r.value.hp == g.hp * n && r.value.mp == g.mp * n && r.value.stamina == g.stamina * n
      && r.value.statPoints == 2 * n && r.value.skillPoints == n
      && r.value.primaryStats == g.primaryStats
  {
    if newLevel <= oldLevel then None
    else
      var n := newLevel - oldLevel;
      var g := GainsOf(cls);
      Some(StatIncrease(g.hp * n, g.mp * n, g.stamina * n, n * 2, n, g.primaryStats))
  }

  /** The title thresholds of `get_level_title`, highest first. */
  const TitleLevels: seq<int> := [30, 25, 20, 15, 10, 5, 1]
  const TitleNames: seq<string> := ["Divine", "Mythic", "Legend", "Master", "Expert", "Journeyman", "Novice"]

  /** The title search from position `i` of the descending thresholds. */
  function TitleFrom(level: int, i: nat): (t: string)
    requires i <= |TitleLevels|
    ensures t == "Beginner" <==> forall k :: i <= k < |TitleLevels| ==> level < TitleLevels[k]
    ensures t != "Beginner" ==>
      exists k :: (i <= k < |TitleLevels| && level >= TitleLevels[k] && t == TitleNames[k]
                   && forall k' :: i <= k' < k ==> level < TitleLevels[k'])
    decreases |TitleLevels| - i
  {
    if i == |TitleLevels| then "Beginner"
    else if level >= TitleLevels[i] then TitleNames[i]
    else TitleFrom(level, i + 1)
  }

  /** `get_level_title`: the title of the highest threshold the level
      reaches, `Beginner` below level 1. */
  function LevelTitle(level: int): (t: string)
    ensures level < 1 <==> t == "Beginner"
    ensures level >= 1 ==>
      exists k :: 0 <= k < |TitleLevels| && TitleLevels[k] <= level && t == TitleNames[k]
        && forall k' :: 0 <= k' < |TitleLevels| && TitleLevels[k'] <= level ==> TitleLevels[k'] <= TitleLevels[k]
  {
    TitlesDescending();
    TitleFrom(level, 0)
  }

  /** The title thresholds strictly decrease. */
  lemma TitlesDescending()
    ensures forall a, b :: 0 <= a < b < |TitleLevels| ==> TitleLevels[b] < TitleLevels[a]
  {
  }

  /** `calculate_xp_reward` where it involves no floating point: a kill of
      the player's own level is worth exactly the base reward. The other
      cases scale by a floating-point multiplier and are not part of this
      model (`None`). */
  function XpReward(enemyLevel: int, playerLevel: int, baseXp: int): (r: Option<int>)
    ensures r.Some? <==> enemyLevel == playerLevel
    ensures r.Some? ==> r.value == baseXp
  {
    if enemyLevel == playerLevel then Some(baseXp) else None
  }
}

=== FILE: xp_tools_proofs.dfy ===
/** Properties of the experience calculator: the table increases, the
    level is the unique one bracketing the experience, it never falls as
    experience grows, and worked examples. */
module XpToolsProofs {
  import opened Results
  import opened XpTools

  /** Every level requires strictly more experience than the one below. */
  lemma TableIncreasing()
    ensures forall l :: 1 <= l < MaxLevel ==> Threshold(l) < Threshold(l + 1)
    ensures Threshold(1) == 0
  {
  }

  /** The increase carries over to any two levels. */
  lemma {:induction false} ThresholdOrder(a: int, b: int)
    requires 1 <= a <= b <= MaxLevel
    ensures Threshold(a) <= Threshold(b)
    ensures a < b ==> Threshold(a) < Threshold(b)
    decreases b - a
  {
    TableIncreasing();
    if a < b {
      ThresholdOrder(a + 1, b);
    }
  }

  /** The level is the only one bracketing the experience: any level whose
      requirement is met while the next one's is not is the computed
      level. */
  lemma LevelUnique(xp: int, l: int)
    requires 1 <= l <= MaxLevel && (l == 1 || Threshold(l) <= xp)
    requires l == MaxLevel || xp < Threshold(l + 1)
    ensures CalculateLevel(xp) == l
  {
    var c := CalculateLevel(xp);
    if c < l {
      ThresholdOrder(c + 1, l);
      assert false;
    } else if c > l {
      ThresholdOrder(l + 1, c);
      assert false;
    }
  }

  /** More experience never means a lower level. */
  lemma LevelMonotone(xp1: int, xp2: int)
    requires xp1 <= xp2
    ensures CalculateLevel(xp1) <= CalculateLevel(xp2)
  {
    var a, b := CalculateLevel(xp1), CalculateLevel(xp2);
    if a > b {
      ThresholdOrder(b + 1, a);
      assert false;
    }
  }

  /** 315 experience is level 3 with 85 to go to 400; negative experience
      is level 1; the last requirement reaches level 20, after which
      nothing is needed. */
  lemma LevelExamples()
    ensures CalculateLevel(315) == 3
    ensures XpToNextLevel(315) == (85, 400)
    ensures CalculateLevel(-5) == 1
    ensures CalculateLevel(235000) == 20
    ensures XpToNextLevel(300000) == (0, 0)
  {
    LevelUnique(315, 3);
    LevelUnique(235000, 20);
    LevelUnique(300000, 20);
  }

  /** A stated level is believed: 100 more experience at 315 with level 4
      claimed reaches level 4 (415), which is no level-up. */
  lemma AwardTrustsGivenLevel()
    ensures var r := AwardXp(315, 100, Some(4));
      r.newLevel == 4 && !r.leveledUp && r.levelsGained.None?
    ensures var r := AwardXp(315, 100, None);
      r.oldLevel == 3 && r.newLevel == 4 && r.leveledUp && r.levelsGained == Some(1)
  {
    LevelUnique(415, 4);
    LevelUnique(315, 3);
  }

  /** An unknown class gains like a warrior. */
  lemma UnknownClassIsWarrior(oldLevel: int, newLevel: int, cls: string)
    requires cls != "berserker" && cls != "mage" && cls != "rogue"
    ensures CalculateStatIncrease(oldLevel, newLevel, cls) == CalculateStatIncrease(oldLevel, newLevel, "warrior")
  {
  }

  /** Titles change at levels 1, 5, 10, 15, 20, 25 and 30. */
  lemma TitleExamples()
    ensures LevelTitle(1) == "Novice" && LevelTitle(4) == "Novice"
    ensures LevelTitle(7) == "Journeyman"
    ensures LevelTitle(0) == "Beginner"
  {
  }

  lemma TitleExamplesHigh()
    ensures LevelTitle(20) == "Legend"
    ensures LevelTitle(100) == "Divine"
  {
  }
}
